=== FILE: README.md ===
# Database backup to Google Drive, modelled in Dafny

The system dumps a PostgreSQL database from a Docker container into
`<backups>/<YYYY-MM-DD>/<db>_<YYYYMMDD_HHMMSS>_data.sql`. It catalogues those
dumps, mirrors them into a Google Drive folder tree (root folder, then one
folder per date), and exposes all of this through a command line and a small
web application guarded by JWT sessions. This project models that core as
pure functions over immutable data and proves properties about it.

The project has one module per component:

- `Config` (config.dfy): the configuration loader.
  - Process variables win over `.env` values.
  - Paths are derived from the working directory.
  - Two variables have defaults.
  - Three required groups are checked, in order.
- `Dumper` (dumper.dfy): one database dump, as the sequence of steps it takes.
  - The steps are mkdir, create, stderr pipe, start, read stderr, wait and stat.
  - Each failure point is an input of `DumpEnv`.
  - The file naming, the `docker exec … pg_dump` argument vector, and the error
    text are modelled, including how `fmt.Errorf` re-reads that text as a
    format string.
- `Catalog` (catalog.dfy): the local side.
  - A snapshot of the backup root is a `LocalFs`: date directories whose `*.sql`
    glob may fail, files that may fail to stat or open, and other entries.
  - Listing backups, the two "latest backup" selectors (one in the models
    package, one in the command), and size and date display.
- `Credentials` (credentials.dfy): the Drive token file.
  - Loading, saving and exchanging an authorisation code.
  - `CheckAuth` is true exactly when a token can be loaded.
- `Drive` (drive.dfy): the remote side.
  - Google Drive is an append-only store of objects with ids, names, a folder
    flag, parents and a trashed flag.
  - Lists answer the query text the code builds.
  - `Faults` says which lists and which creates fail.
  - Folder resolution, the existence check, `UploadFile` and
    `UploadAllBackups` are modelled.
- `Sync` (sync.dfy): idempotence of the uploader.
  - A failure-free `UploadAllBackups` leaves the store synced.
  - A synced store is a fixed point of any further run.
- `DriveScenarios` (drive_scenarios.dfy): concrete runs worked out object by object.
- `Auth` (auth.dfy): JWT issuing and validation, the bearer middleware, and
  credential checking.
  - JWT encoding and signing are function-valued parameters (`decode`,
    `sign`).
  - The `golang-jwt` library's own checks are modelled: the key function
    refuses non-HMAC methods, the signature must use the secret, and the
    `exp` and `nbf` claims are checked at the current instant `now`.
  - The user lookup and the bcrypt comparison are parameters too (`lookup`,
    `matches`).
- `AuthHandlers` (auth_handlers.dfy): login, `/api/me` and logout, including
  the cookies they set.
- `Handlers` (handlers.dfy): the index page gate, the action handlers (dump,
  upload latest, upload all, upload one, download) and the OAuth callback.
- `Cli` (cli.dfy): flag dispatch in `main`, and the fatal exit that ends it.
- `Clock`, `Text`, `Results` (clock.dfy, text.dfy, results.dfy): helpers.
  - `Clock` models `time.Time` as nanoseconds since the epoch plus a fixed zone
    offset, and the three `Format` layouts.
  - `Text` has decimal digits, split/join and `filepath.Base`/`Join` on clean
    paths.
  - `Results` has `Option` and `Result`.

Some inputs are taken as parameters:

- The clock reading.
- Environment lookups.
- The file system snapshot.
- The Drive store and its failures.
- The outcomes of exec, mkdir, create and stat.
- The JWT codec.
- The user database.

Some behaviour of the code is easy to misread, and the model follows the code:

- The dump file name ends in `_data.sql`, not `.sql` after the timestamp
  (internal/dbdump/dumper.go:55).
- The error for a failed `pg_dump` does not contain its standard error output.
  That output is only printed (internal/dbdump/dumper.go:103-108).
  `Dumper.StderrIgnored` states this.
- `os.ReadDir` and `filepath.Glob` return names in sorted order, so the
  "first encountered" tie-break among equally recent backups is deterministic.
  The model takes the entry sequence as given and picks the first index.
- Only files that fail to stat are skipped. A date directory whose glob fails
  is skipped as a whole. A date directory is never stat-ed on its own: the
  listing of the root already says which entries are directories
  (internal/models/backup.go:57-66).

## Model

| member | source | states |
|---|---|---|
| Config.Merge | internal/config/config.go:33 | `godotenv.Load` never overrides a variable already set: process values win, `.env` values fill in the rest, and nothing else appears |
| Config.LoadConfig | internal/config/config.go:31-103 | a failed `.env` read, then a failed `Getwd`, are reported first with their prefixes; otherwise the first missing group in the order DB, Google, admin decides the error, and loading succeeds exactly when no group is missing; the configuration returned is the one built from the merged environment and the working directory, with all required fields non-empty |
| Config.LoadedPaths | internal/config/config.go:45-55 | a loaded configuration's backup, token and SQLite paths are `backups`, `token` and `data/app.db` under the working directory |
| Config.LoadedValues | internal/config/config.go:57-86 | `WEBAPP_PORT` defaults to 8080 and `JWT_SECRET` to the built-in secret only when empty; every other variable (database user, password, container and name, Google client id and secret, Drive folder, schedule, admin user name and password) is copied as given |
| Config.ScheduleUnvalidated | internal/config/config.go:78 | any `CRON_SCHEDULE` string, however malformed, is accepted into a successful configuration |
| Dumper.EscapeRoundTrip | internal/dbdump/dumper.go:47-49 | doubling every `%` and then formatting with no operands gives back the original text, the passage a constant format would need |
| Dumper.TrailingDot | internal/dbdump/dumper.go:49 | a `.` that ends the format, after any flags and width, is read as the verb: the directive prints `%!.(MISSING)` rather than taking an empty precision |
| Dumper.Sprintf0Plain | internal/dbdump/dumper.go:49 | a message without `%` is unchanged by being used as a format |
| Dumper.ArgvDeterminesConnection | internal/dbdump/dumper.go:58-69 | equal command lines imply equal password, container, user and database: every connection setting reaches the command |
| Dumper.DumpNameParts | internal/dbdump/dumper.go:55 | the file name is the database name, `_`, the timestamp and `_data.sql`, and each part can be read back from its position |
| Dumper.OutputFileShape | internal/dbdump/dumper.go:42-55 | the output path is `<backupDir>/<date>/<name>`, its base name is the dump name, and it ends in `.sql` |
| Dumper.TimestampInjective | internal/dbdump/dumper.go:43 | two valid readings with four-digit years that format to the same timestamp are the same reading |
| Dumper.SameFileIffSameSecond | internal/dbdump/dumper.go:41-55 | two dumps of one database write the same path exactly when they start in the same second |
| Dumper.DumpDatabase | internal/dbdump/dumper.go:35-134 | the corrected dump, whose error is the message itself: succeeds exactly when no step fails, then reporting the output path and the stat size; on failure the error is the rendered message and path and size stay empty; the steps taken are a prefix of the full sequence, all of it on success |
| Dumper.FailureMessages | internal/dbdump/dumper.go:46-108 | each of the first five failure points yields its own message carrying that step's cause |
| Dumper.MissingFileMessage | internal/dbdump/dumper.go:115-120 | a failed stat after a clean run yields the "file not created" message naming the output path and the cause |
| Dumper.StderrIgnored | internal/dbdump/dumper.go:98-112 | the command's standard error output changes neither the result nor the error |
| Dumper.FailedCommandLeavesFile | internal/dbdump/dumper.go:74-108 | when the command fails to start or exits non-zero, the output file has already been created and is left behind |
| Dumper.StartAfterCreate | internal/dbdump/dumper.go:74-96 | the command is started only after the directory, the output file and the pipe |
| Dumper.DumpAsWritten | internal/dbdump/dumper.go:35-134 | the code as written: the same result and steps as the corrected dump, an error exactly when it fails, and that error is the message read again as a format with no operands |
| Dumper.AsWrittenAgreesWithoutPercent | internal/dbdump/dumper.go:49 | when the message holds no `%`, the code as written returns exactly the corrected error |
| Dumper.MissingOperand | internal/dbdump/dumper.go:119 | `%d` with no operand formats as `%!d(MISSING)` |
| Dumper.GarbledAt | internal/dbdump/dumper.go:119 | a `%d` after a `%`-free prefix always changes the text when it is used as a format, whatever follows it |
| Dumper.SprintfSplit | internal/dbdump/dumper.go:119 | a `%`-free prefix passes through formatting unchanged, and the rest is formatted on its own |
| Dumper.AsWrittenDiffers | internal/dbdump/dumper.go:49 | whenever a failing dump's message is changed by formatting, the code as written returns an error that differs from the result's message |
| Dumper.PercentGarblesError | internal/dbdump/dumper.go:45-120 | a backup root whose name holds `%d` after a `%`-free prefix garbles the returned error on any stat failure, and on a mkdir or create failure whose cause is the operating system's path error naming that path |
| Dumper.MkdirBranchGarbled | internal/dbdump/dumper.go:45-49 | a failed `MkdirAll` whose error names the date directory under such a root returns a garbled error |
| Dumper.CreateBranchGarbled | internal/dbdump/dumper.go:74-78 | a failed `Create` whose error names the output file under such a root returns a garbled error |
| Dumper.StatBranchGarbled | internal/dbdump/dumper.go:115-119 | a failed stat under such a root returns a garbled error, whatever the cause text |
| Catalog.Glob | internal/models/backup.go:62 | keeps exactly the files whose names end in `.sql` |
| Catalog.DescribeAll | internal/models/backup.go:68-84 | a backup record for every matching file that stats, and nothing else |
| Catalog.GetAllBackups | internal/models/backup.go:48-89 | an error exactly when the root cannot be read, carrying the read error; otherwise the flattened listing |
| Catalog.FlattenMembers | internal/models/backup.go:57-86 | a record is listed exactly when it describes a stat-able `.sql` file of a date directory whose glob succeeded |
| Catalog.ListedHasSource | internal/models/backup.go:57-84 | every listed record describes some stat-able `.sql` file of a date directory whose glob succeeded |
| Catalog.SourceIsListed | internal/models/backup.go:57-84 | every stat-able `.sql` file of a date directory whose glob succeeded is listed |
| Catalog.FlattenShape | internal/models/backup.go:74-81 | every listed record has id equal to name equal to the base of its path, a `.sql` name and uploaded false |
| Catalog.OtherEntriesIgnored | internal/models/backup.go:58 | entries that are not directories contribute nothing to the listing |
| Catalog.LatestIsUnique | internal/models/backup.go:102-108 | at most one index is the first with the greatest modification time |
| Catalog.LatestIndex | internal/models/backup.go:103-108 | the scan with strict `After` ends on the first index of the greatest modification time |
| Catalog.FindLatestBackup | internal/models/backup.go:92-111 | the read error when the root is unreadable, "no backup found" when the listing is empty, otherwise the first most recent backup |
| Catalog.LatestPathBySeconds | cmd/backup/main.go:104-115 | "" when no file has a positive whole-second time; otherwise the path of the first file with the greatest one |
| Catalog.LatestBySecondsUnique | cmd/backup/main.go:104-114 | at most one index is the first with the greatest positive whole-second time |
| Catalog.LatestBySecondsExists | cmd/backup/main.go:104-114 | when some file has a positive whole-second time, a first file with the greatest one exists |
| Catalog.ChosenPath | cmd/backup/main.go:84-120 | "" for an unreadable root or no positive time; otherwise the path of the first file with the greatest whole-second time |
| Catalog.FindLatestPath | cmd/backup/main.go:84-120 | `findLatestBackup`: "" for an unreadable root or no positive time, otherwise the path chosen by whole seconds over the listed files |
| Catalog.NonPositiveNeverSelected | cmd/backup/main.go:111 | a file modified at or before the epoch second is never chosen, because the running maximum starts at 0 |
| Catalog.SelectorsDisagreeWithinOneSecond | cmd/backup/main.go:110-113 | the web selector (full time) and the command selector (whole seconds) can pick different files: two files modified within the same second are a witness |
| Catalog.FormatSize | internal/models/backup.go:21-40 | below 1024 the exact byte count with " B"; otherwise the unit is the largest of KB, MB, GB not exceeding the size |
| Catalog.FormatCreatedAt | internal/models/backup.go:43-45 | the display is 19 characters from which the local date and time read back |
| Clock.UnixSeconds | cmd/backup/main.go:110 | whole seconds rounded towards minus infinity: the instant lies in that second |
| Clock.Local | internal/dbdump/dumper.go:41-43 | every wall-clock reading is a valid calendar date and time |
| Clock.TimestampMatchesDateFolder | internal/dbdump/dumper.go:42-43 | the dump timestamp starts with the date directory's name without its dashes, then `_` |
| Clock.DisplayRoundTrip | internal/models/backup.go:44 | the `02/01/2006 15:04:05` rendering parses back to the reading |
| Text.JoinSplit | internal/auth/auth.go:96 | joining the parts of a split with the separator restores the string |
| Text.SplitCount | internal/auth/auth.go:96 | a split yields one part more than there are separators |
| Text.BaseOfJoin | internal/models/backup.go:75 | the base name of `dir/name` is `name` |
| Credentials.TokenFromFile | internal/drive/drive.go:97-107 | a token exactly when one is stored; an open failure carries its cause |
| Credentials.SaveToken | internal/drive/drive.go:135-150 | a successful save stores the token; a failed mkdir or create leaves the file as it was; a failed encode leaves a truncated, undecodable file |
| Credentials.SaveLoadRoundTrip | internal/drive/drive.go:97-150 | loading after a successful save gives back the saved token |
| Credentials.CheckAuthIgnoresExpiry | internal/drive/drive.go:90-94 | a stored token authenticates whatever its expiry |
| Credentials.ExchangeAuthCode | internal/drive/drive.go:48-63 | a rejected code leaves the file and reports the exchange error; a failed save reports the save error; success returns the token it stored |
| Credentials.ExchangeAuthenticates | internal/drive/drive.go:48-94 | after a successful exchange the uploader is authenticated with the new token |
| Credentials.FailedWriteLosesAuthentication | internal/drive/drive.go:142-149 | an encode failure after the file is truncated turns an authenticated uploader into an unauthenticated one |
| Drive.ExtendsTransitive | internal/drive/drive.go:185-191 | the only change to the remote side is appending, and appending composes |
| Drive.Select | internal/drive/drive.go:161 | a list answers exactly the objects matching the query |
| Drive.SelectAppend | internal/drive/drive.go:161 | a list over appended objects answers the old matches followed by the new ones |
| Drive.SelectStable | internal/drive/drive.go:167-171 | once a match exists, later appends keep the same first match |
| Drive.FirstFolderStable | internal/drive/drive.go:167-168 | the folder reused for a name and parent stays the same after appends |
| Drive.List | internal/drive/drive.go:161-164 | a list succeeds exactly when the query is well formed and not failing, and then answers the matches |
| Drive.IdsDiffer | internal/drive/drive.go:185-191 | different creations get different ids |
| Drive.Create | internal/drive/drive.go:185-191 | a create fails exactly when that name is failing; otherwise it appends one live object with a fresh non-empty id |
| Drive.QueryRoundTrip | internal/drive/drive.go:155-158 | for names without a quote, the folder and file query texts read back to the lookup they were built from |
| Drive.FileQueryRoundTrip | internal/drive/drive.go:196 | the existence query for a quote-free name reads back to its lookup |
| Drive.FolderQueryRoundTrip | internal/drive/drive.go:155-158 | the folder query, with or without a parent clause, reads back to its lookup |
| Drive.CreateOrFindFolder | internal/drive/drive.go:153-192 | the first existing match is returned with the store unchanged; otherwise one folder with the given parent is appended; the result is the store's first match afterwards; an error exactly when the list fails or the needed create fails |
| Drive.CreateOrFindFolderIdempotent | internal/drive/drive.go:153-192 | resolving the same folder again returns the same id and store |
| Drive.HasFileStable | internal/drive/drive.go:195-203 | a file found in a folder stays found after appends |
| Drive.CheckFileExists | internal/drive/drive.go:195-203 | when the list succeeds the answer is whether a live object of that name sits in the folder; an error exactly when the list fails |
| Drive.TrashedFolderReused | internal/drive/drive.go:155-171 | a trashed folder of the root's name is reused as the root, since the folder query does not exclude trashed objects |
| Drive.FolderCountsAsExistingFile | internal/drive/drive.go:196-202 | a folder with the file's name in the date folder counts as the file already existing |
| Drive.AddedFilesCompose | internal/drive/drive.go:214-260 | the files added by two consecutive stages are those of the first followed by those of the second |
| Drive.FolderResolutionAddsNoFile | internal/drive/drive.go:153-192 | resolving a folder never adds a non-folder object |
| Drive.ResolvedIsNamed | internal/drive/drive.go:153-192 | the resolved id belongs to a folder of the requested name |
| Drive.PlaceFile | internal/drive/drive.go:229-260 | already present exactly when the check finds it; uploaded exactly when the check says absent, the file opens and the create succeeds, then adding one live file under the folder; every other case leaves the store |
| Drive.PlaceFileAdds | internal/drive/drive.go:229-260 | placing a file adds exactly the uploaded object, or nothing |
| Drive.PlaceError | internal/drive/drive.go:230-260 | an upload reports no error exactly when the file was uploaded or already present |
| Drive.UploadToday | internal/drive/drive.go:219-260 | under a known root: the store only grows, at most one live file is added, named as given and only on success; success means it sits in a folder named after today |
| Drive.PlacedIn | internal/drive/drive.go:221-260 | once today's folder is resolved, that folder is the one the folder query finds afterwards, and any added file has exactly that folder as parent |
| Drive.UploadTodaySteps | internal/drive/drive.go:221-260 | a file uploaded or found sits in the first folder of today's name under the root; the error is the date-folder failure exactly when resolution fails, the check failure exactly when the check fails, "not opened" exactly when absent and unopenable, the upload failure exactly when absent, openable and the create fails |
| Drive.PlaceErrors | internal/drive/drive.go:229-260 | no error means the file is in the folder; each error kind occurs exactly in its own case of the existence check, the open and the create |
| Drive.UploadFile | internal/drive/drive.go:206-267 | the store only grows; at most one live file with the base name is added and only on success; success means it sits in a folder named after today; a token file that does not load means nothing changes and the fixed `NoClient` error is returned, without the load failure's cause |
| Drive.UploadFileSteps | internal/drive/drive.go:206-260 | with a client, the root error exactly when the root resolution fails; a resolved root is the first root match afterwards and the upload continues under it; on success the file sits in the first date folder under the first root folder, and every added file has that date folder as parent |
| Drive.UploadFiles | internal/drive/drive.go:309-350 | one report per file, in order, each naming its file's base name; the store only grows |
| Drive.UploadFilesCons | internal/drive/drive.go:309-350 | a batch is its first file's placement followed by the rest of the batch on the resulting store |
| Drive.ReportedFilePresent | internal/drive/drive.go:309-350 | every file reported as uploaded or already present is in the date folder at the end of the batch: later failures do not undo it |
| Drive.UploadBucket | internal/drive/drive.go:291-351 | entries that are not directories do nothing; the store only grows |
| Drive.UploadAllBackups | internal/drive/drive.go:270-355 | fails exactly when there is no client, the root folder cannot be resolved, or the root directory cannot be read, and then reports nothing; without client or root nothing changes |
| Sync.CleanRunSyncs | internal/drive/drive.go:270-355 | after a run with no remote failure every date directory has its folder under the root and every placeable backup is in it |
| Sync.SyncedRunUnchanged | internal/drive/drive.go:270-355 | over a synced store a run creates nothing, whatever fails remotely |
| Sync.UploadAllIdempotent | internal/drive/drive.go:270-355 | a second run after a failure-free run leaves the store exactly as the first left it |
| Sync.UploadFileFindsAll | internal/drive/drive.go:206-238 | when root, today's folder and the file are all found, an upload creates nothing and, without failures, succeeds |
| Sync.UploadFileIdempotent | internal/drive/drive.go:206-267 | repeating a successful upload the same day leaves the store as it is, whatever fails and whether or not the file still opens |
| DriveScenarios.OneFailedCreateSkipsOnlyThatFile | internal/drive/drive.go:338-347 | a create that fails in the middle of a bucket skips only that file; the files after it are uploaded |
| DriveScenarios.FirstUploadOnEmptyStore | internal/drive/drive.go:206-267 | into an empty store an upload creates the root folder, the date folder under it, and the file in that, in order |
| DriveScenarios.SecondDayUpload | internal/drive/drive.go:213-260 | the next day the root is found and a new date folder and file are created |
| DriveScenarios.SecondDayAddsOneFile | internal/drive/drive.go:219-260 | the second day's upload adds exactly one file object |
| DriveScenarios.NextDayUploadsAgain | internal/drive/drive.go:219-238 | a backup uploaded yesterday is uploaded again today, since only today's folder is checked |
| Auth.Trunc | internal/auth/auth.go:67 | `int64(exp)` truncates towards zero |
| Auth.ReadDate | internal/auth/auth.go:51 | the library treats a missing date claim and the number zero as absent, a non-number as a type error, and any other number as the whole second at or below it |
| Auth.ClaimFailures | internal/auth/auth.go:51 | the library's claim validation passes exactly when both the `exp` and the `nbf` checks pass |
| Auth.ValidateJWT | internal/auth/auth.go:49-83 | accepted at `now` exactly when the token decodes, is HMAC-signed with the secret, passes the library's `exp`/`nbf` checks and the explicit expiry check; a non-HMAC method, a wrong key and failed claim checks each get their own error; the identity comes from the claims |
| Auth.ExpiryBoundary | internal/auth/auth.go:51-70 | a non-zero `exp` accepts strictly before that second's instant and is refused by the library from it on; an `exp` of zero is refused only by the explicit check, from the first second after the epoch |
| Auth.ExplicitCheckOnlyForZeroExp | internal/auth/auth.go:66-69 | the explicit "token has expired" error occurs only for an `exp` of zero: every other passed expiry is refused earlier by the library |
| Auth.MissingClaimsDefault | internal/auth/auth.go:73-79 | a valid token without claims gives the empty user name and id 0 |
| Auth.UnixSecondsShift | internal/auth/auth.go:27 | adding whole days to an instant adds the same seconds to its Unix time |
| Auth.IssuedToken | internal/auth/auth.go:27-37 | an issued token is HS256 under the secret, with exactly the claims user name, user id and an expiry 24 hours on |
| Auth.GenerateJWT | internal/auth/auth.go:25-46 | the token is the signature of the issued claims, and an error exactly when signing fails |
| Auth.IssuedTokenValidates | internal/auth/auth.go:25-83 | a generated token validates to its user exactly until its `exp` second, one day after issuing, and is refused by the library as expired after |
| Auth.ForeignSecretRejected | internal/auth/auth.go:51-61 | a token issued under one secret is refused under another |
| Auth.BearerToken | internal/auth/auth.go:96-100 | an extracted token never contains a space |
| Auth.BearerTokenIff | internal/auth/auth.go:96-100 | a token is extracted exactly from `Bearer ` followed by a space-free token |
| Auth.BearerTokenOf | internal/auth/auth.go:96-100 | an accepted header is exactly `Bearer ` followed by the token it yields |
| Auth.Middleware | internal/auth/auth.go:86-115 | every refusal is 401; an empty header and a malformed header each have their own refusal; a token that fails validation is refused with the validator's own error; a request proceeds exactly when the bearer token validates, carrying its identity |
| Auth.MiddlewareAdmits | internal/auth/auth.go:96-107 | `Bearer <t>` proceeds exactly when `t` validates, and is refused for its format when `t` has a space |
| Auth.LowercaseSchemeRefused | internal/auth/auth.go:97 | `bearer` in lower case is refused |
| Auth.ExtraSpaceRefused | internal/auth/auth.go:96-97 | two spaces after `Bearer` are refused |
| Auth.AuthenticateUser | internal/auth/auth.go:118-131 | the stored user exactly when it exists and the password matches; every failure is the same message |
| Auth.FailuresIndistinguishable | internal/auth/auth.go:120-128 | an unknown user and a wrong password give identical errors |
| AuthHandlers.SetCookies | internal/handlers/auth_handlers.go:44-63 | each cookie is emitted with the SameSite mode in force when it is set, in order, after the earlier ones |
| AuthHandlers.EmitAsWritten | internal/handlers/auth_handlers.go:44-66 | as written, every cookie carries the default SameSite mode |
| AuthHandlers.Emit | internal/handlers/auth_handlers.go:44-66 | corrected, every cookie carries SameSite=Lax |
| AuthHandlers.SameSiteSetTooLate | internal/handlers/auth_handlers.go:65-66 | setting the mode after the cookies leaves them all at the default, unlike the corrected order |
| AuthHandlers.ClearedMatchesSession | internal/handlers/auth_handlers.go:121-140 | logout clears the same two cookies login sets, with the same attributes, empty value and negative age |
| AuthHandlers.Login | internal/handlers/auth_handlers.go:19-80 | 400 for an unreadable body, 401 with the uniform message for bad credentials, 500 exactly when signing fails; success exactly when the credentials match and signing succeeds, and then the body carries the signed token of that user with the user's id and name; success sets `logged_in=true` and the HttpOnly `auth_token` carrying the returned token, both for 30 days; no cookies otherwise |
| AuthHandlers.LoginTokenIdentifies | internal/handlers/auth_handlers.go:36-79 | for any codec in which `decode` reads back what `sign` produced, the token a login returns validates to the user id and name it reports until one day after the login second, and not from then on |
| AuthHandlers.Me | internal/handlers/auth_handlers.go:83-104 | 200 with the user exactly when both context values are present, otherwise 401 |
| AuthHandlers.MeBehindMiddleware | internal/handlers/auth_handlers.go:83-104 | behind the middleware, `/api/me` returns the identity of the validated token |
| AuthHandlers.LogoutTokenIff | internal/handlers/auth_handlers.go:111-112 | logout takes a token exactly from `Bearer ` followed by a non-empty rest |
| AuthHandlers.LogoutAcceptsMoreThanMiddleware | internal/handlers/auth_handlers.go:111-112 | every non-empty token the middleware extracts, logout extracts too |
| AuthHandlers.LogoutKeepsSpacedToken | internal/handlers/auth_handlers.go:111-112 | a token with a space is taken by logout but refused by the middleware |
| AuthHandlers.LogoutHandler | internal/handlers/auth_handlers.go:107-152 | always 200 with the two cookies cleared, both at the default SameSite mode; a user is logged only for a valid bearer token |
| AuthHandlers.ClearedEmitted | internal/handlers/auth_handlers.go:121-143 | as written, logout emits exactly two cookies, `logged_in` then `auth_token`, empty, with a negative age and the default SameSite mode |
| AuthHandlers.LogoutIgnoresHeader | internal/handlers/auth_handlers.go:107-152 | the logout response does not depend on the header |
| Handlers.AuthLabels | internal/handlers/handlers.go:116-130 | no method label exactly when the visitor is not signed in |
| Handlers.GetAuthMethod | internal/handlers/handlers.go:116-136 | "unknown" exactly when no method is present |
| Handlers.AuthMethodOrder | internal/handlers/handlers.go:119-135 | the label starts with the logged-in cookie exactly when that cookie is `true`, and ends with the header exactly when a header is given |
| Handlers.AllThreeWays | internal/handlers/handlers.go:116-136 | with all three methods the label lists them in order, comma-separated |
| Handlers.Index | internal/handlers/handlers.go:51-113 | redirect to login exactly when no method is present; the `logged_in` cookie is re-set exactly when the token cookie is non-empty and `logged_in` is not `"true"` (missing or holding any other value), at the default SameSite mode; the Drive prompt exactly when not authenticated; past the Drive check, the backup list exactly when the backup root is readable and the listing error otherwise; the list holds the backups, with the flash exactly when `success` is given |
| Handlers.FirstWithIdUnique | internal/handlers/handlers.go:270-276 | only one index is the first with a given id |
| Handlers.FindById | internal/handlers/handlers.go:270-276 | nothing exactly when no backup has the id; otherwise the first one that has it |
| Handlers.FindByIdShadows | internal/handlers/handlers.go:270-276 | a later backup with the same id is never found |
| Handlers.FindByIdIsFirst | internal/handlers/handlers.go:270-276 | the backup found is the one at the first index with the id |
| Handlers.DumpHandler | internal/handlers/handlers.go:172-188 | without a header nothing runs; otherwise the dump runs and the notice reports success exactly when it did, or the error as the code returns it, the message read again as a format |
| Handlers.DumpAnnouncesFile | internal/handlers/handlers.go:187 | a successful dump announces the base name of its file |
| Handlers.UploadLastHandler | internal/handlers/handlers.go:191-220 | the login and Drive gates come first and change nothing; an unreadable or empty catalogue is reported; a success notice names the latest backup, whose upload succeeded |
| Handlers.UploadAllHandler | internal/handlers/handlers.go:223-245 | the gates come first; past them the reply carries the batch's own error, or reports success when there is none, and the store is the one the batch leaves; a batch never fails for lack of a client after the Drive gate |
| Handlers.UploadAllTwice | internal/handlers/handlers.go:223-245 | a second press after a first press with no fault leaves the Drive store unchanged, whatever fails the second time |
| Handlers.UploadSingleHandler | internal/handlers/handlers.go:248-291 | the gates come first; an unreadable catalogue and an unknown id are reported and change nothing; a success names the first backup with the id, whose upload succeeded |
| Handlers.DownloadHandler | internal/handlers/handlers.go:294-338 | no token and an invalid token are refused; a file is served only for a valid token and the first backup with the id, when stat does not say it is missing |
| Handlers.StatFailureStillServed | internal/handlers/handlers.go:331-337 | a stat error other than "does not exist" still serves the file |
| Handlers.OAuthCallback | internal/handlers/handlers.go:146-169 | a missing code is 400; 200 exactly when the exchange and the save succeed, and then the uploader is authenticated; every other case is 400 |
| Cli.PlanShape | cmd/backup/main.go:40-80 | the actions run are exactly those asked for (dump also when nothing is asked), in the order dump, upload latest, upload all, web, and never none |
| Cli.PlanExamples | cmd/backup/main.go:40-41 | no flag dumps; `-web` alone only serves; `-dump -web` dumps then serves |
| Cli.BegunShape | cmd/backup/main.go:40-80 | the actions begun before a fatal exit are a prefix of the plan ending at the failing stage; without a fatal exit, all of the plan |
| Cli.DumpStage | cmd/backup/main.go:40-48 | the dump stage is fatal exactly when a dump step fails, with the error as the code returns it, and otherwise takes every step |
| Cli.UploadLastStep | cmd/backup/main.go:50-64 | "no backup found" exactly when the root is unreadable or no file has a positive time, changing nothing; otherwise the upload of the file chosen by whole seconds, fatal exactly when it fails |
| Cli.UploadLastPicksNewest | cmd/backup/main.go:50-64 | unless nothing is found, the uploaded file is the first with the greatest whole-second time, and the stage fails exactly when its upload fails |
| Cli.UploadAllStage | cmd/backup/main.go:66-74 | fatal exactly when there is no client, the root folder fails or the root directory is unreadable |
| Cli.LastStage | cmd/backup/main.go:50-64 | the upload-latest stage only grows the store and can fail only when requested, with "no backup found" or the upload error |
| Cli.AllStage | cmd/backup/main.go:66-74 | the upload-all stage runs only when the previous stage did not fail, only grows the store, and can fail only when requested |
| Cli.Uploads | cmd/backup/main.go:50-80 | after a successful dump stage: the actions begun end at the failing upload stage, a fatal ending names a requested upload stage, serving exactly when nothing failed and `-web` was given, the store only grows |
| Cli.Execute | cmd/backup/main.go:40-80 | a planned dump ends the run exactly when a dump step fails, with the error as the code returns it; the upload of the latest file runs on the store as it was and the upload of everything on the store that left, and the first failing stage ends the run with the store as it then is; the actions performed are those begun before the ending; serving exactly when nothing failed and `-web` was given |
| Cli.RunCommand | cmd/backup/main.go:18-80 | a configuration error ends the run before any action; with a configuration the stages compose as in `Cli.Execute`, each failure fatal; the actions performed are a prefix of the plan, all of it unless a stage failed, and then the failing stage is the last; serving exactly when `-web` is given and nothing failed |
| Cli.FailuresAreFatal | cmd/backup/main.go:40-74 | a requested dump ends the run exactly when a dump step fails; after it, "no backup found" exactly when nothing is chosen, the upload failure exactly when the chosen file's upload fails; the upload-all stage is fatal exactly when there is no client, the root is unreadable or the root folder fails |
| Cli.NonEmptyPathFound | cmd/backup/main.go:54-55 | a chosen latest file never has an empty path, so the "not found" check only fires when nothing was chosen |

## Left out

- Printing and logging (`fmt.Printf`, `log.Printf`) are not modelled. `log.Fatalf` is modelled only as the run ending with a `Fatal` reason.
- The local zone is a fixed offset from UTC for every instant. Daylight-saving changes of the process's zone are not modelled, so a date folder or timestamp taken near a transition may differ from the model's.
- Floating point is not modelled.
  - `FormatSize` is modelled down to its unit choice, not the two-decimal rendering.
  - The dump size in megabytes is only printed.
- Catalog.FormatSize: states the unit and the exact text below 1 KB, not the `%.2f` digits.
- The JWT wire format, HMAC, JSON and `user_id` as `float64` are abstract.
  - `decode` and `sign` stand for the `golang-jwt` library's parsing and serialisation.
  - Of the library's registered-claim validation only `exp` and `nbf` are modelled, with no leeway. `iat`, `aud`, `iss` and `sub` are not checked by `jwt.Parse` without options.
  - `user_id` is an unbounded integer.
  - An `exp` beyond the `int64` range is not modelled.
- The unreachable "invalid token" branch of `ValidateJWT` is not modelled: the library never returns a valid token with other claims. The claims are always a map here.
- bcrypt and the SQLite user table (internal/database/database.go) are abstract. They are the `lookup` and `matches` parameters. database.go is not part of this model.
- gin itself is not modelled: routing, JSON binding, HTML templates, `router.Run` and its failure, and the static file server.
  - Handlers are functions of the request fields they read.
  - `FileAttachment` is the `Attachment` reply.
- `AuthHandler` and the OAuth URL are not modelled, and neither are `GetOAuthConfig`, `GetAuthURL`, `getTokenFromWeb` or `LoginPageHandler`. They only build URLs or read a code from the terminal; the code exchange itself is `Credentials.ExchangeAuthCode`.
- Network I/O, process execution and the file system are not modelled directly.
  - Their outcomes are inputs: `DumpEnv`, `LocalFs`, `Faults`, `opens`, `stat`, `TokenFile`.
  - The content written by `pg_dump` and the bytes streamed to Drive are not modelled.
- Drive query escaping is approximated: a name containing a quote or a backslash makes the list call fail. This stands for the malformed query the unescaped interpolation produces, not for what Drive would answer.
- `drive.NewService` failing after the token loads (internal/drive/drive.go:79-84) is not modelled: a token that loads always gives a client.
- Catalog.Glob: the backup root and the date directory names are assumed free of the pattern characters `*`, `?`, `[` and `\`. `filepath.Glob` reads the whole path as a pattern (internal/models/backup.go:62, cmd/backup/main.go:99, internal/drive/drive.go:302), so such a character in a directory name would change what matches.
- Listing order is store order. Drive does not specify one, and the code only ever uses the first match.
- `filepath.Join` is modelled as `dir + "/" + name` for clean single-segment names. Path cleaning of `..` and duplicate slashes is not modelled.
- `os.MkdirAll` calls in `LoadConfig` ignore their errors and have no effect in the model.
- Concurrency and cancellation are not modelled: the code has none, and the check-then-create race between two concurrent runs is outside a sequential model.
- Cli.RunCommand: the local file system is one snapshot for the whole run. The file a dump creates in the same run is not added to what `-upload-last` and `-upload-all` then see.
- Drive.UploadBuckets: its contract states only that the store grows. What each bucket uploads is stated by `Drive.ReportedFilePresent`, `Sync.CleanRunSyncs` and `Sync.SyncedRunUnchanged`.
- Drive.UploadBucket: its contract states the store growth and the skipped non-directory entries. The per-file outcomes are stated through `Drive.UploadFiles` and `Drive.ReportedFilePresent`.
- `fmt` verbs are modelled only as far as a string with no operands goes: flags, width, precision and verb letter. `*` widths and `[n]` argument indexes are not modelled, nor a width or precision above 10^6, which Go reads as running to the end of the format.

## Findings

| source | as written | input that shows it | evidently intended | confidence | as-written member | corrected member |
|---|---|---|---|---|---|---|
| internal/dbdump/dumper.go:45-120 | each failure message built with `Sprintf` is passed to `fmt.Errorf` as the format, so every `%` in it is read as a directive (lines 49, 78, 119 and the others) | a backup root whose name holds `%d`, such as `/srv/100%d`, with a stat that fails after a clean run, or a mkdir or create that fails with the operating system's path error for a path under that root | the returned error equals the message stored in the result (`fmt.Errorf("%s", errMsg)` or `errors.New`); the web dump handler and the `-dump` stage both show the garbled error (`Handlers.DumpHandler`, `Cli.DumpStage`) | not executed | Dumper.PercentGarblesError | Dumper.DumpDatabase |
| internal/handlers/auth_handlers.go:44-66 | `SetSameSite(Lax)` is called after both `SetCookie` calls; gin reads the mode when each cookie is written, so the cookies go out with the default mode. The same order appears in Logout (lines 121-143) and in Index (handlers.go lines 69-70); `AuthHandlers.Login`, `AuthHandlers.LogoutHandler` and `Handlers.Index` all emit through the as-written order | any successful login | the session cookies carry SameSite=Lax, as the comment at line 65 says | not executed; assumes gin reads the context's SameSite mode inside `SetCookie` | AuthHandlers.SameSiteSetTooLate | AuthHandlers.Emit |


=== FILE: auth.dfy ===
/** JSON Web Tokens, the request gate and the credential check of
    internal/auth/auth.go.

    The compact serialisation, base64 and the HMAC computation belong to the
    JWT library. A token string is read by an abstract `decode` (what
    `jwt.Parse` finds in it before anything is verified) and produced by an
    abstract `sign`. A decoded token records the signing method its header
    names, its claims and the secret its signature was made with, so "the
    signature verifies under the configured secret" reads `key == secret`.
    The library's own validation of the registered claims is modelled as
    golang-jwt v5 performs it by default: `exp` and `nbf` are checked at the
    current instant with no leeway, and `iat`, audience, issuer and subject
    are not checked. */
module Auth {
  import opened Results
  import opened Text
  import opened Clock

  // ---------------------------------------------------------------------
  // Tokens
  // ---------------------------------------------------------------------

  /** The `alg` values a token header can name (section 3.1 of RFC 7518). */
  datatype SigningMethod = HS256 | HS384 | HS512 | RS256 | ES256 | PS256 | EdDSA | Unsigned

  /** The methods implemented by `*jwt.SigningMethodHMAC`. */
  predicate IsHmac(m: SigningMethod) {
    m.HS256? || m.HS384? || m.HS512?
  }

  /** A claim value as `jwt.MapClaims` holds it after JSON decoding: every
      number is a `float64`. */
  datatype ClaimValue = Number(x: real) | Str(s: string) | OtherValue

  type Claims = map<string, ClaimValue>

  datatype Jwt = Jwt(alg: SigningMethod, claims: Claims, key: string)

  /** What the library reads out of a token string. */
  datatype Decoded = Malformed(reason: string) | Readable(jwt: Jwt)

  /** Why the library's claim validation refused a token. */
  datatype ClaimFailure = TokenExpired | TokenNotValidYet | InvalidType(claim: string)

  datatype JwtError =
    | Unparsable(reason: string)
      /** The key function refused a non-HMAC method. */
    | UnexpectedMethod(alg: SigningMethod)
    | BadSignature
      /** The library's registered-claim validation failed, for these reasons. */
    | ClaimsRejected(failures: seq<ClaimFailure>)
      /** The explicit expiry check: "token has expired". */
    | Expired

  /** `models.JWTClaims`. */
  datatype Identity = Identity(username: string, userId: int)

  /** `int64(f)` for a `float64` in range: truncation towards zero. */
  function Trunc(x: real): (n: int)
    ensures 0.0 <= x ==> n as real <= x < n as real + 1.0
    ensures x < 0.0 ==> n as real - 1.0 < x <= n as real
  {
    if 0.0 <= x then x.Floor else -((-x).Floor)
  }

  // ---------------------------------------------------------------------
  // The library's claim validation
  // ---------------------------------------------------------------------

  /** A registered date claim as the library reads it from `MapClaims`. */
  datatype DateClaim = NoDate | AtSecond(second: int) | NotANumber

  /** A missing claim and the number zero both count as no date; any other
      number is the whole second at or below it (the library truncates
      dates to whole seconds); anything else is a type error. */
  function ReadDate(claims: Claims, key: string): (d: DateClaim)
    ensures d.NoDate? <==> key !in claims || claims[key] == Number(0.0)
    ensures d.NotANumber? <==> key in claims && !claims[key].Number?
    ensures d.AtSecond? ==> claims[key].Number? && d.second as real <= claims[key].x < d.second as real + 1.0
  {
    if key !in claims then NoDate
    else match claims[key]
      case Number(x) => if x == 0.0 then NoDate else AtSecond(x.Floor)
      case _ => NotANumber
  }

  /** `exp` is optional; when present the token is valid strictly before
      that instant. */
  function ExpFailures(claims: Claims, now: Instant): seq<ClaimFailure> {
    match ReadDate(claims, "exp")
    case NoDate => []
    case NotANumber => [InvalidType("exp")]
    case AtSecond(s) => if now < s * NanosPerSecond then [] else [TokenExpired]
  }

  /** `nbf` is optional; when present the token is valid from that instant on. */
  function NbfFailures(claims: Claims, now: Instant): seq<ClaimFailure> {
    match ReadDate(claims, "nbf")
    case NoDate => []
    case NotANumber => [InvalidType("nbf")]
    case AtSecond(s) => if now >= s * NanosPerSecond then [] else [TokenNotValidYet]
  }

  /** The library's validation at `now`: the `exp` failure, then the `nbf` one. */
  function ClaimFailures(claims: Claims, now: Instant): (f: seq<ClaimFailure>)
    ensures f == [] <==> ExpFailures(claims, now) == [] && NbfFailures(claims, now) == []
  {
    ExpFailures(claims, now) + NbfFailures(claims, now)
  }

  /** The explicit check of `ValidateJWT`: a numeric `exp` lies strictly
      before the current second. An absent or non-numeric `exp` never
      expires here. */
  predicate ExpiredAt(claims: Claims, now: int) {
    "exp" in claims && claims["exp"].Number? && now > Trunc(claims["exp"].x)
  }

  /** `user_id` read as `float64`, 0 when absent or of another type. */
  function UserIdClaim(claims: Claims): int {
    if "user_id" in claims && claims["user_id"].Number? then Trunc(claims["user_id"].x) else 0
  }

  /** `username` read as a string, "" when absent or of another type. */
  function UsernameClaim(claims: Claims): string {
    if "username" in claims && claims["username"].Str? then claims["username"].s else ""
  }

  /** Everything the library checks at `now` before it hands the token back. */
  predicate Verified(j: Jwt, secret: string, now: Instant) {
    IsHmac(j.alg) && j.key == secret && ClaimFailures(j.claims, now) == []
  }

  /** `ValidateJWT` at instant `now`. The library reads the token, asks the
      key function (which refuses every non-HMAC method), checks the
      signature and the registered claims; then the explicit expiry check
      runs and the identity is read with defaults. */
  function ValidateJWT(token: string, decode: string -> Decoded, secret: string, now: Instant): (r: Result<Identity, JwtError>)
    ensures r.Ok? <==> decode(token).Readable? && Verified(decode(token).jwt, secret, now)
                       && !ExpiredAt(decode(token).jwt.claims, UnixSeconds(now))
    ensures decode(token).Readable? && !IsHmac(decode(token).jwt.alg) ==>
      r == Err(UnexpectedMethod(decode(token).jwt.alg))
    ensures decode(token).Readable? && IsHmac(decode(token).jwt.alg) && decode(token).jwt.key != secret ==>
      r == Err(BadSignature)
    ensures decode(token).Readable? && IsHmac(decode(token).jwt.alg) && decode(token).jwt.key == secret
            && ClaimFailures(decode(token).jwt.claims, now) != [] ==>
      r == Err(ClaimsRejected(ClaimFailures(decode(token).jwt.claims, now)))
    ensures r.Ok? ==> (r.value.username == UsernameClaim(decode(token).jwt.claims)
                       && r.value.userId == UserIdClaim(decode(token).jwt.claims))
  {
    match decode(token)
    case Malformed(reason) => Err(Unparsable(reason))
    case Readable(j) =>
      if !IsHmac(j.alg) then Err(UnexpectedMethod(j.alg))
      else if j.key != secret then Err(BadSignature)
      else if ClaimFailures(j.claims, now) != [] then Err(ClaimsRejected(ClaimFailures(j.claims, now)))
      else if ExpiredAt(j.claims, UnixSeconds(now)) then Err(Expired)
      else Ok(Identity(UsernameClaim(j.claims), UserIdClaim(j.claims)))
  }

  /** The truncation `int64` applies never lies below the floor. */
  lemma TruncAtLeastFloor(x: real)
    ensures x.Floor <= Trunc(x)
  {
  }

  /** The explicit expiry check can refuse only a token whose `exp` is
      zero: any other numeric `exp` that has passed was already refused by
      the library, with its own error. */
  lemma {:induction false} ExplicitCheckOnlyForZeroExp(token: string, decode: string -> Decoded, secret: string, now: Instant)
    ensures ValidateJWT(token, decode, secret, now) == Err(Expired) ==>
      decode(token).Readable? && "exp" in decode(token).jwt.claims && decode(token).jwt.claims["exp"] == Number(0.0)
  {
    if ValidateJWT(token, decode, secret, now) == Err(Expired) {
      var c := decode(token).jwt.claims;
      assert ClaimFailures(c, now) == [] && ExpiredAt(c, UnixSeconds(now));
      var x := c["exp"].x;
      if x != 0.0 {
        assert ReadDate(c, "exp") == AtSecond(x.Floor);
        assert ExpFailures(c, now) == [];
        assert now < x.Floor * NanosPerSecond;
        assert UnixSeconds(now) < x.Floor;
        TruncAtLeastFloor(x);
        assert false;
      }
    }
  }

  /** For a signed token with no `nbf` trouble whose `exp` is the whole
      second `exp`: a non-zero `exp` is honoured by the library, which
      accepts strictly before that instant and refuses with its own error
      from it on; an `exp` of zero counts as absent for the library, and the
      explicit check refuses it from the first second after the epoch. */
  lemma ExpiryBoundary(token: string, decode: string -> Decoded, secret: string, now: Instant, exp: int)
    requires decode(token).Readable? && IsHmac(decode(token).jwt.alg) && decode(token).jwt.key == secret
    requires NbfFailures(decode(token).jwt.claims, now) == []
    requires "exp" in decode(token).jwt.claims && decode(token).jwt.claims["exp"] == Number(exp as real)
    ensures exp != 0 ==> (ValidateJWT(token, decode, secret, now).Ok? <==> now < exp * NanosPerSecond)
    ensures exp != 0 && exp * NanosPerSecond <= now ==>
      ValidateJWT(token, decode, secret, now) == Err(ClaimsRejected([TokenExpired]))
    ensures exp == 0 ==> (ValidateJWT(token, decode, secret, now).Ok? <==> UnixSeconds(now) <= 0)
    ensures exp == 0 && UnixSeconds(now) > 0 ==> ValidateJWT(token, decode, secret, now) == Err(Expired)
  {
    assert Trunc(exp as real) == exp && (exp as real).Floor == exp;
    var c := decode(token).jwt.claims;
    if exp != 0 {
      assert ReadDate(c, "exp") == AtSecond(exp);
      if now < exp * NanosPerSecond {
        assert UnixSeconds(now) < exp;
      } else {
        assert ExpFailures(c, now) == [TokenExpired];
        assert ClaimFailures(c, now) == [TokenExpired] + [] == [TokenExpired];
        assert ValidateJWT(token, decode, secret, now) == Err(ClaimsRejected(ClaimFailures(c, now)));
      }
    }
  }

  /** A token without `exp`, `user_id` and `username` claims passes the
      explicit check at every instant and yields the empty identity. */
  lemma MissingClaimsDefault(token: string, decode: string -> Decoded,
                             secret: string, now: Instant)
    requires decode(token).Readable? && IsHmac(decode(token).jwt.alg) && decode(token).jwt.key == secret
    requires decode(token).jwt.claims == map[]
    ensures ValidateJWT(token, decode, secret, now) == Ok(Identity("", 0))
  {
  }

  // ---------------------------------------------------------------------
  // GenerateJWT
  // ---------------------------------------------------------------------

  /** `models.User`: the stored row, with the bcrypt hash of the password. */
  datatype User = User(id: int, username: string, passwordHash: string)

  /** Tokens live for 24 hours. */
  const TokenLifetime: Instant := SecondsPerDay * NanosPerSecond

  /** Moving an instant by whole seconds moves its Unix second by as much. */
  lemma UnixSecondsShift(t: Instant, k: int)
    ensures UnixSeconds(t + k * NanosPerSecond) == UnixSeconds(t) + k
  {
    var s := UnixSeconds(t);
    var s' := UnixSeconds(t + k * NanosPerSecond);
    assert (s' - k) * NanosPerSecond <= t < (s' - k + 1) * NanosPerSecond;
  }

  /** The token `GenerateJWT` signs at instant `now`: HS256 under the
      secret, naming the user, and expiring one day after the current
      second. Read back, its claims give the user's identity. */
  function IssuedToken(user: User, now: Instant, secret: string): (j: Jwt)
    ensures j.alg == HS256 && j.key == secret
    ensures j.claims.Keys == {"username", "user_id", "exp"}
    ensures UsernameClaim(j.claims) == user.username && UserIdClaim(j.claims) == user.id
    ensures j.claims["exp"] == Number((UnixSeconds(now) + SecondsPerDay) as real)
  {
    UnixSecondsShift(now, SecondsPerDay);
    var exp := UnixSeconds(now + TokenLifetime);
    assert Trunc(exp as real) == exp;
    assert Trunc(user.id as real) == user.id;
    Jwt(HS256, map["username" := Str(user.username), "user_id" := Number(user.id as real), "exp" := Number(exp as real)], secret)
  }

  /** `GenerateJWT`: the issued token as the signer serialises it, or the
      signer's error with no token. */
  function GenerateJWT(user: User, now: Instant, secret: string, sign: Jwt -> Result<string, string>): (r: Result<string, string>)
    ensures r.Ok? <==> sign(IssuedToken(user, now, secret)).Ok?
    ensures r.Ok? ==> sign(IssuedToken(user, now, secret)) == Ok(r.value)
  {
    match sign(IssuedToken(user, now, secret))
    case Err(e) => Err(e)
    case Ok(s) => Ok(s)
  }

  /** The library's codec law: whatever `sign` serialises, `decode` reads
      back as the same token, its signature intact. */
  ghost predicate ReadsBack(sign: Jwt -> Result<string, string>, decode: string -> Decoded) {
    forall j: Jwt :: sign(j).Ok? ==> decode(sign(j).value) == Readable(j)
  }

  /** A token issued at `issued` and read back unchanged by the library
      validates to the user it was issued for strictly before the instant
      `exp`, one day after the issuing second, and is refused by the
      library as expired from that instant on. (An `exp` of exactly zero,
      for a token issued during the last day before the epoch, is the
      library's "no expiry" and falls to the explicit check instead.) */
  lemma IssuedTokenValidates(user: User, issued: Instant, now: Instant, secret: string,
                             sign: Jwt -> Result<string, string>, decode: string -> Decoded)
    requires GenerateJWT(user, issued, secret, sign).Ok?
    requires decode(GenerateJWT(user, issued, secret, sign).value) == Readable(IssuedToken(user, issued, secret))
    ensures var v := ValidateJWT(GenerateJWT(user, issued, secret, sign).value, decode, secret, now);
      var exp := UnixSeconds(issued) + SecondsPerDay;
      && (v.Ok? ==> v.value == Identity(user.username, user.id))
      && (exp != 0 ==> (v.Ok? <==> now < exp * NanosPerSecond))
      && (exp != 0 && exp * NanosPerSecond <= now ==> v == Err(ClaimsRejected([TokenExpired])))
      && (exp == 0 ==> (v.Ok? <==> UnixSeconds(now) <= 0))
  {
    var j := IssuedToken(user, issued, secret);
    var token := GenerateJWT(user, issued, secret, sign).value;
    assert "nbf" !in j.claims;
    assert NbfFailures(j.claims, now) == [];
    ExpiryBoundary(token, decode, secret, now, UnixSeconds(issued) + SecondsPerDay);
  }

  /** A token issued under one secret is refused under any other. */
  lemma ForeignSecretRejected(user: User, issued: Instant, now: Instant, secret: string, other: string,
                              sign: Jwt -> Result<string, string>, decode: string -> Decoded)
    requires GenerateJWT(user, issued, secret, sign).Ok? && other != secret
    requires decode(GenerateJWT(user, issued, secret, sign).value) == Readable(IssuedToken(user, issued, secret))
    ensures ValidateJWT(GenerateJWT(user, issued, secret, sign).value, decode, other, now) == Err(BadSignature)
  {
  }

  // ---------------------------------------------------------------------
  // AuthMiddleware
  // ---------------------------------------------------------------------

  /** Why the middleware aborted: "authorization header is required",
      "authorization header format must be Bearer {token}", or the
      validation error. */
  datatype Failure = HeaderRequired | BadScheme | Rejected(cause: JwtError)

  datatype Gate = Abort(status: int, failure: Failure) | Proceed(identity: Identity)

  const Unauthorized: int := 401

  /** The token of a header that splits on single spaces into exactly
      `Bearer` and one more piece. */
  function BearerToken(header: string): (t: Option<string>)
    ensures t.Some? ==> ' ' !in t.value
  {
    var parts := Split(header, ' ');
    if |parts| == 2 && parts[0] == "Bearer" then Some(parts[1]) else None
  }

  /** The header is accepted for exactly the strings `Bearer ` followed by a
      space-free token (possibly empty). A lower-case scheme or a second
      space, which section 2.1 of RFC 7235 allows, is refused. */
  lemma BearerTokenIff(header: string, t: string)
    ensures BearerToken(header) == Some(t) <==> header == "Bearer " + t && ' ' !in t
  {
    if BearerToken(header) == Some(t) {
      var parts := Split(header, ' ');
      JoinSplit(header, ' ');
      assert parts == [parts[0]] + parts[1..] && parts[1..] == [t];
      assert Join(parts, " ") == parts[0] + " " + Join(parts[1..], " ");
    }
    if header == "Bearer " + t && ' ' !in t {
      assert header == "Bearer" + [' '] + t;
      SplitAt("Bearer", t, ' ');
      SplitNoSeparator(t, ' ');
    }
  }

  /** `AuthMiddleware`: every refusal is a 401 that stops the chain; on
      success the identity is put in the context and the chain goes on. */
  function Middleware(header: string, decode: string -> Decoded,
                      secret: string, now: Instant): (g: Gate)
    ensures g.Abort? ==> g.status == Unauthorized
    ensures header == "" ==> g == Abort(Unauthorized, HeaderRequired)
    ensures header != "" && BearerToken(header).None? ==> g == Abort(Unauthorized, BadScheme)
    ensures g.Proceed? <==> BearerToken(header).Some?
                            && ValidateJWT(BearerToken(header).value, decode, secret, now).Ok?
    ensures g.Proceed? ==> g.identity == ValidateJWT(BearerToken(header).value, decode, secret, now).value
    // A token that fails validation is refused with the validator's own error.
    ensures header != "" && BearerToken(header).Some? && ValidateJWT(BearerToken(header).value, decode, secret, now).Err? ==>
      g == Abort(Unauthorized, Rejected(ValidateJWT(BearerToken(header).value, decode, secret, now).error))
  {
    if header == "" then
      assert Split(header, ' ') == [[]];
      Abort(Unauthorized, HeaderRequired)
    else
      match BearerToken(header)
      case None => Abort(Unauthorized, BadScheme)
      case Some(t) =>
        match ValidateJWT(t, decode, secret, now)
        case Err(e) => Abort(Unauthorized, Rejected(e))
        case Ok(id) => Proceed(id)
  }

  /** An accepted header is `Bearer ` followed by its token, which has no space. */
  lemma BearerTokenOf(header: string)
    ensures BearerToken(header).Some? ==>
      |header| >= 7 && header[..7] == "Bearer " && header[7..] == BearerToken(header).value
  {
    if BearerToken(header).Some? {
      var t := BearerToken(header).value;
      BearerTokenIff(header, t);
      assert header[..7] == "Bearer " && header[7..] == t;
    }
  }

  /** A request passes the gate exactly when its header is `Bearer `
      followed by a space-free token that validates. */
  lemma MiddlewareAdmits(t: string, decode: string -> Decoded, secret: string, now: Instant)
    ensures ' ' !in t ==>
      Middleware("Bearer " + t, decode, secret, now).Proceed?
      == ValidateJWT(t, decode, secret, now).Ok?
    ensures ' ' in t ==> Middleware("Bearer " + t, decode, secret, now) == Abort(Unauthorized, BadScheme)
  {
    var h := "Bearer " + t;
    BearerTokenIff(h, t);
    BearerTokenOf(h);
    assert h[7..] == t;
  }

  /** An accepted token never holds a space. */
  lemma TokenHasNoSpace(header: string)
    ensures BearerToken(header).Some? ==> ' ' !in BearerToken(header).value
  {
    if BearerToken(header).Some? {
      BearerTokenIff(header, BearerToken(header).value);
    }
  }

  /** The scheme is matched case-sensitively: `bearer` is refused. */
  lemma LowercaseSchemeRefused(x: string, decode: string -> Decoded,
                               secret: string, now: Instant)
    ensures Middleware("bearer " + x, decode, secret, now) == Abort(Unauthorized, BadScheme)
  {
    var h := "bearer " + x;
    BearerTokenOf(h);
    assert h[0] == 'b';
    assert h != "";
  }

  /** Exactly one space separates scheme and token: a second one is refused. */
  lemma ExtraSpaceRefused(x: string, decode: string -> Decoded,
                          secret: string, now: Instant)
    ensures Middleware("Bearer  " + x, decode, secret, now) == Abort(Unauthorized, BadScheme)
  {
    var h := "Bearer  " + x;
    BearerTokenOf(h);
    TokenHasNoSpace(h);
    assert h[7] == ' ';
    assert h != "";
  }

  // ---------------------------------------------------------------------
  // AuthenticateUser
  // ---------------------------------------------------------------------

  /** `models.Auth`: the login form. */
  datatype LoginRequest = LoginRequest(username: string, password: string)

  const InvalidCredentials: string := "invalid username or password"

  /** `AuthenticateUser`. `lookup` is the user query (any failure, not
      only "no such row", is an error); `matches(password, hash)` is the
      bcrypt comparison. */
  function AuthenticateUser(req: LoginRequest, lookup: string -> Result<User, string>,
                            matches: (string, string) -> bool): (r: Result<User, string>)
    ensures r.Ok? <==> lookup(req.username).Ok? && matches(req.password, lookup(req.username).value.passwordHash)
    ensures r.Ok? ==> r.value == lookup(req.username).value
    ensures r.Err? ==> r.error == InvalidCredentials
  {
    match lookup(req.username)
    case Err(_) => Err(InvalidCredentials)
    case Ok(user) =>
      if !matches(req.password, user.passwordHash) then Err(InvalidCredentials) else Ok(user)
  }

  /** An unknown user and a wrong password are answered identically, so the
      answer does not reveal which user names exist. */
  lemma FailuresIndistinguishable(unknown: LoginRequest, wrong: LoginRequest,
                                  lookup: string -> Result<User, string>, matches: (string, string) -> bool)
    requires lookup(unknown.username).Err?
    requires lookup(wrong.username).Ok? && !matches(wrong.password, lookup(wrong.username).value.passwordHash)
    ensures AuthenticateUser(unknown, lookup, matches) == AuthenticateUser(wrong, lookup, matches)
            == Err(InvalidCredentials)
  {
  }
}

=== FILE: auth_handlers.dfy ===
/** The JSON login, session and logout endpoints of
    internal/handlers/auth_handlers.go, and the part of a gin context those
    handlers write: the cookies, each stamped with the SameSite mode the
    context holds at the moment the cookie is set. */
module AuthHandlers {
  import opened Results
  import opened Clock
  import opened Auth

  // ---------------------------------------------------------------------
  // Cookies
  // ---------------------------------------------------------------------

  /** The arguments of `c.SetCookie(name, value, maxAge, path, domain, secure, httpOnly)`. */
  datatype CookieSpec = CookieSpec(name: string, value: string, maxAge: int, path: string,
                                   domain: string, secure: bool, httpOnly: bool)

  /** `http.SameSite`; a fresh gin context holds `DefaultMode`. */
  datatype SameSite = DefaultMode | LaxMode | StrictMode | NoneMode

  /** A `Set-Cookie` header as written. */
  datatype Cookie = Cookie(spec: CookieSpec, sameSite: SameSite)

  /** The cookie state of a gin context. */
  datatype Writer = Writer(sameSite: SameSite, cookies: seq<Cookie>)

  const Fresh: Writer := Writer(DefaultMode, [])

  /** `c.SetCookie`: writes the header at once, with the current mode. */
  function SetCookie(w: Writer, spec: CookieSpec): Writer {
    w.(cookies := w.cookies + [Cookie(spec, w.sameSite)])
  }

  /** `c.SetSameSite`: affects only cookies set afterwards. */
  function SetSameSite(w: Writer, mode: SameSite): Writer {
    w.(sameSite := mode)
  }

  /** Setting several cookies in a row appends them in order, all with the
      mode in force before the first one. */
  function SetCookies(w: Writer, specs: seq<CookieSpec>): (r: Writer)
    ensures r.sameSite == w.sameSite
    ensures |r.cookies| == |w.cookies| + |specs|
    ensures r.cookies[..|w.cookies|] == w.cookies
    ensures forall i :: 0 <= i < |specs| ==> r.cookies[|w.cookies| + i] == Cookie(specs[i], w.sameSite)
    decreases |specs|
  {
    if specs == [] then w
    else
      var w1 := SetCookie(w, specs[0]);
      var r := SetCookies(w1, specs[1..]);
      assert r.cookies[..|w.cookies|] == r.cookies[..|w1.cookies|][..|w.cookies|];
      r
  }

  /** The handlers' order: the cookies first, then `SetSameSite(Lax)`. */
  function EmitAsWritten(specs: seq<CookieSpec>): (c: seq<Cookie>)
    ensures |c| == |specs|
    ensures forall i :: 0 <= i < |specs| ==> c[i] == Cookie(specs[i], DefaultMode)
  {
    SetSameSite(SetCookies(Fresh, specs), LaxMode).cookies
  }

  /** The evidently intended order: `SetSameSite(Lax)` before the cookies,
      so that every cookie carries `SameSite=Lax`. */
  function Emit(specs: seq<CookieSpec>): (c: seq<Cookie>)
    ensures |c| == |specs|
    ensures forall i :: 0 <= i < |specs| ==> c[i] == Cookie(specs[i], LaxMode)
  {
    SetCookies(SetSameSite(Fresh, LaxMode), specs).cookies
  }

  /** Calling `SetSameSite` after the cookies leaves every one of them
      without the Lax mode. */
  lemma SameSiteSetTooLate(specs: seq<CookieSpec>)
    requires specs != []
    ensures forall c :: c in EmitAsWritten(specs) ==> c.sameSite == DefaultMode
    ensures EmitAsWritten(specs) != Emit(specs)
  {
    assert EmitAsWritten(specs)[0] != Emit(specs)[0];
  }

  // ---------------------------------------------------------------------
  // Responses
  // ---------------------------------------------------------------------

  const OK: int := 200
  const BadRequest: int := 400
  const InternalError: int := 500

  /** Thirty days, in seconds. */
  const SessionMaxAge: int := 3600 * 24 * 30

  const InvalidRequestFormat: string := "Invalid request format"
  const TokenFailure: string := "Failed to generate token"
  const LoginSucceeded: string := "Login successful"
  const LogoutSucceeded: string := "Logout successful"
  const NotSignedIn: string := "Unauthorized"

  datatype Body =
    | ErrorBody(error: string)
    | LoginBody(token: string, message: string, userId: int, username: string)
    | UserBody(userId: int, username: string)
    | MessageBody(message: string)

  datatype Response = Response(status: int, body: Body, cookies: seq<Cookie>)

  /** The pair of session cookies: `logged_in` readable by scripts, and the
      token itself, hidden from scripts. */
  function SessionCookies(token: string): seq<CookieSpec> {
    [ CookieSpec("logged_in", "true", SessionMaxAge, "/", "", false, false),
      CookieSpec("auth_token", token, SessionMaxAge, "/", "", false, true) ]
  }

  /** The same pair, emptied and expired at once. */
  function ClearedCookies(): seq<CookieSpec> {
    [ CookieSpec("logged_in", "", -1, "/", "", false, false),
      CookieSpec("auth_token", "", -1, "/", "", false, true) ]
  }

  /** Logout clears each cookie with exactly the parameters it was set
      with, so the browser drops the very cookies login created. */
  lemma ClearedMatchesSession(token: string)
    ensures |ClearedCookies()| == |SessionCookies(token)| == 2
    ensures forall i :: 0 <= i < 2 ==>
      ClearedCookies()[i] == SessionCookies(token)[i].(value := "", maxAge := -1)
  {
  }

  // ---------------------------------------------------------------------
  // LoginHandler
  // ---------------------------------------------------------------------

  /** `LoginHandler`. `body` is the bound JSON form (`None` when binding
      fails); the token is issued at `now`. */
  function Login(body: Option<LoginRequest>, lookup: string -> Result<User, string>,
                 matches: (string, string) -> bool, secret: string, now: Instant,
                 sign: Jwt -> Result<string, string>): (r: Response)
    // A malformed body is refused before any credential is looked at.
    ensures body.None? ==> r == Response(BadRequest, ErrorBody(InvalidRequestFormat), [])
    ensures body.Some? && AuthenticateUser(body.value, lookup, matches).Err? ==>
      r == Response(Unauthorized, ErrorBody(InvalidCredentials), [])
    ensures r.status == InternalError <==>
      body.Some? && AuthenticateUser(body.value, lookup, matches).Ok?
      && GenerateJWT(AuthenticateUser(body.value, lookup, matches).value, now, secret, sign).Err?
    ensures r.status == InternalError ==> r == Response(InternalError, ErrorBody(TokenFailure), [])
    ensures r.status in {OK, BadRequest, Unauthorized, InternalError}
    // Only a successful login sets cookies, and then both, for thirty days.
    ensures r.status != OK ==> r.cookies == []
    ensures r.status == OK ==>
      && r.body.LoginBody? && r.body.message == LoginSucceeded
      && |r.cookies| == 2
      && r.cookies[0].spec.name == "logged_in" && r.cookies[0].spec.value == "true" && !r.cookies[0].spec.httpOnly
      && r.cookies[1].spec.name == "auth_token" && r.cookies[1].spec.value == r.body.token && r.cookies[1].spec.httpOnly
      && r.cookies[0].spec.maxAge == r.cookies[1].spec.maxAge == 2592000
    // Both go out before `SetSameSite` runs, so neither carries Lax.
    ensures forall c :: c in r.cookies ==> c.sameSite == DefaultMode
    // Success is the signed token of the user who signed in, with that user's ID and name.
    ensures r.status == OK <==>
      body.Some? && AuthenticateUser(body.value, lookup, matches).Ok?
      && GenerateJWT(AuthenticateUser(body.value, lookup, matches).value, now, secret, sign).Ok?
    ensures r.status == OK ==>
      var u := AuthenticateUser(body.value, lookup, matches).value;
      r.body == LoginBody(GenerateJWT(u, now, secret, sign).value, LoginSucceeded, u.id, u.username)
  {
    match body
    case None => Response(BadRequest, ErrorBody(InvalidRequestFormat), [])
    case Some(req) =>
      match AuthenticateUser(req, lookup, matches)
      case Err(e) => Response(Unauthorized, ErrorBody(e), [])
      case Ok(user) =>
        match GenerateJWT(user, now, secret, sign)
        case Err(_) => Response(InternalError, ErrorBody(TokenFailure), [])
        case Ok(token) =>
          Response(OK, LoginBody(token, LoginSucceeded, user.id, user.username), EmitAsWritten(SessionCookies(token)))
  }

  /** The token a successful login hands out identifies the user who signed
      in, and the library accepts it exactly until the instant one day after
      the login second, given that the library reads back what it signs. */
  lemma LoginTokenIdentifies(req: LoginRequest, lookup: string -> Result<User, string>,
                             matches: (string, string) -> bool, secret: string, now: Instant, later: Instant,
                             sign: Jwt -> Result<string, string>, decode: string -> Decoded)
    requires Login(Some(req), lookup, matches, secret, now, sign).status == OK
    requires ReadsBack(sign, decode)
    ensures var r := Login(Some(req), lookup, matches, secret, now, sign);
      var exp := UnixSeconds(now) + SecondsPerDay;
      && (ValidateJWT(r.body.token, decode, secret, later).Ok? ==>
            ValidateJWT(r.body.token, decode, secret, later) == Ok(Identity(r.body.username, r.body.userId)))
      && (exp != 0 ==> (ValidateJWT(r.body.token, decode, secret, later).Ok? <==> later < exp * NanosPerSecond))
  {
    var user := lookup(req.username).value;
    var j := IssuedToken(user, now, secret);
    assert decode(sign(j).value) == Readable(j);
    IssuedTokenValidates(user, now, later, secret, sign, decode);
  }

  // ---------------------------------------------------------------------
  // MeHandler
  // ---------------------------------------------------------------------

  /** `MeHandler` on the `username` and `user_id` context entries. */
  function Me(username: Option<string>, userId: Option<int>): (r: Response)
    ensures r.status == OK <==> username.Some? && userId.Some?
    ensures r.status != OK ==> r == Response(Unauthorized, ErrorBody(NotSignedIn), [])
    ensures r.status == OK ==> r.body == UserBody(userId.value, username.value) && r.cookies == []
  {
    if username.None? then Response(Unauthorized, ErrorBody(NotSignedIn), [])
    else if userId.None? then Response(Unauthorized, ErrorBody(NotSignedIn), [])
    else Response(OK, UserBody(userId.value, username.value), [])
  }

  /** The context entries a gate leaves behind: both after success, none
      after an abort. */
  function ContextOf(g: Gate): (Option<string>, Option<int>) {
    if g.Proceed? then (Some(g.identity.username), Some(g.identity.userId)) else (None, None)
  }

  /** Behind the middleware, the session endpoint always answers 200 with the
      identity the token carries. */
  lemma MeBehindMiddleware(header: string, decode: string -> Decoded,
                           secret: string, now: Instant)
    requires Middleware(header, decode, secret, now).Proceed?
    ensures var id := ValidateJWT(BearerToken(header).value, decode, secret, now).value;
      var ctx := ContextOf(Middleware(header, decode, secret, now));
      Me(ctx.0, ctx.1) == Response(OK, UserBody(id.userId, id.username), [])
  {
  }

  // ---------------------------------------------------------------------
  // LogoutHandler
  // ---------------------------------------------------------------------

  /** The token Logout looks at: everything after a leading `Bearer `, when
      something follows it. */
  function LogoutToken(header: string): Option<string> {
    if header != "" && |header| > 7 && header[..7] == "Bearer " then Some(header[7..]) else None
  }

  lemma LogoutTokenIff(header: string, t: string)
    ensures LogoutToken(header) == Some(t) <==> header == "Bearer " + t && t != ""
  {
    if header == "Bearer " + t && t != "" {
      assert header[..7] == "Bearer " && header[7..] == t;
    }
  }

  /** Every non-empty token the middleware accepts, Logout extracts the same
      way. */
  lemma LogoutAcceptsMoreThanMiddleware(header: string, t: string)
    ensures BearerToken(header) == Some(t) && t != "" ==> LogoutToken(header) == Some(t)
  {
    BearerTokenIff(header, t);
    LogoutTokenIff(header, t);
  }

  /** Logout also takes a token with spaces in it, which the middleware
      refuses. */
  lemma LogoutKeepsSpacedToken(t: string)
    requires ' ' in t
    ensures LogoutToken("Bearer " + t) == Some(t) && BearerToken("Bearer " + t) == None
  {
    BearerTokenIff("Bearer " + t, t);
    LogoutTokenIff("Bearer " + t, t);
    BearerTokenOf("Bearer " + t);
    assert ("Bearer " + t)[7..] == t;
  }

  /** The response of a logout, and the user name it logs ("" when the
      header carries no valid token). */
  datatype Logout = Logout(response: Response, loggedUser: string)

  /** `LogoutHandler`. */
  function LogoutHandler(header: string, decode: string -> Decoded,
                         secret: string, now: Instant): (r: Logout)
    ensures r.response.status == OK && r.response.body == MessageBody(LogoutSucceeded)
    ensures |r.response.cookies| == 2
    ensures forall c :: c in r.response.cookies ==> c.spec.value == "" && c.spec.maxAge < 0
    ensures r.response.cookies[0].spec.name == "logged_in" && r.response.cookies[1].spec.name == "auth_token"
    ensures forall c :: c in r.response.cookies ==> c.sameSite == DefaultMode
    ensures r.loggedUser != "" ==>
      LogoutToken(header).Some? && ValidateJWT(LogoutToken(header).value, decode, secret, now).Ok?
  {
    var user :=
      match LogoutToken(header)
      case None => ""
      case Some(t) =>
        match ValidateJWT(t, decode, secret, now)
        case Err(_) => ""
        case Ok(id) => id.username;
    ClearedEmitted();
    Logout(Response(OK, MessageBody(LogoutSucceeded), EmitAsWritten(ClearedCookies())), user)
  }

  /** The cookies Logout sends: both session cookies, emptied and expired,
      with the default SameSite mode. */
  lemma ClearedEmitted()
    ensures var cs := EmitAsWritten(ClearedCookies());
      && |cs| == 2
      && (forall c :: c in cs ==> c.spec.value == "" && c.spec.maxAge < 0 && c.sameSite == DefaultMode)
      && cs[0].spec.name == "logged_in" && cs[1].spec.name == "auth_token"
  {
    var cs := EmitAsWritten(ClearedCookies());
    assert cs == [Cookie(ClearedCookies()[0], DefaultMode), Cookie(ClearedCookies()[1], DefaultMode)];
  }

  /** Logout answers the same whatever the header holds. */
  lemma LogoutIgnoresHeader(h1: string, h2: string, decode: string -> Decoded,
                            secret: string, now: Instant)
    ensures LogoutHandler(h1, decode, secret, now).response
         == LogoutHandler(h2, decode, secret, now).response
  {
  }
}

=== FILE: catalog.dfy ===
/** The local backup catalog of internal/models/backup.go and the
    second "latest backup" selector of cmd/backup/main.go.

    The backup root is a directory of date directories. `os.ReadDir` of the
    root either fails or yields its entries (sorted by name); only directory
    entries are scanned, each by `filepath.Glob` with pattern `*.sql` inside the directory, and every match
    is `os.Stat`-ed. */
module Catalog {
  import opened Results
  import opened Text
  import opened Clock

  /** One directory entry inside a date directory, with the outcomes the OS
      would give for it: whether `os.Stat` succeeds (size and modification
      time) and whether `os.Open` succeeds. */
  datatype LocalFile = LocalFile(name: string, size: int, mtime: Instant, statOk: bool, opens: bool)

  /** An entry of the backup root: a date directory, whose glob can fail, or
      anything else (regular file, symlink, ...), which is never scanned. */
  datatype RootEntry =
    | DateDir(name: string, globOk: bool, files: seq<LocalFile>)
    | OtherEntry(name: string)

  /** The backup root as `os.ReadDir` sees it. */
  datatype LocalFs = Unreadable(reason: string) | Listing(entries: seq<RootEntry>)

  /** `models.BackupFile`. */
  datatype BackupFile = BackupFile(id: string, name: string, path: string, size: int, createdAt: Instant, uploaded: bool)

  const ReadDirPrefix: string := "không thể đọc thư mục backup: "
  const NoBackupFound: string := "không tìm thấy file backup nào"

  /** The pattern `*.sql`: `*` matches any run of non-separator characters,
      including the empty one. */
  predicate IsSqlName(name: string) {
    HasSuffix(name, ".sql")
  }

  /** The entries `filepath.Glob` with pattern `*.sql` inside the directory returns, in directory order. */
  function Glob(files: seq<LocalFile>): (r: seq<LocalFile>)
    ensures forall f :: f in r <==> f in files && IsSqlName(f.name)
    ensures |r| <= |files|
  {
    if files == [] then []
    else (if IsSqlName(files[0].name) then [files[0]] else []) + Glob(files[1..])
  }

  /** A date directory whose glob is scanned at all. */
  predicate Scanned(e: RootEntry) {
    e.DateDir? && e.globOk
  }

  /** A file that makes it into the listing. */
  predicate Listed(f: LocalFile) {
    IsSqlName(f.name) && f.statOk
  }

  function Describe(root: string, dir: string, f: LocalFile): BackupFile {
    var path := JoinPath(JoinPath(root, dir), f.name);
    BackupFile(f.name, f.name, path, f.size, f.mtime, false)
  }

  function DescribeAll(root: string, dir: string, files: seq<LocalFile>): (r: seq<BackupFile>)
    ensures forall b :: b in r <==> exists f :: f in files && Listed(f) && b == Describe(root, dir, f)
  {
    if files == [] then []
    else
      (if Listed(files[0]) then [Describe(root, dir, files[0])] else []) + DescribeAll(root, dir, files[1..])
  }

  function BucketBackups(root: string, e: RootEntry): seq<BackupFile> {
    if Scanned(e) then DescribeAll(root, e.name, Glob(e.files)) else []
  }

  /** The listing of a readable root: bucket by bucket, file by file. */
  function Flatten(root: string, entries: seq<RootEntry>): (r: seq<BackupFile>)
  {
    if entries == [] then [] else BucketBackups(root, entries[0]) + Flatten(root, entries[1..])
  }

  /** `GetAllBackups`. */
  function GetAllBackups(root: string, fs: LocalFs): (r: Result<seq<BackupFile>, string>)
    ensures r.Err? <==> fs.Unreadable?
    ensures fs.Unreadable? ==> r.error == ReadDirPrefix + fs.reason
    ensures r.Ok? ==> r.value == Flatten(root, fs.entries)
  {
    match fs
    case Unreadable(reason) => Err(ReadDirPrefix + reason)
    case Listing(entries) => Ok(Flatten(root, entries))
  }

  /** The listing holds exactly the described `*.sql` files that stat
      successfully inside scanned date directories, and nothing else. */
  lemma FlattenMembers(root: string, entries: seq<RootEntry>, b: BackupFile)
    ensures b in Flatten(root, entries) <==>
      exists i, f :: 0 <= i < |entries| && Scanned(entries[i]) && f in entries[i].files && Listed(f)
                     && b == Describe(root, entries[i].name, f)
  {
    if b in Flatten(root, entries) {
      ListedHasSource(root, entries, b);
    } else {
      forall i, f | 0 <= i < |entries| && Scanned(entries[i]) && f in entries[i].files && Listed(f)
        ensures b != Describe(root, entries[i].name, f)
      {
        SourceIsListed(root, entries, i, f);
      }
    }
  }

  /** Every listed record comes from a scanned directory's listed file. */
  lemma {:induction false} ListedHasSource(root: string, entries: seq<RootEntry>, b: BackupFile)
    requires b in Flatten(root, entries)
    ensures exists i, f :: 0 <= i < |entries| && Scanned(entries[i]) && f in entries[i].files && Listed(f)
                           && b == Describe(root, entries[i].name, f)
  {
    var e := entries[0];
    if b in BucketBackups(root, e) {
      var f :| f in Glob(e.files) && Listed(f) && b == Describe(root, e.name, f);
      assert Scanned(entries[0]) && f in entries[0].files;
    } else {
      ListedHasSource(root, entries[1..], b);
      var i, f :| 0 <= i < |entries[1..]| && Scanned(entries[1..][i]) && f in entries[1..][i].files && Listed(f)
                  && b == Describe(root, entries[1..][i].name, f);
      assert entries[1..][i] == entries[i + 1];
    }
  }

  /** Every listed file of a scanned directory is in the listing. */
  lemma {:induction false} SourceIsListed(root: string, entries: seq<RootEntry>, i: int, f: LocalFile)
    requires 0 <= i < |entries| && Scanned(entries[i]) && f in entries[i].files && Listed(f)
    ensures Describe(root, entries[i].name, f) in Flatten(root, entries)
  {
    if i == 0 {
      assert f in Glob(entries[0].files);
      assert Describe(root, entries[0].name, f) in BucketBackups(root, entries[0]);
    } else {
      assert entries[1..][i - 1] == entries[i];
      SourceIsListed(root, entries[1..], i - 1, f);
    }
  }

  /** Every listed backup is identified by its base name, carries the full
      path it was found at, and starts out as not uploaded. */
  lemma {:induction false} FlattenShape(root: string, entries: seq<RootEntry>)
    requires forall i, f :: 0 <= i < |entries| && entries[i].DateDir? && f in entries[i].files ==> IsEntryName(f.name)
    ensures forall b :: b in Flatten(root, entries) ==>
      b.id == b.name && Base(b.path) == b.name && !b.uploaded && IsSqlName(b.name)
  {
    forall b | b in Flatten(root, entries)
      ensures b.id == b.name && Base(b.path) == b.name && !b.uploaded && IsSqlName(b.name)
    {
      FlattenMembers(root, entries, b);
      var i, f :| 0 <= i < |entries| && Scanned(entries[i]) && f in entries[i].files && Listed(f)
                  && b == Describe(root, entries[i].name, f);
      BaseOfJoin(JoinPath(root, entries[i].name), f.name);
    }
  }

  /** A root entry that is not a directory never contributes, wherever it is. */
  lemma {:induction false} OtherEntriesIgnored(root: string, before: seq<RootEntry>, name: string, after: seq<RootEntry>)
    ensures Flatten(root, before + [OtherEntry(name)] + after) == Flatten(root, before + after)
    decreases |before|
  {
    if before == [] {
      var all := before + [OtherEntry(name)] + after;
      assert all == [OtherEntry(name)] + after && before + after == after;
      assert all[0] == OtherEntry(name) && all[1..] == after;
      assert BucketBackups(root, OtherEntry(name)) == [];
    } else {
      OtherEntriesIgnored(root, before[1..], name, after);
      assert (before + [OtherEntry(name)] + after)[1..] == before[1..] + [OtherEntry(name)] + after;
      assert (before + after)[1..] == before[1..] + after;
    }
  }

  // ---------------------------------------------------------------------
  // FindLatestBackup: full time resolution, earliest element wins ties
  // ---------------------------------------------------------------------

  /** `k` is the first index whose creation time is maximal. */
  predicate IsLatest(bs: seq<BackupFile>, k: int) {
    && 0 <= k < |bs|
    && (forall j :: 0 <= j < |bs| ==> bs[j].createdAt <= bs[k].createdAt)
    && (forall j :: 0 <= j < k ==> bs[j].createdAt < bs[k].createdAt)
  }

  /** At most one index is the first maximal one. */
  lemma LatestIsUnique(bs: seq<BackupFile>, k1: int, k2: int)
    requires IsLatest(bs, k1) && IsLatest(bs, k2)
    ensures k1 == k2
  {
    assert bs[k1].createdAt <= bs[k2].createdAt;
    assert bs[k2].createdAt <= bs[k1].createdAt;
  }

  /** The scan of `FindLatestBackup`: start from the first element and move
      on only to a strictly later one (`After`). */
  method LatestIndex(bs: seq<BackupFile>) returns (k: nat)
    requires |bs| > 0
    ensures IsLatest(bs, k)
  {
    k := 0;
    var i := 0;
    while i < |bs|
      invariant 0 <= i <= |bs|
      invariant k < |bs| && k <= i
      invariant forall j :: 0 <= j < i ==> bs[j].createdAt <= bs[k].createdAt
      invariant forall j :: 0 <= j < k ==> bs[j].createdAt < bs[k].createdAt
    {
      if bs[i].createdAt > bs[k].createdAt {
        k := i;
      }
      i := i + 1;
    }
  }

  /** `FindLatestBackup`. */
  method FindLatestBackup(root: string, fs: LocalFs) returns (r: Result<BackupFile, string>)
    ensures fs.Unreadable? ==> r == Err(ReadDirPrefix + fs.reason)
    ensures fs.Listing? && Flatten(root, fs.entries) == [] ==> r == Err(NoBackupFound)
    ensures fs.Listing? && Flatten(root, fs.entries) != [] ==>
      r.Ok? && exists k :: IsLatest(Flatten(root, fs.entries), k) && r.value == Flatten(root, fs.entries)[k]
  {
    var all := GetAllBackups(root, fs);
    if all.Err? {
      return Err(all.error);
    }
    if |all.value| == 0 {
      return Err(NoBackupFound);
    }
    var k := LatestIndex(all.value);
    r := Ok(all.value[k]);
  }

  // ---------------------------------------------------------------------
  // findLatestBackup of cmd/backup/main.go: whole seconds, running maximum
  // starting at 0, "" when nothing qualifies
  // ---------------------------------------------------------------------

  function Seconds(b: BackupFile): int {
    UnixSeconds(b.createdAt)
  }

  /** `k` is the first index with the largest whole-second time, and that time is positive. */
  predicate IsLatestBySeconds(bs: seq<BackupFile>, k: int) {
    && 0 <= k < |bs|
    && Seconds(bs[k]) > 0
    && (forall j :: 0 <= j < |bs| ==> Seconds(bs[j]) <= Seconds(bs[k]))
    && (forall j :: 0 <= j < k ==> Seconds(bs[j]) < Seconds(bs[k]))
  }

  predicate AnyPositive(bs: seq<BackupFile>) {
    exists j :: 0 <= j < |bs| && Seconds(bs[j]) > 0
  }

  /** The scan of main.go's `findLatestBackup` over the files it visits (the
      same files, in the same order, as `GetAllBackups` lists). */
  method LatestPathBySeconds(bs: seq<BackupFile>) returns (path: string)
    ensures !AnyPositive(bs) ==> path == ""
    ensures AnyPositive(bs) ==>
      exists k {:trigger IsLatestBySeconds(bs, k)} :: IsLatestBySeconds(bs, k) && path == bs[k].path
  {
    path := "";
    var latest := 0;
    ghost var k := -1;
    var i := 0;
    while i < |bs|
      invariant 0 <= i <= |bs|
      invariant -1 <= k < i
      invariant k == -1 <==> latest == 0
      invariant k == -1 ==> path == "" && forall j :: 0 <= j < i ==> Seconds(bs[j]) <= 0
      invariant k >= 0 ==> path == bs[k].path && latest == Seconds(bs[k]) && latest > 0
      invariant k >= 0 ==> forall j :: 0 <= j < i ==> Seconds(bs[j]) <= latest
      invariant k >= 0 ==> forall j :: 0 <= j < k ==> Seconds(bs[j]) < latest
    {
      var m := Seconds(bs[i]);
      if m > latest {
        latest := m;
        path := bs[i].path;
        k := i;
      }
      i := i + 1;
    }
    if k >= 0 {
      assert IsLatestBySeconds(bs, k);
    }
  }

  /** At most one index is the first with the greatest positive second. */
  lemma LatestBySecondsUnique(bs: seq<BackupFile>, k1: int, k2: int)
    requires IsLatestBySeconds(bs, k1) && IsLatestBySeconds(bs, k2)
    ensures k1 == k2
  {
    assert Seconds(bs[k1]) <= Seconds(bs[k2]) && Seconds(bs[k2]) <= Seconds(bs[k1]);
  }

  /** Some index is the first with the greatest second as soon as any
      second is positive. */
  lemma LatestBySecondsExists(bs: seq<BackupFile>)
    requires AnyPositive(bs)
    ensures exists k {:trigger IsLatestBySeconds(bs, k)} :: IsLatestBySeconds(bs, k)
  {
    var latest, k, i := 0, -1, 0;
    while i < |bs|
      invariant 0 <= i <= |bs|
      invariant -1 <= k < i
      invariant k == -1 ==> latest == 0 && forall j :: 0 <= j < i ==> Seconds(bs[j]) <= 0
      invariant k >= 0 ==> latest == Seconds(bs[k]) && latest > 0
      invariant k >= 0 ==> forall j :: 0 <= j < i ==> Seconds(bs[j]) <= latest
      invariant k >= 0 ==> forall j :: 0 <= j < k ==> Seconds(bs[j]) < latest
    {
      if Seconds(bs[i]) > latest {
        latest, k := Seconds(bs[i]), i;
      }
      i := i + 1;
    }
    assert k != -1;
    assert IsLatestBySeconds(bs, k);
  }

  /** The path main.go's scan picks, as a definition: the path of the first
      file with the greatest positive second, or "" when there is none. */
  ghost function ChosenPath(root: string, fs: LocalFs): (p: string)
    ensures fs.Unreadable? || !AnyPositive(Flatten(root, fs.entries)) ==> p == ""
    ensures fs.Listing? && AnyPositive(Flatten(root, fs.entries)) ==>
      exists k {:trigger IsLatestBySeconds(Flatten(root, fs.entries), k)} ::
        IsLatestBySeconds(Flatten(root, fs.entries), k) && p == Flatten(root, fs.entries)[k].path
  {
    if fs.Unreadable? || !AnyPositive(Flatten(root, fs.entries)) then ""
    else
      var bs := Flatten(root, fs.entries);
      LatestBySecondsExists(bs);
      var k :| IsLatestBySeconds(bs, k);
      bs[k].path
  }

  /** main.go's `findLatestBackup`: "" when the root cannot be read or no
      listed file has a positive whole-second time. */
  method FindLatestPath(root: string, fs: LocalFs) returns (path: string)
    ensures fs.Unreadable? ==> path == ""
    ensures fs.Listing? && !AnyPositive(Flatten(root, fs.entries)) ==> path == ""
    ensures fs.Listing? && AnyPositive(Flatten(root, fs.entries)) ==>
      exists k {:trigger IsLatestBySeconds(Flatten(root, fs.entries), k)} ::
        IsLatestBySeconds(Flatten(root, fs.entries), k) && path == Flatten(root, fs.entries)[k].path
    ensures path == ChosenPath(root, fs)
  {
    if fs.Unreadable? {
      return "";
    }
    var bs := Flatten(root, fs.entries);
    path := LatestPathBySeconds(bs);
    if AnyPositive(bs) {
      ghost var k :| IsLatestBySeconds(bs, k) && path == bs[k].path;
      ghost var k' :| IsLatestBySeconds(bs, k') && ChosenPath(root, fs) == bs[k'].path;
      LatestBySecondsUnique(bs, k, k');
    }
  }

  /** A file whose time is at or before the epoch is never picked by the
      seconds-based selector, even when it is the only backup. */
  lemma NonPositiveNeverSelected(bs: seq<BackupFile>, k: int)
    requires 0 <= k < |bs| && Seconds(bs[k]) <= 0
    ensures !IsLatestBySeconds(bs, k)
  {
  }

  /** The two selectors disagree on two backups written in the same second:
      `FindLatestBackup` takes the later one, `findLatestBackup` the first. */
  lemma SelectorsDisagreeWithinOneSecond()
    ensures var a := BackupFile("a.sql", "a.sql", "/b/d/a.sql", 1, 5_100_000_000, false);
      var b := BackupFile("b.sql", "b.sql", "/b/d/b.sql", 1, 5_900_000_000, false);
      IsLatest([a, b], 1) && IsLatestBySeconds([a, b], 0)
  {
  }

  // ---------------------------------------------------------------------
  // Presentation helpers of BackupFile
  // ---------------------------------------------------------------------

  const KB: int := 1024
  const MB: int := 1024 * KB
  const GB: int := 1024 * MB

  datatype SizeUnit = Gigabytes | Megabytes | Kilobytes

  /** What `FormatSize` prints: a value in a scaled unit (its two decimals
      come from floating point and are not modelled) or the exact byte count. */
  datatype SizeText = Scaled(unit: SizeUnit) | Exact(text: string)

  function Scale(u: SizeUnit): int {
    match u
    case Gigabytes => GB
    case Megabytes => MB
    case Kilobytes => KB
  }

  /** `FormatSize`: the largest unit not exceeding the size, or bytes. */
  function FormatSize(size: int): (t: SizeText)
    // Below one kibibyte the exact integer is printed, followed by " B".
    ensures t.Exact? <==> size < KB
    ensures t.Exact? ==> t.text == IntText(size) + " B"
    // A scaled value always lies in [1, 1024) of its unit, except that
    // gibibytes have no upper bound.
    ensures t.Scaled? ==> Scale(t.unit) <= size
    ensures t.Scaled? && t.unit != Gigabytes ==> size < 1024 * Scale(t.unit)
  {
    if size >= GB then Scaled(Gigabytes)
    else if size >= MB then Scaled(Megabytes)
    else if size >= KB then Scaled(Kilobytes)
    else Exact(IntText(size) + " B")
  }

  /** `FormatCreatedAt`: layout `02/01/2006 15:04:05` in the local zone. */
  function FormatCreatedAt(b: BackupFile, zoneOffset: int): (s: string)
    ensures FourDigitYear(Local(b.createdAt, zoneOffset)) ==>
      |s| == 19 && ParseDisplay(s) == Some(Local(b.createdAt, zoneOffset))
  {
    var dt := Local(b.createdAt, zoneOffset);
    if FourDigitYear(dt) then DisplayRoundTrip(dt); Display(dt) else Display(dt)
  }
}

=== FILE: cli.dfy ===
/** The command-line entry point of cmd/backup/main.go: which actions a set
    of flags selects, the fixed order they run in, and the rule that the
    first failure ends the process. Printing and the web server itself are
    not modelled; starting the server is the last thing a run can do. */
module Cli {
  import opened Results
  import opened Text
  import opened Clock
  import opened Config
  import opened Catalog
  import opened Credentials
  import opened Drive
  import opened Dumper

  /** The boolean flags `-dump`, `-upload-last`, `-upload-all` and `-web`. */
  datatype Flags = Flags(dump: bool, uploadLast: bool, uploadAll: bool, web: bool)

  datatype Action = DumpAction | UploadLastAction | UploadAllAction | WebAction

  /** The position of an action in the fixed order. */
  function Rank(a: Action): nat {
    match a
    case DumpAction => 0
    case UploadLastAction => 1
    case UploadAllAction => 2
    case WebAction => 3
  }

  /** A dump runs when asked for, and also when no other action is. */
  predicate Wants(flags: Flags, a: Action) {
    match a
    case DumpAction => flags.dump || (!flags.uploadLast && !flags.uploadAll && !flags.web)
    case UploadLastAction => flags.uploadLast
    case UploadAllAction => flags.uploadAll
    case WebAction => flags.web
  }

  function Piece(flags: Flags, a: Action): seq<Action> {
    if Wants(flags, a) then [a] else []
  }

  /** The actions a flag set selects, in the order they run. */
  function Plan(flags: Flags): seq<Action> {
    Piece(flags, DumpAction) + Piece(flags, UploadLastAction) + Piece(flags, UploadAllAction) + Piece(flags, WebAction)
  }

  /** The plan holds exactly the wanted actions, at least one, each once and
      by rank. */
  lemma PlanShape(flags: Flags)
    ensures forall a :: a in Plan(flags) <==> Wants(flags, a)
    ensures Plan(flags) != []
    ensures forall i, j :: 0 <= i < j < |Plan(flags)| ==> Rank(Plan(flags)[i]) < Rank(Plan(flags)[j])
  {
  }

  /** Without flags the program dumps; `-web` alone only serves. */
  lemma PlanExamples()
    ensures Plan(Flags(false, false, false, false)) == [DumpAction]
    ensures Plan(Flags(false, false, false, true)) == [WebAction]
    ensures Plan(Flags(true, false, false, true)) == [DumpAction, WebAction]
  {
  }

  /** Why a run ended early (`log.Fatalf`). */
  datatype Fatal =
    | ConfigFailed(error: string)
    | DumpFailed(error: string)
    | NoLatestBackup
    | UploadFailed(cause: UploadError)
    | UploadAllFailed(cause: UploadError)

  datatype Ending = Fatal(reason: Fatal) | Finished | Serving

  /** The actions begun, the dump's steps, the remote store afterwards and
      how the run ended. */
  datatype Outcome = Outcome(performed: seq<Action>, steps: seq<Step>, store: Store, ending: Ending)

  /** The action whose failure a fatal reason reports; a configuration
      failure comes before any action. */
  function Stage(reason: Fatal): Option<Action> {
    match reason
    case ConfigFailed(_) => None
    case DumpFailed(_) => Some(DumpAction)
    case NoLatestBackup => Some(UploadLastAction)
    case UploadFailed(_) => Some(UploadLastAction)
    case UploadAllFailed(_) => Some(UploadAllAction)
  }

  /** The actions begun by a run that ended as `ending`: the whole plan, or
      the plan cut after the stage that failed. */
  function Begun(flags: Flags, ending: Ending): seq<Action> {
    var d, l, a := Piece(flags, DumpAction), Piece(flags, UploadLastAction), Piece(flags, UploadAllAction);
    if !ending.Fatal? then Plan(flags)
    else match ending.reason
      case ConfigFailed(_) => []
      case DumpFailed(_) => d
      case NoLatestBackup => d + l
      case UploadFailed(_) => d + l
      case UploadAllFailed(_) => d + l + a
  }

  /** A run begins a prefix of its plan; it is all of the plan unless an
      action failed, and then that action is the last one begun. */
  lemma BegunShape(flags: Flags, ending: Ending)
    requires ending.Fatal? && Stage(ending.reason).Some? ==> Wants(flags, Stage(ending.reason).value)
    ensures Begun(flags, ending) <= Plan(flags)
    ensures !ending.Fatal? ==> Begun(flags, ending) == Plan(flags)
    ensures ending.Fatal? && Stage(ending.reason).Some? ==>
      var b := Begun(flags, ending); b != [] && b[|b| - 1] == Stage(ending.reason).value
    ensures ending.Fatal? && Stage(ending.reason).None? ==> Begun(flags, ending) == []
  {
    var d, l, a, w := Piece(flags, DumpAction), Piece(flags, UploadLastAction),
                      Piece(flags, UploadAllAction), Piece(flags, WebAction);
    if ending.Fatal? {
      match ending.reason
      case ConfigFailed(_) =>
      case DumpFailed(_) =>
        assert Plan(flags) == d + (l + a + w);
      case NoLatestBackup =>
        assert Plan(flags) == (d + l) + (a + w);
      case UploadFailed(_) =>
        assert Plan(flags) == (d + l) + (a + w);
      case UploadAllFailed(_) =>
    }
  }

  /** The `-dump` step: the dump as written, whose error is fatal. */
  method DumpStage(cfg: Config, env: DumpEnv) returns (steps: seq<Step>, failure: Option<Fatal>)
    ensures steps <= AllSteps
    ensures failure.None? <==> FirstFailure(env).None?
    ensures failure.None? ==> steps == AllSteps
    // The fatal message is the dump's message re-read as a format.
    ensures failure.Some? ==> failure.value == DumpFailed(Sprintf0(Render(DumpDatabase(cfg, env).result.message)))
    ensures steps == DumpAsWritten(cfg, env).steps
    ensures failure.Some? ==> failure.value == DumpFailed(DumpAsWritten(cfg, env).error.value)
  {
    var d := DumpAsWritten(cfg, env);
    steps := d.steps;
    failure := if d.error.Some? then Some(DumpFailed(d.error.value)) else None;
  }

  /** The `-upload-last` step once the scan has picked `latest` ("" for
      none): nothing picked is fatal, and so is a failed upload. */
  function UploadLastOn(latest: string, st: Store, f: Faults, token: TokenFile, folderDrive: string,
                        today: DateTime, opens: string -> bool): (r: (Store, Option<Fatal>))
    ensures Extends(st, r.0)
  {
    if latest == "" then (st, Some(NoLatestBackup))
    else
      var run := UploadFile(st, f, token, folderDrive, today, latest, opens(latest));
      (run.store, if run.error.Some? then Some(UploadFailed(run.error.value)) else None)
  }

  /** The `-upload-last` step: main.go's own scan for the newest file (whole
      seconds), then an upload of that file. */
  method UploadLastStep(backupDir: string, folderDrive: string, fs: LocalFs, st: Store, f: Faults,
                        token: TokenFile, today: DateTime, opens: string -> bool)
    returns (store: Store, failure: Option<Fatal>)
    ensures Extends(st, store)
    ensures failure.Some? ==> failure.value.NoLatestBackup? || failure.value.UploadFailed?
    // It gives up, touching nothing, when no file has a positive modification second.
    ensures failure == Some(NoLatestBackup) <==> fs.Unreadable? || !AnyPositive(Flatten(backupDir, fs.entries))
    ensures failure == Some(NoLatestBackup) ==> store == st
    // Otherwise it uploads the newest file (see `UploadLastPicksNewest`).
    ensures (store, failure) == UploadLastOn(ChosenPath(backupDir, fs), st, f, token, folderDrive, today, opens)
  {
    var latest := FindLatestPath(backupDir, fs);
    if fs.Listing? && AnyPositive(Flatten(backupDir, fs.entries)) {
      NonEmptyPathFound(backupDir, fs);
    }
    if latest == "" {
      return st, Some(NoLatestBackup);
    }
    var run := UploadFile(st, f, token, folderDrive, today, latest, opens(latest));
    store := run.store;
    failure := if run.error.Some? then Some(UploadFailed(run.error.value)) else None;
  }

  /** When the `-upload-last` step does not give up, it has uploaded the
      file with the greatest positive second (the first such in the
      listing), and its verdict is that upload's. */
  lemma UploadLastPicksNewest(backupDir: string, folderDrive: string, fs: LocalFs, st: Store, f: Faults,
                              token: TokenFile, today: DateTime, opens: string -> bool)
    ensures var (store, failure) := UploadLastOn(ChosenPath(backupDir, fs), st, f, token, folderDrive, today, opens);
      failure != Some(NoLatestBackup) ==>
        exists k {:trigger IsLatestBySeconds(Flatten(backupDir, fs.entries), k)} ::
          IsLatestBySeconds(Flatten(backupDir, fs.entries), k)
          && var path := Flatten(backupDir, fs.entries)[k].path;
             var run := UploadFile(st, f, token, folderDrive, today, path, opens(path));
             store == run.store && (failure.None? <==> run.error.None?)
  {
    if fs.Listing? && AnyPositive(Flatten(backupDir, fs.entries)) {
      NonEmptyPathFound(backupDir, fs);
    }
  }

  /** The `-upload-all` step on store `st`: the batch's error is fatal. */
  function UploadAllOn(st: Store, f: Faults, token: TokenFile, folderDrive: string, backupDir: string,
                       fs: LocalFs): (r: (Store, Option<Fatal>))
    ensures Extends(st, r.0)
    ensures r.1.Some? <==> !CheckAuth(token) || CreateOrFindFolder(st, f, folderDrive, "").Err? || fs.Unreadable?
  {
    var batch := UploadAllBackups(st, f, token, folderDrive, backupDir, fs);
    (batch.store, if batch.error.Some? then Some(UploadAllFailed(batch.error.value)) else None)
  }

  /** The `-upload-all` step: `UploadAllBackups`, whose error is fatal. */
  method UploadAllStage(st: Store, f: Faults, token: TokenFile, folderDrive: string, backupDir: string, fs: LocalFs)
    returns (store: Store, failure: Option<Fatal>)
    ensures Extends(st, store)
    ensures failure.Some? <==> !CheckAuth(token) || CreateOrFindFolder(st, f, folderDrive, "").Err? || fs.Unreadable?
    ensures failure.Some? ==> failure.value.UploadAllFailed?
    ensures (store, failure) == UploadAllOn(st, f, token, folderDrive, backupDir, fs)
  {
    var batch := UploadAllBackups(st, f, token, folderDrive, backupDir, fs);
    store := batch.store;
    failure := if batch.error.Some? then Some(UploadAllFailed(batch.error.value)) else None;
  }

  /** No dump was planned, or it succeeded: the run goes on to the uploads. */
  predicate DumpPassed(flags: Flags, env: DumpEnv) {
    !Wants(flags, DumpAction) || FirstFailure(env).None?
  }

  /** The store and verdict after the `-upload-last` stage, or after
      skipping it. */
  ghost function AfterLast(flags: Flags, cfg: Config, fs: LocalFs, st: Store, f: Faults, token: TokenFile,
                           today: DateTime, opens: string -> bool): (Store, Option<Fatal>) {
    if flags.uploadLast then UploadLastOn(ChosenPath(cfg.backupDir, fs), st, f, token, cfg.folderDrive, today, opens)
    else (st, None)
  }

  /** The store and verdict after the `-upload-all` stage on `st`, or after
      skipping it. */
  function AfterAll(flags: Flags, cfg: Config, fs: LocalFs, st: Store, f: Faults, token: TokenFile): (Store, Option<Fatal>) {
    if flags.uploadAll then UploadAllOn(st, f, token, cfg.folderDrive, cfg.backupDir, fs) else (st, None)
  }

  /** A run composes its stages: a failed dump ends it before anything is
      uploaded; otherwise the upload of the latest file runs on the store as
      it was, the upload of everything on the store that left, and the first
      fatal verdict ends the run with the store as it then is. */
  ghost predicate Composed(o: Outcome, flags: Flags, cfg: Config, env: DumpEnv, fs: LocalFs, st: Store, f: Faults,
                           token: TokenFile, today: DateTime, opens: string -> bool) {
    && (!DumpPassed(flags, env) ==>
          o == Outcome(Piece(flags, DumpAction), DumpAsWritten(cfg, env).steps, st,
                       Fatal(DumpFailed(DumpAsWritten(cfg, env).error.value))))
    && (DumpPassed(flags, env) ==> UploadsComposed(o, flags, cfg, fs, st, f, token, today, opens))
  }

  /** The upload half of `Composed`. */
  ghost predicate UploadsComposed(o: Outcome, flags: Flags, cfg: Config, fs: LocalFs, st: Store, f: Faults,
                                  token: TokenFile, today: DateTime, opens: string -> bool) {
    var (s1, last) := AfterLast(flags, cfg, fs, st, f, token, today, opens);
    && (last.Some? ==> o.store == s1 && o.ending == Fatal(last.value))
    && (last.None? ==>
          var (s2, all) := AfterAll(flags, cfg, fs, s1, f, token);
          && o.store == s2
          && (all.Some? ==> o.ending == Fatal(all.value))
          && (all.None? ==> !o.ending.Fatal?))
  }

  /** The actions performed after a configuration was loaded. */
  method Execute(flags: Flags, cfg: Config, env: DumpEnv, fs: LocalFs, st: Store, f: Faults,
                 token: TokenFile, today: DateTime, opens: string -> bool) returns (o: Outcome)
    ensures o.performed == Begun(flags, o.ending)
    ensures o.ending.Fatal? ==> Stage(o.ending.reason).Some? && Wants(flags, Stage(o.ending.reason).value)
    ensures o.ending == Serving <==> !o.ending.Fatal? && flags.web
    ensures Extends(st, o.store)
    // The dump, when planned, ran every step unless it was what failed.
    ensures !Wants(flags, DumpAction) ==> o.steps == []
    ensures Wants(flags, DumpAction) && !(o.ending.Fatal? && o.ending.reason.DumpFailed?) ==> o.steps == AllSteps
    // A planned dump ends the run exactly when one of its steps fails.
    ensures Wants(flags, DumpAction) ==> (o.ending.Fatal? && o.ending.reason.DumpFailed? <==> FirstFailure(env).Some?)
    // Every later stage runs on the store the one before it left, and its failure is fatal.
    ensures Composed(o, flags, cfg, env, fs, st, f, token, today, opens)
  {
    var steps: seq<Step> := [];
    if Wants(flags, DumpAction) {
      var failure;
      steps, failure := DumpStage(cfg, env);
      if failure.Some? {
        return Outcome(Piece(flags, DumpAction), steps, st, Fatal(failure.value));
      }
    }

    o := Uploads(flags, cfg, fs, st, f, token, today, opens, steps);
  }

  /** How a run that reached the uploads ends, given what each upload
      stage left and reported: the first fatal verdict, or the whole plan. */
  function Finish(flags: Flags, steps: seq<Step>, s1: Store, last: Option<Fatal>, s2: Store, all: Option<Fatal>): Outcome {
    if last.Some? then Outcome(Begun(flags, Fatal(last.value)), steps, s1, Fatal(last.value))
    else if all.Some? then Outcome(Begun(flags, Fatal(all.value)), steps, s2, Fatal(all.value))
    else Outcome(Plan(flags), steps, s2, if flags.web then Serving else Finished)
  }

  /** The upload stages, once the dump (if planned) has passed. */
  method Uploads(flags: Flags, cfg: Config, fs: LocalFs, st: Store, f: Faults,
                 token: TokenFile, today: DateTime, opens: string -> bool, steps: seq<Step>) returns (o: Outcome)
    ensures o.steps == steps
    ensures o.performed == Begun(flags, o.ending)
    ensures o.ending.Fatal? ==> (o.ending.reason.NoLatestBackup? || o.ending.reason.UploadFailed?
                                 || o.ending.reason.UploadAllFailed?)
                                && Wants(flags, Stage(o.ending.reason).value)
    ensures o.ending == Serving <==> !o.ending.Fatal? && flags.web
    ensures Extends(st, o.store)
    ensures UploadsComposed(o, flags, cfg, fs, st, f, token, today, opens)
  {
    var s1, last, s2, all := UploadStages(flags, cfg, fs, st, f, token, today, opens);
    o := Finish(flags, steps, s1, last, s2, all);
    FinishShape(flags, steps, s1, last, s2, all);
  }

  /** The two upload stages in turn, each one skipped when not planned and
      the second also when the first failed. */
  method UploadStages(flags: Flags, cfg: Config, fs: LocalFs, st: Store, f: Faults,
                      token: TokenFile, today: DateTime, opens: string -> bool)
    returns (s1: Store, last: Option<Fatal>, s2: Store, all: Option<Fatal>)
    ensures (s1, last) == AfterLast(flags, cfg, fs, st, f, token, today, opens)
    ensures (s2, all) == if last.None? then AfterAll(flags, cfg, fs, s1, f, token) else (s1, None)
    ensures Extends(st, s1) && Extends(s1, s2) && Extends(st, s2)
    ensures last.Some? ==> (last.value.NoLatestBackup? || last.value.UploadFailed?) && flags.uploadLast
    ensures all.Some? ==> all.value.UploadAllFailed? && flags.uploadAll
  {
    s1, last := LastStage(flags, cfg, fs, st, f, token, today, opens);
    s2, all := AllStage(flags, cfg, fs, s1, f, token, last);
    ExtendsTransitive(st, s1, s2);
  }

  /** The `-upload-last` stage, skipped when not planned. */
  method LastStage(flags: Flags, cfg: Config, fs: LocalFs, st: Store, f: Faults,
                   token: TokenFile, today: DateTime, opens: string -> bool)
    returns (s1: Store, last: Option<Fatal>)
    ensures (s1, last) == AfterLast(flags, cfg, fs, st, f, token, today, opens)
    ensures Extends(st, s1)
    ensures last.Some? ==> (last.value.NoLatestBackup? || last.value.UploadFailed?) && flags.uploadLast
  {
    s1, last := st, None;
    if flags.uploadLast {
      s1, last := UploadLastStep(cfg.backupDir, cfg.folderDrive, fs, st, f, token, today, opens);
    }
  }

  /** The `-upload-all` stage, skipped when not planned or when the stage
      before it failed. */
  method AllStage(flags: Flags, cfg: Config, fs: LocalFs, s1: Store, f: Faults, token: TokenFile, last: Option<Fatal>)
    returns (s2: Store, all: Option<Fatal>)
    ensures (s2, all) == if last.None? then AfterAll(flags, cfg, fs, s1, f, token) else (s1, None)
    ensures Extends(s1, s2)
    ensures all.Some? ==> all.value.UploadAllFailed? && flags.uploadAll
  {
    s2, all := s1, None;
    if last.None? && flags.uploadAll {
      s2, all := UploadAllStage(s1, f, token, cfg.folderDrive, cfg.backupDir, fs);
    }
  }

  /** A run that ends through `Finish` begins the actions its ending
      allows, and serves exactly when nothing failed and `-web` was given. */
  lemma FinishShape(flags: Flags, steps: seq<Step>, s1: Store, last: Option<Fatal>, s2: Store, all: Option<Fatal>)
    requires last.Some? ==> (last.value.NoLatestBackup? || last.value.UploadFailed?) && flags.uploadLast
    requires all.Some? ==> all.value.UploadAllFailed? && flags.uploadAll
    ensures var o := Finish(flags, steps, s1, last, s2, all);
      && o.steps == steps
      && o.performed == Begun(flags, o.ending)
      && (o.ending.Fatal? ==> (o.ending.reason.NoLatestBackup? || o.ending.reason.UploadFailed?
                               || o.ending.reason.UploadAllFailed?)
                              && Wants(flags, Stage(o.ending.reason).value))
      && (o.ending == Serving <==> !o.ending.Fatal? && flags.web)
  {
  }

  /** `main` after flag parsing. The configuration comes from the `.env`
      read, the process environment and the working directory; `env` is
      what the dump step meets; `fs` is the backup root as the upload steps
      see it; `opens(path)` is whether `os.Open(path)` succeeds; the
      uploads happen on the day `today`. */
  method RunCommand(flags: Flags, dotenv: Result<Env, string>, process: Env, cwd: Result<string, string>,
                    env: DumpEnv, fs: LocalFs, st: Store, f: Faults, token: TokenFile, today: DateTime,
                    opens: string -> bool) returns (o: Outcome)
    // Without a configuration nothing runs.
    ensures LoadConfig(dotenv, process, cwd).Err? ==>
      o == Outcome([], [], st, Fatal(ConfigFailed(LoadConfig(dotenv, process, cwd).error)))
    // With one, the stages run as composed, each failure fatal.
    ensures LoadConfig(dotenv, process, cwd).Ok? ==>
      Composed(o, flags, LoadConfig(dotenv, process, cwd).value, env, fs, st, f, token, today, opens)
    // The actions begun are a prefix of the plan; all of it runs unless one
    // fails, and then the failing action is the last one begun.
    ensures o.performed <= Plan(flags)
    ensures !o.ending.Fatal? ==> o.performed == Plan(flags)
    ensures o.ending.Fatal? && !o.ending.reason.ConfigFailed? ==>
      o.performed != [] && Some(o.performed[|o.performed| - 1]) == Stage(o.ending.reason)
    ensures o.ending == Serving <==> !o.ending.Fatal? && flags.web
    ensures Extends(st, o.store)
  {
    var loaded := LoadConfig(dotenv, process, cwd);
    if loaded.Err? {
      return Outcome([], [], st, Fatal(ConfigFailed(loaded.error)));
    }
    o := Execute(flags, loaded.value, env, fs, st, f, token, today, opens);
    BegunShape(flags, o.ending);
  }

  /** Every failure is fatal: in a composed run a planned dump ends the run
      exactly when one of its steps fails, the upload of the latest file,
      when reached, exactly when nothing is picked or its upload fails, and
      the upload of everything, when reached, exactly when one of its gates
      fails. */
  lemma FailuresAreFatal(o: Outcome, flags: Flags, cfg: Config, env: DumpEnv, fs: LocalFs, st: Store, f: Faults,
                         token: TokenFile, today: DateTime, opens: string -> bool)
    requires Composed(o, flags, cfg, env, fs, st, f, token, today, opens)
    ensures Wants(flags, DumpAction) ==> (o.ending.Fatal? && o.ending.reason.DumpFailed? <==> FirstFailure(env).Some?)
    ensures DumpPassed(flags, env) && flags.uploadLast ==>
      var latest := ChosenPath(cfg.backupDir, fs);
      && (o.ending == Fatal(NoLatestBackup) <==> latest == "")
      && ((o.ending.Fatal? && o.ending.reason.UploadFailed?) <==>
            (latest != "" && UploadFile(st, f, token, cfg.folderDrive, today, latest, opens(latest)).error.Some?))
    ensures DumpPassed(flags, env) && AfterLast(flags, cfg, fs, st, f, token, today, opens).1.None? && flags.uploadAll ==>
      var s1 := AfterLast(flags, cfg, fs, st, f, token, today, opens).0;
      (o.ending.Fatal? <==>
         (!CheckAuth(token) || fs.Unreadable? || CreateOrFindFolder(s1, f, cfg.folderDrive, "").Err?))
  {
  }

  /** A path selected by main.go's scan is never empty. */
  lemma NonEmptyPathFound(root: string, fs: LocalFs)
    requires fs.Listing? && AnyPositive(Flatten(root, fs.entries))
    ensures forall k :: IsLatestBySeconds(Flatten(root, fs.entries), k) ==> Flatten(root, fs.entries)[k].path != ""
  {
    var bs := Flatten(root, fs.entries);
    forall k | IsLatestBySeconds(bs, k)
      ensures bs[k].path != ""
    {
      FlattenMembers(root, fs.entries, bs[k]);
    }
  }
}

=== FILE: clock.dfy ===
/** Time values and the three `time.Format` layouts the backup code uses.
    An instant is nanoseconds since the Unix epoch; its wall-clock reading is
    taken in a zone given by a fixed offset in seconds (the process's local
    zone). */
module Clock {
  import opened Text
  import opened Results

  const NanosPerSecond: int := 1_000_000_000
  const SecondsPerDay: int := 86400

  /** `time.Time` reduced to its instant: nanoseconds since 1970-01-01 UTC. */
  type Instant = int

  /** A wall-clock reading in the proleptic Gregorian calendar. */
  datatype DateTime = DateTime(year: int, month: int, day: int, hour: int, minute: int, second: int)

  /** `t.Unix()`: whole seconds since the epoch, rounded towards minus
      infinity (Dafny's `/` by a positive divisor floors). */
  function UnixSeconds(t: Instant): (s: int)
    ensures s * NanosPerSecond <= t < (s + 1) * NanosPerSecond
  {
    t / NanosPerSecond
  }

  // ---------------------------------------------------------------------
  // Calendar
  // ---------------------------------------------------------------------

  predicate IsLeap(y: int) {
    y % 4 == 0 && (y % 100 != 0 || y % 400 == 0)
  }

  function DaysInYear(y: int): int {
    if IsLeap(y) then 366 else 365
  }

  function DaysInMonth(y: int, m: int): (n: int)
    requires 1 <= m <= 12
    ensures 28 <= n <= 31
  {
    if m == 2 then (if IsLeap(y) then 29 else 28)
    else if m == 4 || m == 6 || m == 9 || m == 11 then 30
    else 31
  }

  /** Days in months `m` through December of year `y`. */
  function DaysFromMonth(y: int, m: int): (n: int)
    requires 1 <= m <= 13
    ensures n >= 0
    decreases 13 - m
  {
    if m == 13 then 0 else DaysInMonth(y, m) + DaysFromMonth(y, m + 1)
  }

  lemma DaysFromJanuary(y: int)
    ensures DaysFromMonth(y, 1) == DaysInYear(y)
  {
  }

  predicate ValidDate(y: int, m: int, d: int) {
    1 <= m <= 12 && 1 <= d <= DaysInMonth(y, m)
  }

  predicate Valid(dt: DateTime) {
    && ValidDate(dt.year, dt.month, dt.day)
    && 0 <= dt.hour < 24
    && 0 <= dt.minute < 60
    && 0 <= dt.second < 60
  }

  datatype Date = Date(year: int, month: int, day: int)

  /** The date `d` days (0-based) into year `y`, starting the search at month `m`. */
  function MonthAndDay(y: int, m: int, d: int): (r: Date)
    requires 1 <= m <= 12
    requires 0 <= d < DaysFromMonth(y, m)
    ensures r.year == y && ValidDate(r.year, r.month, r.day)
    decreases 12 - m
  {
    if d < DaysInMonth(y, m) then Date(y, m, d + 1)
    else MonthAndDay(y, m + 1, d - DaysInMonth(y, m))
  }

  /** The date `d >= 0` days after January 1st of year `y`. */
  function DateAfter(y: int, d: int): (r: Date)
    requires d >= 0
    ensures ValidDate(r.year, r.month, r.day)
    decreases d
  {
    if d < DaysInYear(y) then
      DaysFromJanuary(y);
      MonthAndDay(y, 1, d)
    else DateAfter(y + 1, d - DaysInYear(y))
  }

  /** The date `k > 0` days before January 1st of year `y + 1`. */
  function DateBefore(y: int, k: int): (r: Date)
    requires k > 0
    ensures ValidDate(r.year, r.month, r.day)
    decreases k
  {
    if k <= DaysInYear(y) then
      DaysFromJanuary(y);
      MonthAndDay(y, 1, DaysInYear(y) - k)
    else DateBefore(y - 1, k - DaysInYear(y))
  }

  /** The civil date of day number `days`, counted from 1970-01-01. */
  function DateOfDay(days: int): (r: Date)
    ensures ValidDate(r.year, r.month, r.day)
  {
    if days >= 0 then DateAfter(1970, days) else DateBefore(1969, -days)
  }

  /** The wall-clock reading of instant `t` in a zone `offset` seconds east of UTC. */
  function Local(t: Instant, offset: int): (dt: DateTime)
    ensures Valid(dt)
  {
    var secs := UnixSeconds(t) + offset;
    var date := DateOfDay(secs / SecondsPerDay);
    var sod := secs % SecondsPerDay;
    DateTime(date.year, date.month, date.day, sod / 3600, (sod % 3600) / 60, sod % 60)
  }

  lemma EpochIsNewYear1970()
    ensures Local(0, 0) == DateTime(1970, 1, 1, 0, 0, 0)
  {
  }

  // ---------------------------------------------------------------------
  // Layouts
  // ---------------------------------------------------------------------

  /** Layout element `2006`: at least four digits, a sign for negative years. */
  function YearText(y: int): (s: string)
    ensures 0 <= y < 10000 ==> |s| == 4 && AllDigits(s) && Value(s) == y
  {
    if y < 0 then "-" + Pad(-y, 4)
    else
      assert Pow10(4) == 10000;
      Pad(y, 4)
  }

  /** Layout element `01`, `02`, `15`, `04` or `05`: two digits for values below 100. */
  function Two(n: int): (s: string)
    ensures 0 <= n < 100 ==> |s| == 2 && AllDigits(s) && Value(s) == n
  {
    if n < 0 then "-" + Pad(-n, 2)
    else
      assert Pow10(2) == 100;
      Pad(n, 2)
  }

  /** Layout `2006-01-02`: the name of a date directory. */
  function DateFolder(dt: DateTime): string
  {
    YearText(dt.year) + "-" + Two(dt.month) + "-" + Two(dt.day)
  }

  /** Layout `20060102_150405`: the timestamp inside a dump file name. */
  function Timestamp(dt: DateTime): string
  {
    YearText(dt.year) + Two(dt.month) + Two(dt.day) + "_" + Two(dt.hour) + Two(dt.minute) + Two(dt.second)
  }

  /** Layout `02/01/2006 15:04:05`: how a backup's creation time is displayed. */
  function Display(dt: DateTime): string
  {
    Two(dt.day) + "/" + Two(dt.month) + "/" + YearText(dt.year) + " "
      + Two(dt.hour) + ":" + Two(dt.minute) + ":" + Two(dt.second)
  }

  predicate FourDigitYear(dt: DateTime) {
    0 <= dt.year < 10000
  }

  /** The date directory and the timestamp of the same reading name the same
      day: the timestamp's first eight characters are the directory name
      without its dashes. */
  lemma TimestampMatchesDateFolder(dt: DateTime)
    requires Valid(dt) && FourDigitYear(dt)
    ensures |DateFolder(dt)| == 10 && |Timestamp(dt)| == 15
    ensures Timestamp(dt)[..8]
         == DateFolder(dt)[..4] + DateFolder(dt)[5..7] + DateFolder(dt)[8..]
    ensures Timestamp(dt)[8] == '_'
  {
    DatePrefixes(YearText(dt.year), Two(dt.month), Two(dt.day), Two(dt.hour), Two(dt.minute), Two(dt.second));
  }

  /** Where the fields sit in `y-m-d` and in `ymd_hms`. */
  lemma DatePrefixes(y: string, m: string, d: string, h: string, mi: string, sec: string)
    requires |y| == 4 && |m| == 2 && |d| == 2 && |h| == 2 && |mi| == 2 && |sec| == 2
    ensures var df := y + "-" + m + "-" + d;
      var ts := y + m + d + "_" + h + mi + sec;
      |df| == 10 && |ts| == 15 && ts[..8] == df[..4] + df[5..7] + df[8..] && ts[8] == '_'
  {
    var df := y + "-" + m + "-" + d;
    var ts := y + m + d + "_" + h + mi + sec;
    assert ts[..8] == y + m + d;
    assert df[..4] == y;
    assert df[5..7] == m;
    assert df[8..] == d;
  }

  /** Reads a `02/01/2006 15:04:05` rendering back into its fields. */
  function ParseDisplay(s: string): Option<DateTime>
  {
    if |s| == 19 && s[2] == '/' && s[5] == '/' && s[10] == ' ' && s[13] == ':' && s[16] == ':'
       && AllDigits(s[0..2]) && AllDigits(s[3..5]) && AllDigits(s[6..10])
       && AllDigits(s[11..13]) && AllDigits(s[14..16]) && AllDigits(s[17..19])
    then Some(DateTime(Value(s[6..10]), Value(s[3..5]), Value(s[0..2]),
                       Value(s[11..13]), Value(s[14..16]), Value(s[17..19])))
    else None
  }

  /** Positions in `dd/mm/yyyy hh:mi:ss` for fields of the widths given. */
  lemma DisplayPositions(dd: string, mm: string, yy: string, hh: string, mi: string, ss: string)
    requires |dd| == 2 && |mm| == 2 && |yy| == 4 && |hh| == 2 && |mi| == 2 && |ss| == 2
    ensures var s := dd + "/" + mm + "/" + yy + " " + hh + ":" + mi + ":" + ss;
      && |s| == 19
      && s[0..2] == dd && s[3..5] == mm && s[6..10] == yy
      && s[11..13] == hh && s[14..16] == mi && s[17..19] == ss
      && s[2] == '/' && s[5] == '/' && s[10] == ' ' && s[13] == ':' && s[16] == ':'
  {
  }

  /** Every valid reading with a four-digit year displays as exactly 19
      characters from which all six fields can be read back. */
  lemma DisplayRoundTrip(dt: DateTime)
    requires Valid(dt) && FourDigitYear(dt)
    ensures |Display(dt)| == 19
    ensures ParseDisplay(Display(dt)) == Some(dt)
  {
    DisplayPositions(Two(dt.day), Two(dt.month), YearText(dt.year), Two(dt.hour), Two(dt.minute), Two(dt.second));
  }
}

=== FILE: config.dfy ===
/** `LoadConfig` of internal/config/config.go: reading the environment (after
    the `.env` file has been merged into it), deriving the data paths from the
    working directory, defaulting the port and the JWT secret, and validating
    the required variables in three ordered groups. */
module Config {
  import opened Results
  import opened Text

  datatype Config = Config(
    dbUser: string,
    dbPassword: string,
    containerName: string,
    dbName: string,
    googleClientId: string,
    googleClientSecret: string,
    folderDrive: string,
    cronSchedule: string,
    backupDir: string,
    tokenDir: string,
    webAppPort: string,
    adminUsername: string,
    adminPassword: string,
    jwtSecret: string,
    sqliteDbPath: string)

  /** Environment variables; `os.Getenv` of an unset name is "". */
  type Env = map<string, string>

  function Getenv(env: Env, name: string): string {
    if name in env then env[name] else ""
  }

  const DefaultPort: string := "8080"
  const DefaultJwtSecret: string := "default_jwt_secret_please_change_in_production"

  const DbVariablesMissing: string :=
    "missing required environment variables: DB_USER, DB_PASSWORD, CONTAINER_NAME, DB_NAME"
  const GoogleVariablesMissing: string := "missing required Google Drive environment variables"
  const AdminVariablesMissing: string :=
    "missing required Admin credentials: ADMIN_USERNAME, ADMIN_PASSWORD"

  const DotenvPrefix: string := "error loading .env file: "
  const GetwdPrefix: string := "error getting current directory: "

  /** `godotenv.Load` never overrides a variable the process already has, so
      the process environment wins over the file. */
  function Merge(dotenv: Env, process: Env): (env: Env)
    ensures forall k :: k in process ==> k in env && env[k] == process[k]
    ensures forall k :: k in dotenv && k !in process ==> k in env && env[k] == dotenv[k]
    ensures forall k :: k in env ==> k in dotenv || k in process
  {
    dotenv + process
  }

  predicate DbGroupMissing(env: Env) {
    Getenv(env, "DB_USER") == "" || Getenv(env, "DB_PASSWORD") == ""
    || Getenv(env, "CONTAINER_NAME") == "" || Getenv(env, "DB_NAME") == ""
  }

  predicate GoogleGroupMissing(env: Env) {
    Getenv(env, "GOOGLE_CLIENT_ID") == "" || Getenv(env, "GOOGLE_CLIENT_SECRET") == ""
    || Getenv(env, "FOLDER_DRIVE") == ""
  }

  predicate AdminGroupMissing(env: Env) {
    Getenv(env, "ADMIN_USERNAME") == "" || Getenv(env, "ADMIN_PASSWORD") == ""
  }

  /** What a loaded configuration guarantees to the rest of the program. */
  predicate Complete(c: Config) {
    && c.dbUser != "" && c.dbPassword != "" && c.containerName != "" && c.dbName != ""
    && c.googleClientId != "" && c.googleClientSecret != "" && c.folderDrive != ""
    && c.adminUsername != "" && c.adminPassword != ""
    && c.webAppPort != "" && c.jwtSecret != ""
  }

  function OrDefault(value: string, default: string): string {
    if value == "" then default else value
  }

  /** The configuration built from `env` before validation. */
  function FromEnv(env: Env, cwd: string): Config {
    var dataDir := JoinPath(cwd, "data");
    Config(
      dbUser := Getenv(env, "DB_USER"),
      dbPassword := Getenv(env, "DB_PASSWORD"),
      containerName := Getenv(env, "CONTAINER_NAME"),
      dbName := Getenv(env, "DB_NAME"),
      googleClientId := Getenv(env, "GOOGLE_CLIENT_ID"),
      googleClientSecret := Getenv(env, "GOOGLE_CLIENT_SECRET"),
      folderDrive := Getenv(env, "FOLDER_DRIVE"),
      cronSchedule := Getenv(env, "CRON_SCHEDULE"),
      backupDir := JoinPath(cwd, "backups"),
      tokenDir := JoinPath(cwd, "token"),
      webAppPort := OrDefault(Getenv(env, "WEBAPP_PORT"), DefaultPort),
      adminUsername := Getenv(env, "ADMIN_USERNAME"),
      adminPassword := Getenv(env, "ADMIN_PASSWORD"),
      jwtSecret := OrDefault(Getenv(env, "JWT_SECRET"), DefaultJwtSecret),
      sqliteDbPath := JoinPath(dataDir, "app.db"))
  }

  /** `LoadConfig`. `dotenv` is the outcome of reading `.env` (its variables or
      the read error), `process` the variables already set, `cwd` the outcome
      of `os.Getwd`. Directory creation is a side effect whose errors the
      source ignores, so it does not appear here. */
  function LoadConfig(dotenv: Result<Env, string>, process: Env, cwd: Result<string, string>): (r: Result<Config, string>)
    // A failed .env read is reported before anything else is looked at.
    ensures dotenv.Err? ==> r == Err(DotenvPrefix + dotenv.error)
    ensures dotenv.Ok? && cwd.Err? ==> r == Err(GetwdPrefix + cwd.error)
    // The first failing group, in the order DB, Google, admin, decides the error.
    ensures dotenv.Ok? && cwd.Ok? ==>
      var env := Merge(dotenv.value, process);
      && (r == Err(DbVariablesMissing) <==> DbGroupMissing(env))
      && (r == Err(GoogleVariablesMissing) <==> !DbGroupMissing(env) && GoogleGroupMissing(env))
      && (r == Err(AdminVariablesMissing) <==>
            !DbGroupMissing(env) && !GoogleGroupMissing(env) && AdminGroupMissing(env))
    // Every configuration handed out satisfies all required-field checks.
    ensures r.Ok? ==> Complete(r.value)
    // With both reads done, loading succeeds exactly when no group is missing,
    // and the configuration is the one the merged environment describes.
    ensures dotenv.Ok? && cwd.Ok? ==>
      var env := Merge(dotenv.value, process);
      (r.Ok? <==> !DbGroupMissing(env) && !GoogleGroupMissing(env) && !AdminGroupMissing(env))
    ensures r.Ok? ==> dotenv.Ok? && cwd.Ok? && r.value == FromEnv(Merge(dotenv.value, process), cwd.value)
  {
    if dotenv.Err? then Err(DotenvPrefix + dotenv.error)
    else if cwd.Err? then Err(GetwdPrefix + cwd.error)
    else
      var c := FromEnv(Merge(dotenv.value, process), cwd.value);
      if c.dbUser == "" || c.dbPassword == "" || c.containerName == "" || c.dbName == "" then
        Err(DbVariablesMissing)
      else if c.googleClientId == "" || c.googleClientSecret == "" || c.folderDrive == "" then
        Err(GoogleVariablesMissing)
      else if c.adminUsername == "" || c.adminPassword == "" then
        Err(AdminVariablesMissing)
      else Ok(c)
  }

  /** The success case: a loaded configuration keeps its data under the
      working directory. */
  lemma LoadedPaths(dotenv: Result<Env, string>, process: Env, cwd: Result<string, string>)
    requires LoadConfig(dotenv, process, cwd).Ok?
    ensures dotenv.Ok? && cwd.Ok?
    ensures var c := LoadConfig(dotenv, process, cwd).value;
      && c.backupDir == JoinPath(cwd.value, "backups")
      && c.tokenDir == JoinPath(cwd.value, "token")
      && c.sqliteDbPath == JoinPath(JoinPath(cwd.value, "data"), "app.db")
  {
  }

  /** The success case: a loaded configuration carries every variable as
      set, and the two defaults. */
  lemma LoadedValues(dotenv: Result<Env, string>, process: Env, cwd: Result<string, string>)
    requires LoadConfig(dotenv, process, cwd).Ok?
    ensures dotenv.Ok? && cwd.Ok?
    ensures var c := LoadConfig(dotenv, process, cwd).value;
      var env := Merge(dotenv.value, process);
      && (Getenv(env, "WEBAPP_PORT") == "" ==> c.webAppPort == "8080")
      && (Getenv(env, "WEBAPP_PORT") != "" ==> c.webAppPort == Getenv(env, "WEBAPP_PORT"))
      && (Getenv(env, "JWT_SECRET") == "" ==> c.jwtSecret == DefaultJwtSecret)
      && (Getenv(env, "JWT_SECRET") != "" ==> c.jwtSecret == Getenv(env, "JWT_SECRET"))
      && c.cronSchedule == Getenv(env, "CRON_SCHEDULE")
      && c.folderDrive == Getenv(env, "FOLDER_DRIVE")
      && c.dbName == Getenv(env, "DB_NAME")
      && c.dbUser == Getenv(env, "DB_USER")
      && c.dbPassword == Getenv(env, "DB_PASSWORD")
      && c.containerName == Getenv(env, "CONTAINER_NAME")
      && c.googleClientId == Getenv(env, "GOOGLE_CLIENT_ID")
      && c.googleClientSecret == Getenv(env, "GOOGLE_CLIENT_SECRET")
      && c.adminUsername == Getenv(env, "ADMIN_USERNAME")
      && c.adminPassword == Getenv(env, "ADMIN_PASSWORD")
  {
  }

  /** The schedule is copied through unvalidated: any value, even an
      unparsable one, loads as long as the required groups are present. */
  lemma ScheduleUnvalidated(dotenv: Env, process: Env, cwd: string, schedule: string)
    requires "CRON_SCHEDULE" !in process
    requires var env := Merge(dotenv, process);
      !DbGroupMissing(env) && !GoogleGroupMissing(env) && !AdminGroupMissing(env)
    ensures var r := LoadConfig(Ok(dotenv[ "CRON_SCHEDULE" := schedule ]), process, Ok(cwd));
      r.Ok? && r.value.cronSchedule == schedule
  {
    var env := Merge(dotenv, process);
    var env' := Merge(dotenv[ "CRON_SCHEDULE" := schedule ], process);
    assert forall k :: k != "CRON_SCHEDULE" ==> Getenv(env', k) == Getenv(env, k);
  }
}

=== FILE: credentials.dfy ===
/** The OAuth2 token store of internal/drive/drive.go: `tokenFromFile`,
    `CheckAuth`, `saveToken` and `ExchangeAuthCode`. The token file
    (`TokenDir/token.json`) is the only state; JSON encoding and the OAuth2
    exchange with Google are reduced to their outcomes. */
module Credentials {
  import opened Results
  import opened Clock

  /** `oauth2.Token`: the fields the persisted record carries. */
  datatype Token = Token(accessToken: string, tokenType: string, refreshToken: string, expiry: Instant)

  /** What is on disk at `token.json`: nothing, bytes that do not decode as
      a token, or a decodable token. */
  datatype TokenFile = Absent(openError: string) | Undecodable | Stored(token: Token)

  /** Why `tokenFromFile` fails: `os.Open` reports an error, or the JSON
      decoder rejects what it reads. */
  datatype LoadError = OpenFailed(reason: string) | DecodeFailed

  /** How `saveToken` ends: `os.MkdirAll` or `os.Create` failing leaves the
      file as it was; an encoder failure happens after `os.Create` has
      truncated the file. */
  datatype SaveOutcome = Saved | MkdirFails(detail: string) | CreateFails(detail: string) | EncodeFails(detail: string)

  const ExchangePrefix: string := "không thể đổi mã xác thực: "
  const SavePrefix: string := "không thể lưu token: "

  /** `tokenFromFile`: open, then decode. */
  function TokenFromFile(f: TokenFile): (r: Result<Token, LoadError>)
    ensures r.Ok? <==> f.Stored?
    ensures r.Ok? ==> r.value == f.token
    ensures f.Absent? ==> r == Err(OpenFailed(f.openError))
  {
    match f
    case Absent(reason) => Err(OpenFailed(reason))
    case Undecodable => Err(DecodeFailed)
    case Stored(t) => Ok(t)
  }

  /** `CheckAuth`: the token file loads. */
  predicate CheckAuth(f: TokenFile) {
    TokenFromFile(f).Ok?
  }

  /** `saveToken`: the file afterwards and the error, if any. */
  function SaveToken(f: TokenFile, t: Token, outcome: SaveOutcome): (r: (TokenFile, Option<string>))
    ensures r.1.None? <==> outcome.Saved?
    ensures outcome.Saved? ==> r.0 == Stored(t)
    ensures outcome.MkdirFails? || outcome.CreateFails? ==> r.0 == f
    ensures outcome.EncodeFails? ==> r.0 == Undecodable
  {
    match outcome
    case Saved => (Stored(t), None)
    case MkdirFails(d) => (f, Some(d))
    case CreateFails(d) => (f, Some(d))
    case EncodeFails(d) => (Undecodable, Some(d))
  }

  /** A token saved successfully loads back equal in every field. */
  lemma SaveLoadRoundTrip(f: TokenFile, t: Token)
    ensures TokenFromFile(SaveToken(f, t, Saved).0) == Ok(t)
  {
  }

  /** `CheckAuth` never looks at the expiry: any stored token, however
      stale, counts as authenticated. */
  lemma CheckAuthIgnoresExpiry(t: Token, expiry: Instant)
    ensures CheckAuth(Stored(t)) && CheckAuth(Stored(t.(expiry := expiry)))
  {
  }

  /** `ExchangeAuthCode`. `exchange` is the outcome of trading the code with
      the authorization server (the issued token or its error); the token is
      saved only after a successful exchange. */
  function ExchangeAuthCode(f: TokenFile, exchange: Result<Token, string>, save: SaveOutcome): (r: (TokenFile, Result<Token, string>))
    // A rejected code leaves the store untouched and reports the server's error.
    ensures exchange.Err? ==> r.0 == f && r.1 == Err(ExchangePrefix + exchange.error)
    // A failed save reports the save error.
    ensures exchange.Ok? && !save.Saved? ==> r.1.Err? && r.1.error == SavePrefix + SaveToken(f, exchange.value, save).1.value
    // A successful call returns the token it persisted.
    ensures r.1.Ok? <==> exchange.Ok? && save.Saved?
    ensures r.1.Ok? ==> r.0 == Stored(r.1.value) && r.1.value == exchange.value
  {
    if exchange.Err? then (f, Err(ExchangePrefix + exchange.error))
    else
      var (f', err) := SaveToken(f, exchange.value, save);
      if err.Some? then (f', Err(SavePrefix + err.value)) else (f', Ok(exchange.value))
  }

  /** After a successful exchange the uploader is authenticated and loads
      the exact token the server issued. */
  lemma ExchangeAuthenticates(f: TokenFile, t: Token)
    ensures var (f', r) := ExchangeAuthCode(f, Ok(t), Saved);
      r.Ok? && CheckAuth(f') && TokenFromFile(f') == Ok(t)
  {
  }

  /** Saving is not atomic: a successful exchange whose write fails after
      the file was truncated leaves a previously authenticated store
      unauthenticated. */
  lemma FailedWriteLosesAuthentication(previous: Token, issued: Token, detail: string)
    ensures CheckAuth(Stored(previous))
    ensures !CheckAuth(ExchangeAuthCode(Stored(previous), Ok(issued), EncodeFails(detail)).0)
  {
  }
}

=== FILE: drive.dfy ===
/** Remote synchronisation of internal/drive/drive.go.

    Google Drive is an append-only store of objects listed in store order.
    A list call evaluates a query; a create call appends one object with a
    fresh id. Remote failures are injected by `Faults`: a list call fails when
    its lookup is in `failingLookups`, and a create call fails when the
    object's name is in `failingCreates`. Names and ids are pasted into query
    texts without escaping; a text whose literal contains a quote or a
    backslash no longer means the lookup it was built for, and the store
    rejects it. Otherwise the text means exactly its lookup (`QueryRoundTrip`),
    so list calls are modelled on the lookup itself. */
module Drive {
  import opened Results
  import opened Text
  import opened Clock
  import opened Catalog
  import opened Credentials

  const FolderMime: string := "application/vnd.google-apps.folder"

  datatype RemoteObject = RemoteObject(id: string, name: string, isFolder: bool, parents: seq<string>, trashed: bool)

  datatype Store = Store(objects: seq<RemoteObject>)

  /** `b` is `a` with zero or more objects appended: nothing is ever changed
      or removed remotely by this program. */
  predicate Extends(a: Store, b: Store) {
    |a.objects| <= |b.objects| && b.objects[..|a.objects|] == a.objects
  }

  lemma ExtendsTransitive(a: Store, b: Store, c: Store)
    requires Extends(a, b) && Extends(b, c)
    ensures Extends(a, c)
  {
    assert c.objects[..|a.objects|] == c.objects[..|b.objects|][..|a.objects|];
  }

  datatype Faults = Faults(failingLookups: set<Lookup>, failingCreates: set<string>)

  const NoFaults: Faults := Faults({}, {})

  // ---------------------------------------------------------------------
  // Queries
  // ---------------------------------------------------------------------

  /** The two lookups the uploader issues: a folder by name (under a parent
      unless the parent id is empty), and a non-trashed object by name
      directly under a folder. */
  datatype Lookup = FolderLookup(name: string, parent: string) | FileLookup(name: string, parent: string)

  /** The quote that delimits literals in a query. */
  const Quote: char := '\''
  const FolderTail: string := "' and mimeType='" + FolderMime + "'"
  const ParentTail: string := "' in parents"
  const FileTail: string := "' in parents and trashed=false"

  /** The query text sent to `Files.List().Q(...)`. */
  function QueryText(q: Lookup): string {
    match q
    case FolderLookup(n, p) =>
      "name='" + n + FolderTail + (if p != "" then " and '" + p + ParentTail else "")
    case FileLookup(n, p) =>
      "name='" + n + "' and '" + p + FileTail
  }

  /** A value that can be pasted between quotes without changing the query. */
  predicate Literal(s: string) {
    '\'' !in s && '\\' !in s
  }

  predicate WellFormed(q: Lookup) {
    Literal(q.name) && Literal(q.parent)
  }

  /** The meaning of a well-formed query. The folder lookup has no trashed
      filter, and the file lookup has no mimeType filter. */
  predicate Matches(o: RemoteObject, q: Lookup) {
    match q
    case FolderLookup(n, p) => o.name == n && o.isFolder && (p == "" || p in o.parents)
    case FileLookup(n, p) => o.name == n && p in o.parents && !o.trashed
  }

  /** The objects a query returns, in store order. */
  function Select(objs: seq<RemoteObject>, q: Lookup): (r: seq<RemoteObject>)
    ensures forall o :: o in r <==> o in objs && Matches(o, q)
    ensures |r| <= |objs|
  {
    if objs == [] then []
    else (if Matches(objs[0], q) then [objs[0]] else []) + Select(objs[1..], q)
  }

  lemma {:induction false} SelectAppend(a: seq<RemoteObject>, b: seq<RemoteObject>, q: Lookup)
    ensures Select(a + b, q) == Select(a, q) + Select(b, q)
    decreases |a|
  {
    if a == [] {
      assert a + b == b;
    } else {
      var head := if Matches(a[0], q) then [a[0]] else [];
      calc {
        Select(a + b, q);
      == { assert (a + b)[0] == a[0] && (a + b)[1..] == a[1..] + b; }
        head + Select(a[1..] + b, q);
      == { SelectAppend(a[1..], b, q); }
        head + (Select(a[1..], q) + Select(b, q));
      ==
        (head + Select(a[1..], q)) + Select(b, q);
      }
    }
  }

  /** What a query finds keeps its place at the head of the answer as the
      store grows. */
  lemma SelectStable(a: Store, b: Store, q: Lookup)
    requires Extends(a, b) && Select(a.objects, q) != []
    ensures Select(b.objects, q) != [] && Select(b.objects, q)[0] == Select(a.objects, q)[0]
  {
    assert b.objects == a.objects + b.objects[|a.objects|..];
    SelectAppend(a.objects, b.objects[|a.objects|..], q);
  }

  datatype RemoteError = ListFailed(lookup: Lookup) | CreateFailed(name: string)

  /** `Files.List().Q(QueryText(q)).Do()`. */
  function List(st: Store, f: Faults, q: Lookup): (r: Result<seq<RemoteObject>, RemoteError>)
    ensures r.Ok? <==> WellFormed(q) && q !in f.failingLookups
    ensures r.Ok? ==> r.value == Select(st.objects, q)
    ensures r.Err? ==> r.error == ListFailed(q)
  {
    if !WellFormed(q) || q in f.failingLookups then Err(ListFailed(q))
    else Ok(Select(st.objects, q))
  }

  /** The id the store gives its `n`-th object. */
  function IdOf(n: nat): (id: string)
    ensures id != [] && Literal(id)
  {
    "id-" + Digits(n)
  }

  /** Objects created at different positions get different ids. */
  lemma IdsDiffer(m: nat, n: nat)
    requires m != n
    ensures IdOf(m) != IdOf(n)
  {
    assert IdOf(m)[3..] == Digits(m);
    assert IdOf(n)[3..] == Digits(n);
  }

  /** The id the store gives the next object it creates. */
  function NewId(st: Store): (id: string)
    ensures id != [] && Literal(id)
  {
    IdOf(|st.objects|)
  }

  /** `Files.Create(...).Do()`: append one object, or fail. */
  function Create(st: Store, f: Faults, name: string, isFolder: bool, parents: seq<string>): (r: Result<(Store, string), RemoteError>)
    ensures r.Err? <==> name in f.failingCreates
    ensures r.Err? ==> r.error == CreateFailed(name)
    ensures r.Ok? ==> (r.value.1 != ""
      && r.value.0.objects == st.objects + [RemoteObject(r.value.1, name, isFolder, parents, false)])
  {
    if name in f.failingCreates then Err(CreateFailed(name))
    else Ok((Store(st.objects + [RemoteObject(NewId(st), name, isFolder, parents, false)]), NewId(st)))
  }

  // ---------------------------------------------------------------------
  // Reading a query text back
  // ---------------------------------------------------------------------

  /** Index of the first quote in `s`, or `|s|` when there is none. */
  function QuoteIndex(s: string): (k: nat)
    ensures k <= |s|
    ensures Quote !in s[..k]
    ensures k < |s| ==> s[k] == Quote
  {
    if s == [] then 0
    else if s[0] == '\'' then 0
    else
      var k := 1 + QuoteIndex(s[1..]);
      assert s[..k] == [s[0]] + s[1..][..k - 1];
      k
  }

  lemma {:induction false} QuoteIndexAfter(n: string, rest: string)
    requires '\'' !in n
    ensures QuoteIndex(n + "'" + rest) == |n|
    decreases |n|
  {
    if n != [] {
      assert (n + "'" + rest)[1..] == n[1..] + "'" + rest;
      QuoteIndexAfter(n[1..], rest);
    }
  }

  /** Recovers the lookup a query text was built from: the name runs to the
      first quote, the parent sits between the fixed pieces around it. */
  function ParseQuery(s: string): Option<Lookup> {
    if !HasPrefix(s, "name='") then None
    else
      var t := s[6..];
      var k := QuoteIndex(t);
      ParseTail(t[..k], t[k..])
  }

  /** The lookup named by a name and the text after it. */
  function ParseTail(n: string, rest: string): Option<Lookup> {
    if rest == FolderTail then Some(FolderLookup(n, ""))
    else if |rest| > |FolderTail| + 6 + |ParentTail| && HasPrefix(rest, FolderTail + " and '") && HasSuffix(rest, ParentTail) then
      Some(FolderLookup(n, rest[|FolderTail| + 6..|rest| - |ParentTail|]))
    else if |rest| >= 7 + |FileTail| && HasPrefix(rest, "' and '") && HasSuffix(rest, FileTail) then
      Some(FileLookup(n, rest[7..|rest| - |FileTail|]))
    else None
  }

  lemma NameThenTail(n: string, tail: string)
    requires '\'' !in n && |tail| > 0 && tail[0] == '\''
    ensures ParseQuery("name='" + n + tail) == ParseTail(n, tail)
  {
    var s := "name='" + n + tail;
    assert s[..6] == "name='";
    assert s[6..] == n + "'" + tail[1..];
    QuoteIndexAfter(n, tail[1..]);
    assert s[6..][..|n|] == n;
    assert s[6..][|n|..] == tail;
  }

  lemma FolderTailStart()
    ensures |FolderTail| > 7 && FolderTail[6] == 'm'
  {
    var lead: string := "' and mimeType='";
    assert FolderTail[..7] == lead[..7];
  }

  lemma ParentClauseParses(n: string, p: string)
    requires p != ""
    ensures ParseTail(n, FolderTail + " and '" + p + ParentTail) == Some(FolderLookup(n, p))
  {
    var lead := FolderTail + " and '";
    var tail := lead + p + ParentTail;
    assert |lead| == |FolderTail| + 6;
    assert tail[..|lead|] == lead;
    assert tail[|tail| - |ParentTail|..] == ParentTail;
    assert tail[|lead|..|tail| - |ParentTail|] == p;
    assert tail != FolderTail by { assert |tail| > |FolderTail|; }
  }

  lemma RootQueryRoundTrip(n: string)
    requires '\'' !in n
    ensures ParseQuery(QueryText(FolderLookup(n, ""))) == Some(FolderLookup(n, ""))
  {
    assert QueryText(FolderLookup(n, "")) == "name='" + n + FolderTail;
    NameThenTail(n, FolderTail);
  }

  lemma ChildQueryRoundTrip(n: string, p: string)
    requires '\'' !in n && p != ""
    ensures ParseQuery(QueryText(FolderLookup(n, p))) == Some(FolderLookup(n, p))
  {
    var tail := FolderTail + " and '" + p + ParentTail;
    assert QueryText(FolderLookup(n, p)) == "name='" + n + tail;
    NameThenTail(n, tail);
    ParentClauseParses(n, p);
  }

  lemma FolderQueryRoundTrip(n: string, p: string)
    requires '\'' !in n
    ensures ParseQuery(QueryText(FolderLookup(n, p))) == Some(FolderLookup(n, p))
  {
    if p == "" {
      RootQueryRoundTrip(n);
    } else {
      ChildQueryRoundTrip(n, p);
    }
  }

  lemma FileQueryRoundTrip(n: string, p: string)
    requires '\'' !in n
    ensures ParseQuery(QueryText(FileLookup(n, p))) == Some(FileLookup(n, p))
  {
    var tail := "' and '" + p + FileTail;
    assert QueryText(FileLookup(n, p)) == "name='" + n + tail;
    NameThenTail(n, tail);
    FileClauseParses(n, p);
  }

  lemma FileClauseParses(n: string, p: string)
    ensures ParseTail(n, "' and '" + p + FileTail) == Some(FileLookup(n, p))
  {
    var lead: string := "' and '";
    var tail := lead + p + FileTail;
    assert tail[..7] == lead && tail[6] == '\'';
    assert tail != FolderTail && !HasPrefix(tail, FolderTail + " and '") by {
      FolderTailStart();
      assert (FolderTail + " and '")[6] == 'm';
    }
    assert tail[|tail| - |FileTail|..] == FileTail;
    assert tail[7..|tail| - |FileTail|] == p;
  }

  /** A query text names exactly its lookup whenever the name has no quote:
      in particular the folder query carries a parent clause iff the parent
      id is non-empty, and the file query always does. */
  lemma QueryRoundTrip(q: Lookup)
    requires '\'' !in q.name
    ensures ParseQuery(QueryText(q)) == Some(q)
  {
    match q
    case FolderLookup(n, p) => FolderQueryRoundTrip(n, p);
    case FileLookup(n, p) => FileQueryRoundTrip(n, p);
  }

  // ---------------------------------------------------------------------
  // createOrFindFolder and checkFileExists
  // ---------------------------------------------------------------------

  datatype FolderError = FindFailed(cause: RemoteError) | CreateFolderFailed(cause: RemoteError)

  datatype Resolved = Resolved(store: Store, id: string)

  /** The parents given to a new folder: the parent id unless it is empty. */
  function ParentsOf(parent: string): seq<string> {
    if parent != "" then [parent] else []
  }

  /** `createOrFindFolder`: the first folder the lookup returns, or a new one. */
  function CreateOrFindFolder(st: Store, f: Faults, name: string, parent: string): (r: Result<Resolved, FolderError>)
    // A match is reused as is: its id comes back and nothing is created.
    ensures r.Ok? && Select(st.objects, FolderLookup(name, parent)) != [] ==>
      r.value == Resolved(st, Select(st.objects, FolderLookup(name, parent))[0].id)
    // Otherwise exactly one folder is created, parented only to a non-empty parent.
    ensures r.Ok? && Select(st.objects, FolderLookup(name, parent)) == [] ==>
      r.value.store.objects == st.objects + [RemoteObject(r.value.id, name, true, ParentsOf(parent), false)]
    // Either way the id returned is the one the lookup now finds first.
    ensures r.Ok? ==> (Extends(st, r.value.store)
      && Select(r.value.store.objects, FolderLookup(name, parent)) != []
      && Select(r.value.store.objects, FolderLookup(name, parent))[0].id == r.value.id)
    // It fails only when the lookup fails, or when nothing matched and the create failed.
    ensures r.Err? <==> (List(st, f, FolderLookup(name, parent)).Err?
      || (Select(st.objects, FolderLookup(name, parent)) == [] && name in f.failingCreates))
  {
    var q := FolderLookup(name, parent);
    match List(st, f, q)
    case Err(e) => Err(FindFailed(e))
    case Ok(found) =>
      if |found| > 0 then Ok(Resolved(st, found[0].id))
      else
        match Create(st, f, name, true, ParentsOf(parent))
        case Err(e) => Err(CreateFolderFailed(e))
        case Ok((st', id)) =>
          SelectAppend(st.objects, [RemoteObject(id, name, true, ParentsOf(parent), false)], q);
          Ok(Resolved(st', id))
  }

  /** A second resolution of the same name and parent finds the folder the
      first one returned, and creates nothing. */
  lemma CreateOrFindFolderIdempotent(st: Store, f: Faults, g: Faults, name: string, parent: string)
    requires CreateOrFindFolder(st, f, name, parent).Ok?
    ensures var first := CreateOrFindFolder(st, f, name, parent).value;
      var second := CreateOrFindFolder(first.store, g, name, parent);
      second.Ok? ==> second.value == first
  {
  }

  predicate HasFile(st: Store, name: string, folder: string) {
    exists o :: o in st.objects && Matches(o, FileLookup(name, folder))
  }

  lemma HasFileStable(a: Store, b: Store, name: string, folder: string)
    requires Extends(a, b) && HasFile(a, name, folder)
    ensures HasFile(b, name, folder)
  {
    var o :| o in a.objects && Matches(o, FileLookup(name, folder));
    var i :| 0 <= i < |a.objects| && a.objects[i] == o;
    assert b.objects[i] == o;
  }

  /** `checkFileExists`: some non-trashed object of that name has the folder
      among its parents. */
  function CheckFileExists(st: Store, f: Faults, name: string, folder: string): (r: Result<bool, RemoteError>)
    ensures r.Ok? ==> (r.value <==> HasFile(st, name, folder))
    ensures r.Err? <==> List(st, f, FileLookup(name, folder)).Err?
  {
    match List(st, f, FileLookup(name, folder))
    case Err(e) => Err(e)
    case Ok(found) =>
      assert |found| > 0 ==> found[0] in found;
      Ok(|found| > 0)
  }

  /** The object a query finds first: with no trashed filter, a trashed
      folder of the right name is reused. */
  lemma TrashedFolderReused(name: string, id: string)
    requires Literal(name) && '\'' !in name
    ensures var st := Store([RemoteObject(id, name, true, [], true)]);
      CreateOrFindFolder(st, NoFaults, name, "") == Ok(Resolved(st, id))
  {
  }

  /** With no mimeType filter, a folder of the file's name already under the
      date folder makes the file count as uploaded. */
  lemma FolderCountsAsExistingFile(name: string, folder: string)
    requires Literal(name) && Literal(folder)
    ensures var st := Store([RemoteObject("x", name, true, [folder], false)]);
      CheckFileExists(st, NoFaults, name, folder) == Ok(true)
  {
    var st := Store([RemoteObject("x", name, true, [folder], false)]);
    assert st.objects[0] in st.objects;
  }

  // ---------------------------------------------------------------------
  // UploadFile
  // ---------------------------------------------------------------------

  datatype UploadError =
    // `getClient` replaces any token load failure by one fixed message
    // ("no authentication token found"): the cause is not kept.
    | NoClient
    | RootFolderFailed(folderError: FolderError)
    | DateFolderFailed(folderError: FolderError)
    | ExistsCheckFailed(remoteError: RemoteError)
    | FileNotOpened
    | UploadRejected(remoteError: RemoteError)
    | BackupDirUnreadable(reason: string)

  /** A run: the store afterwards and the error returned, if any. */
  datatype Run = Run(store: Store, error: Option<UploadError>)

  /** The objects a run appended that are not folders. */
  function AddedFiles(before: Store, after: Store): seq<RemoteObject>
    requires Extends(before, after)
  {
    NonFolders(after.objects[|before.objects|..])
  }

  function NonFolders(objs: seq<RemoteObject>): seq<RemoteObject>
  {
    if objs == [] then [] else (if objs[0].isFolder then [] else [objs[0]]) + NonFolders(objs[1..])
  }

  lemma NonFoldersSingle(o: RemoteObject)
    ensures NonFolders([o]) == if o.isFolder then [] else [o]
  {
    assert [o][1..] == [];
  }

  lemma {:induction false} NonFoldersAppend(a: seq<RemoteObject>, b: seq<RemoteObject>)
    ensures NonFolders(a + b) == NonFolders(a) + NonFolders(b)
    decreases |a|
  {
    if a == [] {
      assert a + b == b;
    } else {
      var head := if a[0].isFolder then [] else [a[0]];
      assert (a + b)[0] == a[0];
      assert (a + b)[1..] == a[1..] + b;
      assert NonFolders(a + b) == head + NonFolders(a[1..] + b);
      NonFoldersAppend(a[1..], b);
      assert NonFolders(a) == head + NonFolders(a[1..]);
    }
  }

  lemma AddedFilesCompose(a: Store, b: Store, c: Store)
    requires Extends(a, b) && Extends(b, c)
    ensures Extends(a, c)
    ensures AddedFiles(a, c) == AddedFiles(a, b) + AddedFiles(b, c)
  {
    ExtendsTransitive(a, b, c);
    var x := c.objects[|a.objects|..];
    assert x == b.objects[|a.objects|..] + c.objects[|b.objects|..];
    NonFoldersAppend(b.objects[|a.objects|..], c.objects[|b.objects|..]);
  }

  /** Folder resolution creates folders only. */
  lemma FolderResolutionAddsNoFile(st: Store, f: Faults, name: string, parent: string)
    requires CreateOrFindFolder(st, f, name, parent).Ok?
    ensures AddedFiles(st, CreateOrFindFolder(st, f, name, parent).value.store) == []
  {
    var r := CreateOrFindFolder(st, f, name, parent).value;
    var added := r.store.objects[|st.objects|..];
    if Select(st.objects, FolderLookup(name, parent)) == [] {
      assert added == [RemoteObject(r.id, name, true, ParentsOf(parent), false)];
      NonFoldersSingle(added[0]);
    } else {
      assert added == [];
    }
  }

  predicate IsFolderNamed(st: Store, name: string, id: string) {
    exists o :: o in st.objects && o.isFolder && o.name == name && o.id == id
  }

  lemma IsFolderNamedStable(a: Store, b: Store, name: string, id: string)
    requires Extends(a, b) && IsFolderNamed(a, name, id)
    ensures IsFolderNamed(b, name, id)
  {
    var o :| o in a.objects && o.isFolder && o.name == name && o.id == id;
    var i :| 0 <= i < |a.objects| && a.objects[i] == o;
    assert b.objects[i] == o;
  }

  lemma ResolvedIsNamed(st: Store, f: Faults, name: string, parent: string)
    requires CreateOrFindFolder(st, f, name, parent).Ok?
    ensures var r := CreateOrFindFolder(st, f, name, parent).value;
      IsFolderNamed(r.store, name, r.id)
  {
    var r := CreateOrFindFolder(st, f, name, parent).value;
    var o := Select(r.store.objects, FolderLookup(name, parent))[0];
    assert o in Select(r.store.objects, FolderLookup(name, parent));
  }

  /** How placing one file in a folder ends. */
  datatype FileOutcome =
    | Uploaded
    | AlreadyPresent
    | CheckFailed(cause: RemoteError)
    | NotOpened
    | CreateRejected(cause: RemoteError)

  /** The step `UploadFile` and the batch share: check whether the name is
      already in the folder, then open the local file, then create the remote
      one. `opens` is whether `os.Open` succeeds. */
  function PlaceFile(st: Store, f: Faults, name: string, folder: string, opens: bool): (r: (Store, FileOutcome))
    ensures Extends(st, r.0)
    ensures r.1.AlreadyPresent? <==> CheckFileExists(st, f, name, folder) == Ok(true)
    ensures r.1.Uploaded? <==> CheckFileExists(st, f, name, folder) == Ok(false) && opens && name !in f.failingCreates
    ensures r.1.Uploaded? || r.1.AlreadyPresent? ==> HasFile(r.0, name, folder)
    ensures !r.1.Uploaded? ==> r.0 == st
    // An upload adds exactly one object: a live file of that name in the folder.
    ensures r.1.Uploaded? ==> (|r.0.objects| == |st.objects| + 1
      && var o := r.0.objects[|st.objects|];
        o.name == name && !o.isFolder && o.parents == [folder] && !o.trashed)
  {
    match CheckFileExists(st, f, name, folder)
    case Err(e) => (st, CheckFailed(e))
    case Ok(present) =>
      if present then (st, AlreadyPresent)
      else if !opens then (st, NotOpened)
      else
        match Create(st, f, name, false, [folder])
        case Err(e) => (st, CreateRejected(e))
        case Ok((st', _)) =>
          assert st'.objects[|st'.objects| - 1] in st'.objects;
          (st', Uploaded)
  }

  /** The objects a placement adds that are files. */
  lemma PlaceFileAdds(st: Store, f: Faults, name: string, folder: string, opens: bool)
    ensures var (st', outcome) := PlaceFile(st, f, name, folder, opens);
      && (outcome.Uploaded? ==> AddedFiles(st, st') == [st'.objects[|st.objects|]])
      && (!outcome.Uploaded? ==> AddedFiles(st, st') == [])
  {
    var (st', outcome) := PlaceFile(st, f, name, folder, opens);
    if outcome.Uploaded? {
      assert st'.objects[|st.objects|..] == [st'.objects[|st.objects|]];
      NonFoldersSingle(st'.objects[|st.objects|]);
    } else {
      assert st'.objects[|st.objects|..] == [];
    }
  }

  /** The error `UploadFile` returns for each way placing the file ends. */
  function PlaceError(o: FileOutcome): (e: Option<UploadError>)
    ensures e.None? <==> o.Uploaded? || o.AlreadyPresent?
  {
    match o
    case Uploaded => None
    case AlreadyPresent => None
    case CheckFailed(c) => Some(ExistsCheckFailed(c))
    case NotOpened => Some(FileNotOpened)
    case CreateRejected(c) => Some(UploadRejected(c))
  }

  /** What an upload leaves behind, for a file called `name` uploaded into
      a folder called `dateName`. */
  ghost predicate UploadEffect(st: Store, r: Run, name: string, dateName: string)
    requires Extends(st, r.store)
  {
    // At most one file object appears, it is live and carries the base name,
    // and it appears only when the call succeeds.
    && |AddedFiles(st, r.store)| <= 1
    && (forall o :: o in AddedFiles(st, r.store) ==> o.name == name && |o.parents| == 1 && !o.trashed)
    && (AddedFiles(st, r.store) != [] ==> r.error.None?)
    // Success means a file of that name now sits in a folder of that name.
    && (r.error.None? ==> exists d :: IsFolderNamed(r.store, dateName, d) && HasFile(r.store, name, d))
  }

  /** The id of the first folder the folder query for `name` under `parent`
      finds in `s`, the one `createOrFindFolder` reuses. */
  function FirstFolder(s: Store, name: string, parent: string): Option<string> {
    var found := Select(s.objects, FolderLookup(name, parent));
    if found == [] then None else Some(found[0].id)
  }

  /** The first match found in a store is still the first after appends. */
  lemma FirstFolderStable(a: Store, b: Store, name: string, parent: string)
    requires Extends(a, b) && FirstFolder(a, name, parent).Some?
    ensures FirstFolder(b, name, parent) == FirstFolder(a, name, parent)
  {
    SelectStable(a, b, FolderLookup(name, parent));
  }

  /** Every added file has exactly the parent `folder`. */
  ghost predicate AddedUnder(st: Store, after: Store, folder: string)
    requires Extends(st, after)
  {
    forall o :: o in AddedFiles(st, after) ==> o.parents == [folder]
  }

  /** `UploadFile` after the root folder is known: today's folder, then the file. */
  function UploadToday(st: Store, f: Faults, rootId: string, today: DateTime, name: string, opens: bool): (r: Run)
    ensures Extends(st, r.store) && UploadEffect(st, r, name, DateFolder(today))
  {
    match CreateOrFindFolder(st, f, DateFolder(today), rootId)
    case Err(e) => Run(st, Some(DateFolderFailed(e)))
    case Ok(date) =>
      var (st', outcome) := PlaceFile(date.store, f, name, date.id, opens);
      PlacedIn(st, f, rootId, DateFolder(today), name, opens);
      Run(st', PlaceError(outcome))
  }

  /** What placing the file in a resolved date folder leaves behind: the
      folder is still the first one the query finds, it gains at most the
      one file, and on success it holds the file. */
  lemma PlacedIn(st: Store, f: Faults, rootId: string, dateName: string, name: string, opens: bool)
    requires CreateOrFindFolder(st, f, dateName, rootId).Ok?
    ensures var date := CreateOrFindFolder(st, f, dateName, rootId).value;
      var (st', outcome) := PlaceFile(date.store, f, name, date.id, opens);
      && Extends(st, st')
      && UploadEffect(st, Run(st', PlaceError(outcome)), name, dateName)
      && FirstFolder(st', dateName, rootId) == Some(date.id)
      && AddedUnder(st, st', date.id)
  {
    var date := CreateOrFindFolder(st, f, dateName, rootId).value;
    var (st', outcome) := PlaceFile(date.store, f, name, date.id, opens);
    assert Extends(st, st') && AddedFiles(st, st') == AddedFiles(date.store, st') by {
      FolderResolutionAddsNoFile(st, f, dateName, rootId);
      AddedFilesCompose(st, date.store, st');
    }
    assert IsFolderNamed(st', dateName, date.id) by {
      ResolvedIsNamed(st, f, dateName, rootId);
      IsFolderNamedStable(date.store, st', dateName, date.id);
    }
    assert FirstFolder(st', dateName, rootId) == Some(date.id) by {
      assert FirstFolder(date.store, dateName, rootId) == Some(date.id);
      FirstFolderStable(date.store, st', dateName, rootId);
    }
    PlaceFileAdds(date.store, f, name, date.id, opens);
  }

  /** `UploadToday` step by step: the folder used is the first one named
      after today under the root, any file added has exactly that parent, on
      success that folder holds the file, and each error is returned exactly
      when its step fails. */
  lemma UploadTodaySteps(st: Store, f: Faults, rootId: string, today: DateTime, name: string, opens: bool)
    ensures var r := UploadToday(st, f, rootId, today, name, opens);
      && (FirstFolder(r.store, DateFolder(today), rootId).Some? ==>
            AddedUnder(st, r.store, FirstFolder(r.store, DateFolder(today), rootId).value))
      && (r.error.None? ==>
            FirstFolder(r.store, DateFolder(today), rootId).Some?
            && HasFile(r.store, name, FirstFolder(r.store, DateFolder(today), rootId).value))
    ensures var r := UploadToday(st, f, rootId, today, name, opens);
      var resolved := CreateOrFindFolder(st, f, DateFolder(today), rootId);
      && (r.error.Some? && r.error.value.DateFolderFailed? <==> resolved.Err?)
      && (resolved.Err? ==> r == Run(st, Some(DateFolderFailed(resolved.error))))
      && (resolved.Ok? ==>
            var check := CheckFileExists(resolved.value.store, f, name, resolved.value.id);
            && (r.error.Some? && r.error.value.ExistsCheckFailed? <==> check.Err?)
            && (r.error == Some(FileNotOpened) <==> check == Ok(false) && !opens)
            && (r.error.Some? && r.error.value.UploadRejected? <==>
                  check == Ok(false) && opens && name in f.failingCreates))
  {
    var dateName := DateFolder(today);
    var resolved := CreateOrFindFolder(st, f, dateName, rootId);
    if resolved.Ok? {
      var date := resolved.value;
      var (st', outcome) := PlaceFile(date.store, f, name, date.id, opens);
      assert UploadToday(st, f, rootId, today, name, opens) == Run(st', PlaceError(outcome));
      PlacedIn(st, f, rootId, dateName, name, opens);
      PlaceErrors(date.store, f, name, date.id, opens);
    }
  }

  /** The error a placement yields, by the step that failed. */
  lemma PlaceErrors(st: Store, f: Faults, name: string, folder: string, opens: bool)
    ensures var (st', outcome) := PlaceFile(st, f, name, folder, opens);
      var e := PlaceError(outcome);
      var check := CheckFileExists(st, f, name, folder);
      && (e.None? ==> HasFile(st', name, folder))
      && (e.Some? && e.value.DateFolderFailed? ==> false)
      && (e.Some? && e.value.ExistsCheckFailed? <==> check.Err?)
      && (e == Some(FileNotOpened) <==> check == Ok(false) && !opens)
      && (e.Some? && e.value.UploadRejected? <==> check == Ok(false) && opens && name in f.failingCreates)
  {
  }

  /** `UploadFile(filePath)` on the day `today`. `opens` is whether
      `os.Open(filePath)` succeeds. The date folder comes from `today`; the
      directory the file sits in plays no part. */
  function UploadFile(st: Store, f: Faults, token: TokenFile, folderDrive: string, today: DateTime,
                      filePath: string, opens: bool): (r: Run)
    ensures Extends(st, r.store) && UploadEffect(st, r, Base(filePath), DateFolder(today))
    ensures !CheckAuth(token) ==> r == Run(st, Some(NoClient))
  {
    if !CheckAuth(token) then Run(st, Some(NoClient))
    else
      match CreateOrFindFolder(st, f, folderDrive, "")
      case Err(e) => Run(st, Some(RootFolderFailed(e)))
      case Ok(root) =>
        FolderResolutionAddsNoFile(st, f, folderDrive, "");
        var r := UploadToday(root.store, f, root.id, today, Base(filePath), opens);
        AddedFilesCompose(st, root.store, r.store);
        r
  }

  /** `UploadFile` step by step: with a client, the root folder error comes
      exactly when resolving the root fails; past it, the rest is
      `UploadToday` under the root folder found first; and on success the
      file sits in the first date folder under that root, the only parent of
      any file added. */
  lemma UploadFileSteps(st: Store, f: Faults, token: TokenFile, folderDrive: string, today: DateTime,
                        filePath: string, opens: bool)
    ensures var r := UploadFile(st, f, token, folderDrive, today, filePath, opens);
      CheckAuth(token) ==>
        (r.error.Some? && r.error.value.RootFolderFailed? <==> CreateOrFindFolder(st, f, folderDrive, "").Err?)
    ensures var r := UploadFile(st, f, token, folderDrive, today, filePath, opens);
      CheckAuth(token) && CreateOrFindFolder(st, f, folderDrive, "").Ok? ==>
        var root := CreateOrFindFolder(st, f, folderDrive, "").value;
        FirstFolder(r.store, folderDrive, "") == Some(root.id)
        && r == UploadToday(root.store, f, root.id, today, Base(filePath), opens)
    ensures var r := UploadFile(st, f, token, folderDrive, today, filePath, opens);
      r.error.None? ==>
        FirstFolder(r.store, folderDrive, "").Some?
        && var dateId := FirstFolder(r.store, DateFolder(today), FirstFolder(r.store, folderDrive, "").value);
           dateId.Some? && HasFile(r.store, Base(filePath), dateId.value) && AddedUnder(st, r.store, dateId.value)
  {
    if CheckAuth(token) && CreateOrFindFolder(st, f, folderDrive, "").Ok? {
      var root := CreateOrFindFolder(st, f, folderDrive, "").value;
      var r := UploadToday(root.store, f, root.id, today, Base(filePath), opens);
      FolderResolutionAddsNoFile(st, f, folderDrive, "");
      AddedFilesCompose(st, root.store, r.store);
      assert FirstFolder(root.store, folderDrive, "") == Some(root.id);
      FirstFolderStable(root.store, r.store, folderDrive, "");
      UploadTodaySteps(root.store, f, root.id, today, Base(filePath), opens);
      if FirstFolder(r.store, DateFolder(today), root.id).Some? {
        AddedUnderCompose(st, root.store, r.store, FirstFolder(r.store, DateFolder(today), root.id).value);
      }
    }
  }

  /** Resolving folders adds no file, so the files added by a whole upload
      are those of its placement. */
  lemma AddedUnderCompose(a: Store, b: Store, c: Store, folder: string)
    requires Extends(a, b) && Extends(b, c) && AddedFiles(a, b) == []
    requires AddedUnder(b, c, folder)
    ensures Extends(a, c) && AddedUnder(a, c, folder)
  {
    AddedFilesCompose(a, b, c);
  }

  // ---------------------------------------------------------------------
  // UploadAllBackups
  // ---------------------------------------------------------------------

  /** What the batch prints per bucket and per file. */
  datatype Report =
    | FolderUnresolved(bucket: string, cause: FolderError)
    | GlobFailed(bucket: string)
    | FileDone(bucket: string, name: string, outcome: FileOutcome)

  datatype Progress = Progress(store: Store, reports: seq<Report>)

  /** The remote name of a globbed file: the base of its path. */
  function RemoteName(dirPath: string, file: LocalFile): string {
    Base(JoinPath(dirPath, file.name))
  }

  /** The files of one bucket, in glob order. */
  function UploadFiles(st: Store, f: Faults, bucket: string, dateId: string, dirPath: string, files: seq<LocalFile>): (r: Progress)
    ensures Extends(st, r.store)
    // Every file is attempted exactly once, in order, whatever happened to the ones before it.
    ensures |r.reports| == |files|
    ensures forall i :: 0 <= i < |files| ==>
      r.reports[i].FileDone? && r.reports[i].bucket == bucket && r.reports[i].name == RemoteName(dirPath, files[i])
    decreases |files|
  {
    if files == [] then Progress(st, [])
    else
      var (st1, outcome) := PlaceFile(st, f, RemoteName(dirPath, files[0]), dateId, files[0].opens);
      var rest := UploadFiles(st1, f, bucket, dateId, dirPath, files[1..]);
      ExtendsTransitive(st, st1, rest.store);
      ReportsCons(FileDone(bucket, RemoteName(dirPath, files[0]), outcome), rest.reports, bucket, dirPath, files);
      Progress(rest.store, [FileDone(bucket, RemoteName(dirPath, files[0]), outcome)] + rest.reports)
  }

  /** One report per file, in order, survives putting the first file's
      report in front of the rest. */
  lemma ReportsCons(head: Report, rest: seq<Report>, bucket: string, dirPath: string, files: seq<LocalFile>)
    requires files != [] && head.FileDone? && head.bucket == bucket && head.name == RemoteName(dirPath, files[0])
    requires |rest| == |files| - 1
    requires forall i :: 0 <= i < |files| - 1 ==>
      rest[i].FileDone? && rest[i].bucket == bucket && rest[i].name == RemoteName(dirPath, files[1..][i])
    ensures var r := [head] + rest;
      |r| == |files|
      && forall i :: 0 <= i < |files| ==>
           r[i].FileDone? && r[i].bucket == bucket && r[i].name == RemoteName(dirPath, files[i])
  {
    var r := [head] + rest;
    forall i | 1 <= i < |files|
      ensures r[i].FileDone? && r[i].bucket == bucket && r[i].name == RemoteName(dirPath, files[i])
    {
      assert r[i] == rest[i - 1] && files[i] == files[1..][i - 1];
    }
  }

  /** How the batch handles the first file of a bucket and then the rest. */
  lemma UploadFilesCons(st: Store, f: Faults, bucket: string, d: string, dirPath: string, files: seq<LocalFile>,
                        st1: Store, o: FileOutcome)
    requires files != [] && PlaceFile(st, f, RemoteName(dirPath, files[0]), d, files[0].opens) == (st1, o)
    ensures var r := UploadFiles(st1, f, bucket, d, dirPath, files[1..]);
      UploadFiles(st, f, bucket, d, dirPath, files) == Progress(r.store, [FileDone(bucket, RemoteName(dirPath, files[0]), o)] + r.reports)
  {
  }

  /** Whether the batch reports the file as being on the remote side. */
  predicate Placed(r: Report) {
    r.FileDone? && (r.outcome.Uploaded? || r.outcome.AlreadyPresent?)
  }

  /** After the first file, the batch goes on with the rest from the store
      the first placement left. */
  lemma UploadFilesRest(st: Store, f: Faults, bucket: string, dateId: string, dirPath: string, files: seq<LocalFile>)
    requires files != []
    ensures var st1 := PlaceFile(st, f, RemoteName(dirPath, files[0]), dateId, files[0].opens).0;
      var rest := UploadFiles(st1, f, bucket, dateId, dirPath, files[1..]);
      var r := UploadFiles(st, f, bucket, dateId, dirPath, files);
      r.store == rest.store && r.reports[1..] == rest.reports
  {
    var (st1, outcome) := PlaceFile(st, f, RemoteName(dirPath, files[0]), dateId, files[0].opens);
    UploadFilesCons(st, f, bucket, dateId, dirPath, files, st1, outcome);
  }

  /** The first file of a bucket, once placed, stays placed through the rest. */
  lemma FirstReportPresent(st: Store, f: Faults, bucket: string, dateId: string, dirPath: string, files: seq<LocalFile>)
    requires files != [] && Placed(UploadFiles(st, f, bucket, dateId, dirPath, files).reports[0])
    ensures HasFile(UploadFiles(st, f, bucket, dateId, dirPath, files).store, RemoteName(dirPath, files[0]), dateId)
  {
    var (st1, outcome) := PlaceFile(st, f, RemoteName(dirPath, files[0]), dateId, files[0].opens);
    UploadFilesCons(st, f, bucket, dateId, dirPath, files, st1, outcome);
    HasFileStable(st1, UploadFiles(st1, f, bucket, dateId, dirPath, files[1..]).store, RemoteName(dirPath, files[0]), dateId);
  }

  /** The batch's report can be trusted: a file reported as uploaded or as
      already present is on the remote side when the bucket is done. */
  lemma ReportedFilePresent(st: Store, f: Faults, bucket: string, dateId: string, dirPath: string,
                            files: seq<LocalFile>, i: nat)
    requires i < |files|
    ensures Placed(UploadFiles(st, f, bucket, dateId, dirPath, files).reports[i]) ==>
      HasFile(UploadFiles(st, f, bucket, dateId, dirPath, files).store, RemoteName(dirPath, files[i]), dateId)
  {
    if Placed(UploadFiles(st, f, bucket, dateId, dirPath, files).reports[i]) {
      PlacedFilePresent(st, f, bucket, dateId, dirPath, files, i);
    }
  }

  lemma {:induction false} PlacedFilePresent(st: Store, f: Faults, bucket: string, dateId: string, dirPath: string,
                                             files: seq<LocalFile>, i: nat)
    requires i < |files| && Placed(UploadFiles(st, f, bucket, dateId, dirPath, files).reports[i])
    ensures HasFile(UploadFiles(st, f, bucket, dateId, dirPath, files).store, RemoteName(dirPath, files[i]), dateId)
    decreases i
  {
    if i == 0 {
      FirstReportPresent(st, f, bucket, dateId, dirPath, files);
    } else {
      var st1 := PlaceFile(st, f, RemoteName(dirPath, files[0]), dateId, files[0].opens).0;
      ReportShifts(st, f, bucket, dateId, dirPath, files, i);
      PlacedFilePresent(st1, f, bucket, dateId, dirPath, files[1..], i - 1);
    }
  }

  /** A later file's report is the rest's report one place earlier, and the
      batch ends with the rest's store. */
  lemma ReportShifts(st: Store, f: Faults, bucket: string, dateId: string, dirPath: string,
                     files: seq<LocalFile>, i: nat)
    requires 0 < i < |files|
    ensures var st1 := PlaceFile(st, f, RemoteName(dirPath, files[0]), dateId, files[0].opens).0;
      var r := UploadFiles(st, f, bucket, dateId, dirPath, files);
      var rest := UploadFiles(st1, f, bucket, dateId, dirPath, files[1..]);
      r.store == rest.store && rest.reports[i - 1] == r.reports[i] && files[1..][i - 1] == files[i]
  {
    var st1 := PlaceFile(st, f, RemoteName(dirPath, files[0]), dateId, files[0].opens).0;
    var r := UploadFiles(st, f, bucket, dateId, dirPath, files);
    UploadFilesRest(st, f, bucket, dateId, dirPath, files);
    assert r.reports[1..][i - 1] == r.reports[i];
  }

  /** One entry of the backup root: a date directory gets its folder under
      the root folder, then its globbed files; a failure to resolve the folder
      or to glob skips the bucket. Other entries are passed over. */
  function UploadBucket(st: Store, f: Faults, rootId: string, backupDir: string, e: RootEntry): (r: Progress)
    ensures Extends(st, r.store)
    ensures !e.DateDir? ==> r == Progress(st, [])
  {
    if !e.DateDir? then Progress(st, [])
    else
      match CreateOrFindFolder(st, f, e.name, rootId)
      case Err(err) => Progress(st, [FolderUnresolved(e.name, err)])
      case Ok(date) =>
        if !e.globOk then Progress(date.store, [GlobFailed(e.name)])
        else
          var done := UploadFiles(date.store, f, e.name, date.id, JoinPath(backupDir, e.name), Glob(e.files));
          ExtendsTransitive(st, date.store, done.store);
          done
  }

  /** The entries of the backup root, in directory order. */
  function UploadBuckets(st: Store, f: Faults, rootId: string, backupDir: string, entries: seq<RootEntry>): (r: Progress)
    ensures Extends(st, r.store)
    decreases |entries|
  {
    if entries == [] then Progress(st, [])
    else
      var here := UploadBucket(st, f, rootId, backupDir, entries[0]);
      var rest := UploadBuckets(here.store, f, rootId, backupDir, entries[1..]);
      ExtendsTransitive(st, here.store, rest.store);
      Progress(rest.store, here.reports + rest.reports)
  }

  datatype Batch = Batch(store: Store, error: Option<UploadError>, reports: seq<Report>)

  /** `UploadAllBackups`. Only a missing token, a failed root folder or an
      unreadable backup root are errors; everything after that is skipped
      item by item and the call returns nil. */
  function UploadAllBackups(st: Store, f: Faults, token: TokenFile, folderDrive: string, backupDir: string, fs: LocalFs): (r: Batch)
    ensures Extends(st, r.store)
    ensures r.error.Some? <==>
      !CheckAuth(token) || CreateOrFindFolder(st, f, folderDrive, "").Err? || fs.Unreadable?
    // Nothing is attempted before the three gates pass.
    ensures r.error.Some? ==> r.reports == []
    ensures !CheckAuth(token) || CreateOrFindFolder(st, f, folderDrive, "").Err? ==> r.store == st
  {
    if !CheckAuth(token) then Batch(st, Some(NoClient), [])
    else
      match CreateOrFindFolder(st, f, folderDrive, "")
      case Err(e) => Batch(st, Some(RootFolderFailed(e)), [])
      case Ok(root) =>
        match fs
        case Unreadable(reason) => Batch(root.store, Some(BackupDirUnreadable(reason)), [])
        case Listing(entries) =>
          var done := UploadBuckets(root.store, f, root.id, backupDir, entries);
          ExtendsTransitive(st, root.store, done.store);
          Batch(done.store, None, done.reports)
  }
}

=== FILE: drive_scenarios.dfy ===
/** Two runs of internal/drive/drive.go worked through object by object:
    a failure in the middle of a batch, and an upload repeated on the next
    day. */
module DriveScenarios {
  import opened Results
  import opened Text
  import opened Clock
  import opened Catalog
  import opened Credentials
  import opened Drive

  // ---------------------------------------------------------------------
  // Single steps
  // ---------------------------------------------------------------------

  lemma {:induction false} NoneMatch(objs: seq<RemoteObject>, q: Lookup)
    requires forall i :: 0 <= i < |objs| ==> !Matches(objs[i], q)
    ensures Select(objs, q) == []
    ensures forall o :: o in objs ==> !Matches(o, q)
    decreases |objs|
  {
    if objs != [] {
      assert !Matches(objs[0], q);
      NoneMatch(objs[1..], q);
    }
  }

  /** A file not yet in the folder is created there. */
  lemma PlaceNew(st: Store, f: Faults, name: string, d: string)
    requires WellFormed(FileLookup(name, d)) && FileLookup(name, d) !in f.failingLookups
    requires name !in f.failingCreates
    requires forall i :: 0 <= i < |st.objects| ==> !Matches(st.objects[i], FileLookup(name, d))
    ensures PlaceFile(st, f, name, d, true) == (Store(st.objects + [RemoteObject(NewId(st), name, false, [d], false)]), Uploaded)
  {
    NoneMatch(st.objects, FileLookup(name, d));
  }

  /** A file whose create fails leaves the store as it was. */
  lemma PlaceRejected(st: Store, f: Faults, name: string, d: string)
    requires WellFormed(FileLookup(name, d)) && FileLookup(name, d) !in f.failingLookups
    requires name in f.failingCreates
    requires forall i :: 0 <= i < |st.objects| ==> !Matches(st.objects[i], FileLookup(name, d))
    ensures PlaceFile(st, f, name, d, true) == (st, CreateRejected(CreateFailed(name)))
  {
    NoneMatch(st.objects, FileLookup(name, d));
  }

  /** A folder not found is created, with the parent as its only parent. */
  lemma FolderNew(st: Store, name: string, parent: string)
    requires WellFormed(FolderLookup(name, parent))
    requires forall i :: 0 <= i < |st.objects| ==> !Matches(st.objects[i], FolderLookup(name, parent))
    ensures CreateOrFindFolder(st, NoFaults, name, parent)
         == Ok(Resolved(Store(st.objects + [RemoteObject(NewId(st), name, true, ParentsOf(parent), false)]), NewId(st)))
  {
    NoneMatch(st.objects, FolderLookup(name, parent));
  }

  // ---------------------------------------------------------------------
  // A failure in the middle of a batch
  // ---------------------------------------------------------------------

  /** The three placements of the bucket below, one at a time. */
  lemma ThreePlacements(d: string, a: string, b: string, c: string)
    requires Literal(a) && Literal(b) && Literal(c) && Literal(d)
    requires a != b && b != c && a != c
    ensures var f := Faults({}, {b});
      var s1 := Store([RemoteObject(NewId(Store([])), a, false, [d], false)]);
      && PlaceFile(Store([]), f, a, d, true) == (s1, Uploaded)
      && PlaceFile(s1, f, b, d, true) == (s1, CreateRejected(CreateFailed(b)))
      && PlaceFile(s1, f, c, d, true) == (Store(s1.objects + [RemoteObject(NewId(s1), c, false, [d], false)]), Uploaded)
  {
    var f := Faults({}, {b});
    PlaceNew(Store([]), f, a, d);
    var s1 := Store([RemoteObject(NewId(Store([])), a, false, [d], false)]);
    assert Store([]).objects + [RemoteObject(NewId(Store([])), a, false, [d], false)] == s1.objects;
    PlaceRejected(s1, f, b, d);
    PlaceNew(s1, f, c, d);
  }

  /** One failed create in the middle of a bucket costs only that file: the
      files after it are still uploaded. */
  lemma OneFailedCreateSkipsOnlyThatFile(bucket: string, d: string, dirPath: string, a: LocalFile, b: LocalFile, c: LocalFile)
    requires IsEntryName(a.name) && IsEntryName(b.name) && IsEntryName(c.name)
    requires Literal(a.name) && Literal(b.name) && Literal(c.name) && Literal(d)
    requires a.name != b.name && b.name != c.name && a.name != c.name
    requires a.opens && b.opens && c.opens
    ensures var r := UploadFiles(Store([]), Faults({}, {b.name}), bucket, d, dirPath, [a, b, c]);
      && r.reports == [FileDone(bucket, a.name, Uploaded),
                       FileDone(bucket, b.name, CreateRejected(CreateFailed(b.name))),
                       FileDone(bucket, c.name, Uploaded)]
      && |r.store.objects| == 2
  {
    var f := Faults({}, {b.name});
    BaseOfJoin(dirPath, a.name);
    BaseOfJoin(dirPath, b.name);
    BaseOfJoin(dirPath, c.name);
    ThreePlacements(d, a.name, b.name, c.name);
    var s1 := Store([RemoteObject(NewId(Store([])), a.name, false, [d], false)]);
    var s3 := Store(s1.objects + [RemoteObject(NewId(s1), c.name, false, [d], false)]);
    assert [a, b, c][1..] == [b, c] && [b, c][1..] == [c] && [c][1..] == [];
    UploadFilesCons(s1, f, bucket, d, dirPath, [c], s3, Uploaded);
    UploadFilesCons(s1, f, bucket, d, dirPath, [b, c], s1, CreateRejected(CreateFailed(b.name)));
    UploadFilesCons(Store([]), f, bucket, d, dirPath, [a, b, c], s1, Uploaded);
  }

  // ---------------------------------------------------------------------
  // The next day
  // ---------------------------------------------------------------------

  /** The store after the first upload into an empty store: the root folder,
      the date folder under it, and the file in that. */
  function AfterFirstUpload(folderDrive: string, day: string, name: string): Store {
    Store([RemoteObject(IdOf(0), folderDrive, true, [], false),
           RemoteObject(IdOf(1), day, true, [IdOf(0)], false),
           RemoteObject(IdOf(2), name, false, [IdOf(1)], false)])
  }

  /** What the second day's upload adds: a folder for the day under the
      root folder, and the file in it. */
  function SecondDayAdds(day2: string, name: string): seq<RemoteObject> {
    [RemoteObject(IdOf(3), day2, true, [IdOf(0)], false),
     RemoteObject(IdOf(4), name, false, [IdOf(3)], false)]
  }

  function AfterSecondUpload(folderDrive: string, day1: string, day2: string, name: string): Store {
    Store(AfterFirstUpload(folderDrive, day1, name).objects + SecondDayAdds(day2, name))
  }

  /** The files among objects appended to a store. */
  lemma AppendedFiles(a: Store, added: seq<RemoteObject>)
    ensures Extends(a, Store(a.objects + added))
    ensures AddedFiles(a, Store(a.objects + added)) == NonFolders(added)
  {
    assert (a.objects + added)[..|a.objects|] == a.objects;
    assert (a.objects + added)[|a.objects|..] == added;
  }

  /** Once the root folder is resolved, `UploadFile` is the upload into
      today's folder under it. */
  lemma UploadFileAfterRoot(st: Store, f: Faults, token: TokenFile, folderDrive: string, today: DateTime,
                            filePath: string, opens: bool, root: Resolved)
    requires CheckAuth(token) && CreateOrFindFolder(st, f, folderDrive, "") == Ok(root)
    ensures UploadFile(st, f, token, folderDrive, today, filePath, opens) == UploadToday(root.store, f, root.id, today, Base(filePath), opens)
  {
  }

  lemma OneThenTwo(x: RemoteObject, y: RemoteObject, z: RemoteObject)
    ensures [x] + [y, z] == [x, y, z]
  {
  }

  lemma AppendTwo(a: seq<RemoteObject>, x: RemoteObject, y: RemoteObject)
    ensures a + [x] + [y] == a + [x, y]
  {
  }

  /** Into a store with no folder of today's name under the root and no
      object parented to the next id, an upload creates today's folder and
      then the file in it. */
  lemma UploadTodayFresh(st: Store, rootId: string, today: DateTime, name: string)
    requires rootId != "" && Literal(rootId) && Literal(DateFolder(today)) && Literal(name)
    requires NewId(st) != rootId
    requires forall i :: 0 <= i < |st.objects| ==> !Matches(st.objects[i], FolderLookup(DateFolder(today), rootId))
    requires forall i :: 0 <= i < |st.objects| ==> NewId(st) !in st.objects[i].parents
    ensures var n := |st.objects|;
      UploadToday(st, NoFaults, rootId, today, name, true)
        == Run(Store(st.objects + [RemoteObject(IdOf(n), DateFolder(today), true, [rootId], false),
                                   RemoteObject(IdOf(n + 1), name, false, [IdOf(n)], false)]), None)
  {
    FolderNew(st, DateFolder(today), rootId);
    var day := RemoteObject(NewId(st), DateFolder(today), true, [rootId], false);
    var s1 := Store(st.objects + [day]);
    forall i | 0 <= i < |s1.objects|
      ensures !Matches(s1.objects[i], FileLookup(name, NewId(st)))
    {
      if i < |st.objects| {
        assert s1.objects[i] == st.objects[i];
      }
    }
    PlaceNew(s1, NoFaults, name, NewId(st));
    assert NewId(s1) == IdOf(|st.objects| + 1);
    AppendTwo(st.objects, day, RemoteObject(NewId(s1), name, false, [NewId(st)], false));
  }

  /** In an empty store the root folder is created, as the first object. */
  lemma RootCreatedInEmptyStore(folderDrive: string)
    requires Literal(folderDrive)
    ensures CreateOrFindFolder(Store([]), NoFaults, folderDrive, "")
         == Ok(Resolved(Store([RemoteObject(IdOf(0), folderDrive, true, [], false)]), IdOf(0)))
  {
    var s0 := Store([]);
    FolderNew(s0, folderDrive, "");
    assert s0.objects + [RemoteObject(NewId(s0), folderDrive, true, ParentsOf(""), false)]
        == [RemoteObject(IdOf(0), folderDrive, true, [], false)];
  }

  /** The first upload into an empty store creates the root folder, the
      date folder and the file, in that order. */
  lemma FirstUploadOnEmptyStore(token: TokenFile, folderDrive: string, today: DateTime, filePath: string)
    requires CheckAuth(token)
    requires Literal(folderDrive) && Literal(DateFolder(today)) && Literal(Base(filePath))
    ensures UploadFile(Store([]), NoFaults, token, folderDrive, today, filePath, true)
         == Run(AfterFirstUpload(folderDrive, DateFolder(today), Base(filePath)), None)
  {
    var s1 := Store([RemoteObject(IdOf(0), folderDrive, true, [], false)]);
    RootCreatedInEmptyStore(folderDrive);
    UploadFileAfterRoot(Store([]), NoFaults, token, folderDrive, today, filePath, true, Resolved(s1, IdOf(0)));
    IdsDiffer(0, 1);
    assert !Matches(s1.objects[0], FolderLookup(DateFolder(today), IdOf(0)));
    UploadTodayFresh(s1, IdOf(0), today, Base(filePath));
    OneThenTwo(s1.objects[0], RemoteObject(IdOf(1), DateFolder(today), true, [IdOf(0)], false),
               RemoteObject(IdOf(2), Base(filePath), false, [IdOf(1)], false));
  }

  /** The first day's root folder is found again. */
  lemma RootFoundAfterFirst(folderDrive: string, day1: string, name: string)
    requires Literal(folderDrive)
    ensures var s3 := AfterFirstUpload(folderDrive, day1, name);
      CreateOrFindFolder(s3, NoFaults, folderDrive, "") == Ok(Resolved(s3, IdOf(0)))
  {
    var s3 := AfterFirstUpload(folderDrive, day1, name);
    var rq := FolderLookup(folderDrive, "");
    assert Matches(s3.objects[0], rq);
    assert Select(s3.objects, rq)[0] == s3.objects[0];
  }

  /** After the first day, no folder of another day's name sits under the
      root folder, and nothing is parented to the next id. */
  lemma NoSecondDayFolderYet(folderDrive: string, day1: string, day2: string, name: string)
    requires day1 != day2
    ensures var s3 := AfterFirstUpload(folderDrive, day1, name);
      && |s3.objects| == 3 && NewId(s3) == IdOf(3) && IdOf(3) != IdOf(0)
      && (forall i :: 0 <= i < |s3.objects| ==> !Matches(s3.objects[i], FolderLookup(day2, IdOf(0))))
      && (forall i :: 0 <= i < |s3.objects| ==> NewId(s3) !in s3.objects[i].parents)
  {
    var s3 := AfterFirstUpload(folderDrive, day1, name);
    IdsDiffer(0, 3);
    IdsDiffer(1, 3);
    forall i | 0 <= i < |s3.objects|
      ensures !Matches(s3.objects[i], FolderLookup(day2, IdOf(0))) && NewId(s3) !in s3.objects[i].parents
    {
      assert i == 0 || i == 1 || i == 2;
    }
  }

  /** The second day's upload over the first day's store: the root folder is
      found, today's folder and the file are created anew. */
  lemma SecondDayUpload(token: TokenFile, folderDrive: string, day1: string, day2: DateTime, filePath: string)
    requires CheckAuth(token)
    requires Literal(folderDrive) && Literal(DateFolder(day2)) && Literal(Base(filePath))
    requires day1 != DateFolder(day2)
    ensures UploadFile(AfterFirstUpload(folderDrive, day1, Base(filePath)), NoFaults, token, folderDrive, day2, filePath, true)
         == Run(AfterSecondUpload(folderDrive, day1, DateFolder(day2), Base(filePath)), None)
  {
    var s3 := AfterFirstUpload(folderDrive, day1, Base(filePath));
    RootFoundAfterFirst(folderDrive, day1, Base(filePath));
    UploadFileAfterRoot(s3, NoFaults, token, folderDrive, day2, filePath, true, Resolved(s3, IdOf(0)));
    NoSecondDayFolderYet(folderDrive, day1, DateFolder(day2), Base(filePath));
    UploadTodayFresh(s3, IdOf(0), day2, Base(filePath));
  }

  /** The second day adds exactly one file: the date folder is not one. */
  lemma SecondDayAddsOneFile(folderDrive: string, day1: string, day2: string, name: string)
    ensures |AddedFiles(AfterFirstUpload(folderDrive, day1, name), AfterSecondUpload(folderDrive, day1, day2, name))| == 1
  {
    var added := SecondDayAdds(day2, name);
    AppendedFiles(AfterFirstUpload(folderDrive, day1, name), added);
    assert added == [added[0]] + [added[1]];
    NonFoldersAppend([added[0]], [added[1]]);
    NonFoldersSingle(added[0]);
    NonFoldersSingle(added[1]);
  }

  /** A backup uploaded yesterday does not count today: the lookup only looks
      in today's folder, so the same file is uploaded a second time. */
  lemma NextDayUploadsAgain(token: TokenFile, folderDrive: string, day1: DateTime, day2: DateTime, filePath: string)
    requires CheckAuth(token)
    requires Literal(folderDrive) && Literal(DateFolder(day1)) && Literal(DateFolder(day2)) && Literal(Base(filePath))
    requires DateFolder(day1) != DateFolder(day2)
    ensures var first := UploadFile(Store([]), NoFaults, token, folderDrive, day1, filePath, true);
      var second := UploadFile(first.store, NoFaults, token, folderDrive, day2, filePath, true);
      && first.error.None? && second.error.None?
      && |AddedFiles(first.store, second.store)| == 1
  {
    FirstUploadOnEmptyStore(token, folderDrive, day1, filePath);
    SecondDayUpload(token, folderDrive, DateFolder(day1), day2, filePath);
    SecondDayAddsOneFile(folderDrive, DateFolder(day1), DateFolder(day2), Base(filePath));
  }
}

=== FILE: dumper.dfy ===
/** `DumpDatabase` of internal/dbdump/dumper.go: where a dump goes, the exact
    `docker exec … pg_dump` argument vector, and the order in which the six
    fallible steps (make the date directory, create the output file, open
    the stderr pipe, start, wait, stat) decide the result.

    The process and the file system are reduced to the outcome of each step,
    given as a `DumpEnv`. The error value is built with `fmt.Errorf` applied
    to the already formatted message, so the message is read a second time
    as a format string; `Sprintf0` models that re-reading. */
module Dumper {
  import opened Results
  import opened Text
  import opened Clock
  import opened Config

  // ---------------------------------------------------------------------
  // fmt.Sprintf with no operands
  // ---------------------------------------------------------------------

  predicate IsFlag(c: char) {
    c == '#' || c == '0' || c == '+' || c == '-' || c == ' '
  }

  function SkipFlags(s: string): (r: string)
    ensures |r| <= |s| && r == s[|s| - |r|..]
  {
    if s != [] && IsFlag(s[0]) then SkipFlags(s[1..]) else s
  }

  function SkipDigits(s: string): (r: string)
    ensures |r| <= |s| && r == s[|s| - |r|..]
  {
    if s != [] && IsDigit(s[0]) then SkipDigits(s[1..]) else s
  }

  /** What follows a `%` once its flags, width and precision are consumed:
      the verb and everything after it. A `.` starts a precision only when
      something follows it; a `.` that ends the format is itself the verb. */
  function AfterDirective(s: string): (r: string)
    ensures |r| <= |s|
  {
    var w := SkipDigits(SkipFlags(s));
    if |w| >= 2 && w[0] == '.' then SkipDigits(w[1..]) else w
  }

  const NoVerb: string := "%!(NOVERB)"
  const Missing: string := "(MISSING)"

  /** `fmt.Sprintf(format)` with no operands: text outside directives is
      copied. */
  function Sprintf0(format: string): string
    decreases |format|, 1
  {
    if format == [] then []
    else if format[0] != '%' then [format[0]] + Sprintf0(format[1..])
    else Directive(format[1..])
  }

  /** The directive after a `%`: `%%` prints one percent sign, any other
      verb prints `%!v(MISSING)` for want of an operand, and a `%` at the
      very end prints `%!(NOVERB)`. */
  function Directive(rest: string): string
    decreases |rest| + 1, 0
  {
    var v := AfterDirective(rest);
    if v == [] then NoVerb
    else if v[0] == '%' then ['%'] + Sprintf0(v[1..])
    else ['%', '!', v[0]] + Missing + Sprintf0(v[1..])
  }

  /** A `.` that ends the format is read as the verb, after any flags and
      width: `%.` and `%5.` both print `%!.(MISSING)`. */
  lemma TrailingDot(s: string)
    requires SkipDigits(SkipFlags(s)) == ['.']
    ensures Sprintf0(['%'] + s) == ['%', '!', '.'] + Missing
  {
    DotDirective(s);
    var f := ['%'] + s;
    assert f[0] == '%' && f[1..] == s;
  }

  /** The directive of `TrailingDot`, once its `%` is read. */
  lemma DotDirective(s: string)
    requires SkipDigits(SkipFlags(s)) == ['.']
    ensures Directive(s) == ['%', '!', '.'] + Missing
  {
    var v := AfterDirective(s);
    assert v == ['.'];
    assert Directive(s) == ['%', '!', '.'] + Missing + Sprintf0(v[1..]) by {
      MissingVerb(s);
    }
    assert v[1..] == [];
    assert ['%', '!', '.'] + Missing + Sprintf0([]) == ['%', '!', '.'] + Missing;
  }

  /** A verb other than `%` with no operand left prints `%!v(MISSING)`. */
  lemma MissingVerb(rest: string)
    requires AfterDirective(rest) != [] && AfterDirective(rest)[0] != '%'
    ensures var v := AfterDirective(rest);
      Directive(rest) == ['%', '!', v[0]] + Missing + Sprintf0(v[1..])
  {
  }

  /** A message without a percent sign survives being used as a format. */
  lemma {:induction false} Sprintf0Plain(s: string)
    requires '%' !in s
    ensures Sprintf0(s) == s
    decreases |s|
  {
    if s != [] {
      assert '%' !in s[1..];
      Sprintf0Plain(s[1..]);
      assert [s[0]] + s[1..] == s;
    }
  }

  /** Each `%` doubled: the text that `Sprintf0` turns back into `s`. */
  function EscapePercent(s: string): (r: string)
    ensures |r| >= |s|
  {
    if s == [] then []
    else if s[0] == '%' then "%%" + EscapePercent(s[1..])
    else [s[0]] + EscapePercent(s[1..])
  }

  /** A directive that starts with its verb has nothing to skip. */
  lemma VerbFirst(s: string)
    requires s != [] && !IsFlag(s[0]) && !IsDigit(s[0]) && s[0] != '.'
    ensures AfterDirective(s) == s
  {
  }

  /** A doubled percent sign formats as one. */
  lemma EscapedPercent(s: string)
    requires s != [] && s[0] == '%'
    ensures Sprintf0(EscapePercent(s)) == ['%'] + Sprintf0(EscapePercent(s[1..]))
  {
    var tail := EscapePercent(s[1..]);
    var e := EscapePercent(s);
    assert e == ['%', '%'] + tail;
    assert e[1..] == ['%'] + tail;
    VerbFirst(e[1..]);
    assert e[1..][1..] == tail;
  }

  /** Any other character is copied. */
  lemma EscapedPlain(s: string)
    requires s != [] && s[0] != '%'
    ensures Sprintf0(EscapePercent(s)) == [s[0]] + Sprintf0(EscapePercent(s[1..]))
  {
    assert EscapePercent(s)[1..] == EscapePercent(s[1..]);
  }

  /** Doubling every percent sign is undone by formatting with no operands. */
  lemma {:induction false} EscapeRoundTrip(s: string)
    ensures Sprintf0(EscapePercent(s)) == s
    decreases |s|
  {
    if s != [] {
      calc {
        Sprintf0(EscapePercent(s));
        == { EscapedHead(s); }
        [s[0]] + Sprintf0(EscapePercent(s[1..]));
        == { EscapeRoundTrip(s[1..]); }
        [s[0]] + s[1..];
        == s;
      }
    }
  }

  /** The first character of `s` comes back first. */
  lemma EscapedHead(s: string)
    requires s != []
    ensures Sprintf0(EscapePercent(s)) == [s[0]] + Sprintf0(EscapePercent(s[1..]))
  {
    if s[0] == '%' {
      EscapedPercent(s);
    } else {
      EscapedPlain(s);
    }
  }

  // ---------------------------------------------------------------------
  // Path and command
  // ---------------------------------------------------------------------

  /** `BackupDir/2006-01-02` for the reading `now`. */
  function DumpDir(cfg: Config, now: DateTime): string {
    JoinPath(cfg.backupDir, DateFolder(now))
  }

  /** `DBName_20060102_150405_data.sql`. */
  function DumpName(cfg: Config, now: DateTime): string {
    cfg.dbName + "_" + Timestamp(now) + "_data.sql"
  }

  function OutputFile(cfg: Config, now: DateTime): string {
    JoinPath(DumpDir(cfg, now), DumpName(cfg, now))
  }

  const DumpSuffix: string := "_data.sql"

  /** The `docker exec` argument vector; each configuration value is one
      argument, and no shell is involved. */
  function Argv(cfg: Config): (argv: seq<string>)
    ensures |argv| == 14
  {
    ["docker", "exec", "-e", "PGPASSWORD=" + cfg.dbPassword, cfg.containerName, "pg_dump", "-v",
     "--data-only", "--column-inserts", "--disable-triggers", "-U", cfg.dbUser, "-d", cfg.dbName]
  }

  /** The command determines the four configuration values it carries: an
      argument vector names exactly one password, container, user and
      database. */
  lemma ArgvDeterminesConnection(a: Config, b: Config)
    requires Argv(a) == Argv(b)
    ensures a.dbPassword == b.dbPassword && a.containerName == b.containerName
    ensures a.dbUser == b.dbUser && a.dbName == b.dbName
  {
    var pa, pb := Argv(a)[3], Argv(b)[3];
    assert pa == "PGPASSWORD=" + a.dbPassword && pb == "PGPASSWORD=" + b.dbPassword;
    assert a.dbPassword == pa[11..] && b.dbPassword == pb[11..];
  }

  /** Where the file name sits in the timestamp-bearing dump name. */
  lemma DumpNameParts(db: string, ts: string)
    ensures var n := db + "_" + ts + DumpSuffix;
      |n| == |db| + |ts| + 10 && n[..|db|] == db && n[|db| + 1..|db| + 1 + |ts|] == ts
      && HasSuffix(n, DumpSuffix) && HasSuffix(n, ".sql")
  {
    var n := db + "_" + ts + DumpSuffix;
    assert n[..|db|] == db;
    assert n[|db| + 1..|db| + 1 + |ts|] == ts;
    assert n[|n| - |DumpSuffix|..] == DumpSuffix;
    assert n[|n| - 4..] == ".sql";
  }

  /** The dump lands in the date directory of `now` under the backup root,
      under its own name, and that name ends in `_data.sql` (so it is one of
      the `*.sql` files the catalog lists). */
  lemma OutputFileShape(cfg: Config, now: DateTime)
    requires '/' !in cfg.dbName
    ensures Base(OutputFile(cfg, now)) == DumpName(cfg, now)
    ensures HasSuffix(DumpName(cfg, now), DumpSuffix) && HasSuffix(DumpName(cfg, now), ".sql")
    ensures OutputFile(cfg, now) == cfg.backupDir + "/" + DateFolder(now) + "/" + DumpName(cfg, now)
  {
    DumpNameParts(cfg.dbName, Timestamp(now));
    TimestampHasNoSlash(now);
    NameHasNoSlash(cfg.dbName, Timestamp(now));
    BaseOfJoin(DumpDir(cfg, now), DumpName(cfg, now));
  }

  lemma NameHasNoSlash(db: string, ts: string)
    requires '/' !in db && '/' !in ts
    ensures '/' !in db + "_" + ts + DumpSuffix
  {
    var n := db + "_" + ts + DumpSuffix;
    forall i | 0 <= i < |n|
      ensures n[i] != '/'
    {
      if i < |db| {
        assert n[i] == db[i];
      } else if i == |db| {
      } else if i < |db| + 1 + |ts| {
        assert n[i] == ts[i - |db| - 1];
      } else {
        assert n[i] == DumpSuffix[i - |db| - 1 - |ts|];
      }
    }
  }

  lemma TimestampHasNoSlash(now: DateTime)
    ensures '/' !in Timestamp(now)
  {
    TwoHasNoSlash(now.month);
    TwoHasNoSlash(now.day);
    TwoHasNoSlash(now.hour);
    TwoHasNoSlash(now.minute);
    TwoHasNoSlash(now.second);
    PadHasNoSlash(if now.year < 0 then -now.year else now.year, 4);
  }

  lemma PadHasNoSlash(n: nat, width: nat)
    ensures '/' !in Pad(n, width)
  {
    var p := Pad(n, width);
    forall i | 0 <= i < |p|
      ensures p[i] != '/'
    {
      assert IsDigit(p[i]);
    }
  }

  lemma TwoHasNoSlash(n: int)
    ensures '/' !in Two(n)
  {
    PadHasNoSlash(if n < 0 then -n else n, 2);
  }

  /** Where the six fields sit in a `20060102_150405` timestamp. */
  lemma TimestampSlices(y: string, m: string, d: string, h: string, mi: string, sec: string)
    requires |y| == 4 && |m| == 2 && |d| == 2 && |h| == 2 && |mi| == 2 && |sec| == 2
    ensures var ts := y + m + d + "_" + h + mi + sec;
      ts[0..4] == y && ts[4..6] == m && ts[6..8] == d && ts[9..11] == h && ts[11..13] == mi && ts[13..15] == sec
  {
  }

  /** Distinct readings (to the second) give distinct timestamps. */
  lemma TimestampInjective(a: DateTime, b: DateTime)
    requires Valid(a) && FourDigitYear(a) && Valid(b) && FourDigitYear(b)
    requires Timestamp(a) == Timestamp(b)
    ensures a == b
  {
    TimestampSlices(YearText(a.year), Two(a.month), Two(a.day), Two(a.hour), Two(a.minute), Two(a.second));
    TimestampSlices(YearText(b.year), Two(b.month), Two(b.day), Two(b.hour), Two(b.minute), Two(b.second));
    var ts := Timestamp(a);
    assert YearText(a.year) == ts[0..4] == YearText(b.year);
    assert Two(a.month) == ts[4..6] == Two(b.month);
    assert Two(a.day) == ts[6..8] == Two(b.day);
    assert Two(a.hour) == ts[9..11] == Two(b.hour);
    assert Two(a.minute) == ts[11..13] == Two(b.minute);
    assert Two(a.second) == ts[13..15] == Two(b.second);
  }

  /** Two dumps of one configuration go to the same file exactly when they
      are taken in the same second: a dump within the same second overwrites
      the previous one, and any other dump gets a file of its own. */
  lemma SameFileIffSameSecond(cfg: Config, a: DateTime, b: DateTime)
    requires '/' !in cfg.dbName
    requires Valid(a) && FourDigitYear(a) && Valid(b) && FourDigitYear(b)
    ensures OutputFile(cfg, a) == OutputFile(cfg, b) <==> a == b
  {
    if OutputFile(cfg, a) == OutputFile(cfg, b) {
      OutputFileShape(cfg, a);
      OutputFileShape(cfg, b);
      TimestampMatchesDateFolder(a);
      TimestampMatchesDateFolder(b);
      DumpNameParts(cfg.dbName, Timestamp(a));
      DumpNameParts(cfg.dbName, Timestamp(b));
      var n := DumpName(cfg, a);
      assert n == DumpName(cfg, b);
      var k := |cfg.dbName|;
      assert Timestamp(a) == n[k + 1..k + 16] == Timestamp(b);
      TimestampInjective(a, b);
    }
  }

  // ---------------------------------------------------------------------
  // The run
  // ---------------------------------------------------------------------

  /** The outcome of each fallible step, as error texts; `stat` is the size
      of the file or the error `os.Stat` reports. `stderr` is what the
      command wrote to its error stream. */
  datatype DumpEnv = DumpEnv(
    now: DateTime,
    mkdir: Option<string>,
    create: Option<string>,
    pipe: Option<string>,
    start: Option<string>,
    stderr: string,
    wait: Option<string>,
    stat: Result<int, string>)

  /** The result's message, by the step that set it. */
  datatype Message =
    | MkdirFailed(cause: string)
    | CreateFailed(cause: string)
    | PipeFailed(cause: string)
    | StartFailed(cause: string)
    | WaitFailed(cause: string)
    | NotCreated(path: string, cause: string)
    | Dumped

  const MkdirPrefix: string := "Không thể tạo thư mục backup: "
  const CreatePrefix: string := "Không thể tạo file output: "
  const PipePrefix: string := "Không thể thiết lập stderr pipe: "
  const StartPrefix: string := "Không thể khởi động lệnh: "
  const WaitPrefix: string := "Lệnh thất bại với mã lỗi: "
  const StatPrefix: string := "File không được tạo tại "
  const SuccessMessage: string := "Dump dữ liệu thành công"

  /** The text of a message. */
  function Render(m: Message): string {
    match m
    case MkdirFailed(c) => MkdirPrefix + c
    case CreateFailed(c) => CreatePrefix + c
    case PipeFailed(c) => PipePrefix + c
    case StartFailed(c) => StartPrefix + c
    case WaitFailed(c) => WaitPrefix + c
    case NotCreated(path, c) => StatPrefix + path + ": " + c
    case Dumped => SuccessMessage
  }

  datatype DumpResult = DumpResult(filePath: string, fileSize: int, success: bool, message: Message)

  /** What the dumper does to the outside world, in order: make the date
      directory `DumpDir`, create (truncating) `OutputFile`, open the stderr
      pipe, start `Argv`, read stderr to the end, wait, stat `OutputFile`. */
  datatype Step = MakeDir | CreateOutput | OpenStderrPipe | StartCommand | ReadStderr | WaitCommand | StatOutput

  /** The result, the returned error's text (if any), and the steps taken. */
  datatype Dump = Dump(result: DumpResult, error: Option<string>, steps: seq<Step>)

  /** Every step of a run that gets to the end. */
  const AllSteps: seq<Step> := [MakeDir, CreateOutput, OpenStderrPipe, StartCommand, ReadStderr, WaitCommand, StatOutput]

  /** Which step fails first (0 = mkdir … 5 = stat), if any. */
  function FirstFailure(env: DumpEnv): (k: Option<nat>)
    ensures k.Some? ==> k.value < 6
  {
    if env.mkdir.Some? then Some(0)
    else if env.create.Some? then Some(1)
    else if env.pipe.Some? then Some(2)
    else if env.start.Some? then Some(3)
    else if env.wait.Some? then Some(4)
    else if env.stat.Err? then Some(5)
    else None
  }

  /** How many steps a run takes when step `k` fails: everything up to and
      including the failing one (stderr is read before the wait). */
  function StepsUntil(k: nat): (n: nat)
    requires k < 6
    ensures n <= 7
  {
    if k <= 3 then k + 1 else k + 2
  }

  /** The result and the number of steps taken, the error aside. */
  function Attempt(cfg: Config, env: DumpEnv): (r: (DumpResult, nat))
    ensures r.1 <= 7
  {
    if env.mkdir.Some? then (DumpResult("", 0, false, MkdirFailed(env.mkdir.value)), 1)
    else if env.create.Some? then (DumpResult("", 0, false, CreateFailed(env.create.value)), 2)
    else if env.pipe.Some? then (DumpResult("", 0, false, PipeFailed(env.pipe.value)), 3)
    else if env.start.Some? then (DumpResult("", 0, false, StartFailed(env.start.value)), 4)
    else if env.wait.Some? then (DumpResult("", 0, false, WaitFailed(env.wait.value)), 6)
    else if env.stat.Err? then (DumpResult("", 0, false, NotCreated(OutputFile(cfg, env.now), env.stat.error)), 7)
    else (DumpResult(OutputFile(cfg, env.now), env.stat.value, true, Dumped), 7)
  }

  /** `DumpDatabase` with the message itself as the error (`errors.New`). */
  function DumpDatabase(cfg: Config, env: DumpEnv): (d: Dump)
    // A run succeeds exactly when no step fails, and then reports the file it wrote.
    ensures d.result.success <==> FirstFailure(env).None?
    ensures d.result.success ==> d.result == DumpResult(OutputFile(cfg, env.now), env.stat.value, true, Dumped)
    // A failed run returns an error whose text is the result's message, and no file.
    ensures !d.result.success ==> (d.error == Some(Render(d.result.message))
      && d.result.filePath == "" && d.result.fileSize == 0)
    ensures d.result.success ==> d.error.None?
    // The steps run in order; the first failure is the last step taken.
    ensures d.steps <= AllSteps
    ensures FirstFailure(env).None? ==> d.steps == AllSteps
    ensures FirstFailure(env).Some? ==> |d.steps| == StepsUntil(FirstFailure(env).value)
  {
    var (res, n) := Attempt(cfg, env);
    Dump(res, if res.success then None else Some(Render(res.message)), AllSteps[..n])
  }

  /** Which failure produced the message: the failing step with the cause
      it reported. Nothing else, and in particular not the stderr text, is
      part of it. */
  lemma FailureMessages(cfg: Config, env: DumpEnv)
    ensures FirstFailure(env) == Some(0) ==> DumpDatabase(cfg, env).result.message == MkdirFailed(env.mkdir.value)
    ensures FirstFailure(env) == Some(1) ==> DumpDatabase(cfg, env).result.message == CreateFailed(env.create.value)
    ensures FirstFailure(env) == Some(2) ==> DumpDatabase(cfg, env).result.message == PipeFailed(env.pipe.value)
    ensures FirstFailure(env) == Some(3) ==> DumpDatabase(cfg, env).result.message == StartFailed(env.start.value)
    ensures FirstFailure(env) == Some(4) ==> DumpDatabase(cfg, env).result.message == WaitFailed(env.wait.value)
  {
  }

  /** Every step before the stat succeeded and the stat failed. */
  lemma StatAloneFailed(cfg: Config, env: DumpEnv)
    requires env.mkdir.None? && env.create.None? && env.pipe.None? && env.start.None? && env.wait.None?
    requires env.stat.Err?
    ensures DumpDatabase(cfg, env).result.message == NotCreated(OutputFile(cfg, env.now), env.stat.error)
  {
  }

  /** The stat fails only when it is reached and fails. */
  lemma StatFailedLast(env: DumpEnv)
    requires FirstFailure(env) == Some(5)
    ensures env.mkdir.None? && env.create.None? && env.pipe.None? && env.start.None? && env.wait.None?
    ensures env.stat.Err?
  {
  }

  /** A missing output file is reported with its full path and the cause
      `os.Stat` gave. */
  lemma MissingFileMessage(cfg: Config, env: DumpEnv)
    requires FirstFailure(env) == Some(5)
    ensures DumpDatabase(cfg, env).result.message == NotCreated(OutputFile(cfg, env.now), env.stat.error)
  {
    assert env.mkdir.None? && env.create.None? && env.pipe.None? && env.start.None? && env.wait.None? && env.stat.Err? by {
      assert FirstFailure(env) == Some(5);
    }
    StatAloneFailed(cfg, env);
  }

  /** What the command wrote to stderr changes nothing in the result, the
      error or the steps. */
  lemma StderrIgnored(cfg: Config, env: DumpEnv, other: string)
    ensures DumpDatabase(cfg, env.(stderr := other)) == DumpDatabase(cfg, env)
    ensures DumpAsWritten(cfg, env.(stderr := other)) == DumpAsWritten(cfg, env)
  {
    assert Attempt(cfg, env.(stderr := other)) == Attempt(cfg, env);
  }

  /** A failure to start or to finish leaves the output file behind: it was
      created, the run failed, and no step removes it. */
  lemma FailedCommandLeavesFile(cfg: Config, env: DumpEnv)
    requires FirstFailure(env) == Some(3) || FirstFailure(env) == Some(4)
    ensures var d := DumpDatabase(cfg, env);
      !d.result.success && CreateOutput in d.steps && StartCommand in d.steps
  {
    var d := DumpDatabase(cfg, env);
    assert d.steps[1] == AllSteps[1];
    assert d.steps[3] == AllSteps[3];
  }

  /** Nothing is started before the directory and the output file exist:
      in any run (whose steps are a prefix of `AllSteps`, by the contract of
      `DumpDatabase`) the command is the fourth step. */
  lemma StartAfterCreate(steps: seq<Step>, i: nat)
    requires steps <= AllSteps && i < |steps| && steps[i].StartCommand?
    ensures i == 3 && steps[..i] == [MakeDir, CreateOutput, OpenStderrPipe]
  {
    assert steps[i] == AllSteps[i];
    assert steps[..i] == AllSteps[..i];
  }

  // ---------------------------------------------------------------------
  // The error text as written
  // ---------------------------------------------------------------------

  /** `DumpDatabase` as written: the error is `fmt.Errorf(message)`, so the
      message is read once more as a format with no operands. */
  function DumpAsWritten(cfg: Config, env: DumpEnv): (d: Dump)
    ensures d.result == DumpDatabase(cfg, env).result && d.steps == DumpDatabase(cfg, env).steps
    ensures d.error.Some? <==> !d.result.success
    ensures d.error.Some? ==> d.error.value == Sprintf0(Render(d.result.message))
  {
    var fixed := DumpDatabase(cfg, env);
    fixed.(error := if fixed.error.Some? then Some(Sprintf0(fixed.error.value)) else None)
  }

  /** Where the message has no percent sign, the error as written reads
      exactly like the message. */
  lemma AsWrittenAgreesWithoutPercent(cfg: Config, env: DumpEnv)
    requires '%' !in Render(DumpAsWritten(cfg, env).result.message)
    ensures DumpAsWritten(cfg, env) == DumpDatabase(cfg, env)
  {
    Sprintf0Plain(Render(DumpAsWritten(cfg, env).result.message));
  }

  /** A character other than `%` is copied. */
  lemma {:induction false} Sprintf0Cons(c: char, s: string)
    requires c != '%'
    ensures Sprintf0([c] + s) == [c] + Sprintf0(s)
  {
    var f := [c] + s;
    assert f[0] == c && f[1..] == s;
  }

  /** A prefix without percent signs is copied through, and the rest is
      formatted on its own. */
  lemma {:induction false} SprintfSplit(p: string, s: string)
    requires '%' !in p
    ensures Sprintf0(p + s) == p + Sprintf0(s)
    decreases |p|
  {
    if p == [] {
      assert p + s == s;
    } else {
      var c, tail := p[0], p[1..];
      assert p == [c] + tail;
      calc {
        Sprintf0(p + s);
      == { assert p + s == [c] + (tail + s); }
        Sprintf0([c] + (tail + s));
      == { Sprintf0Cons(c, tail + s); }
        [c] + Sprintf0(tail + s);
      == { SprintfSplit(tail, s); }
        [c] + (tail + Sprintf0(s));
      }
    }
  }

  /** `%d` followed by anything: the verb finds no operand. */
  lemma {:induction false} MissingOperand(rest: string)
    ensures Sprintf0(['%', 'd'] + rest) == ['%', '!', 'd'] + Missing + Sprintf0(rest)
  {
    var f := ['%', 'd'] + rest;
    assert f[0] == '%';
    assert f[1..] == ['d'] + rest;
    VerbFirst(f[1..]);
    assert f[1..][1..] == rest;
    assert Sprintf0(f) == Directive(f[1..]);
  }

  /** A `%d` after a percent-free prefix: formatting changes the text, since
      the character after the `%` becomes `!`. */
  lemma {:induction false} GarbledAt(p: string, rest: string)
    requires '%' !in p
    ensures Sprintf0(p + (['%', 'd'] + rest)) != p + (['%', 'd'] + rest)
  {
    var x := ['%', 'd'] + rest;
    SprintfSplit(p, x);
    MissingOperandMark(rest);
    DifferAfter(p, Sprintf0(x), x);
  }

  /** The mark a missing operand leaves: `%!d…`. */
  lemma {:induction false} MissingOperandMark(rest: string)
    ensures |Sprintf0(['%', 'd'] + rest)| > 1 && Sprintf0(['%', 'd'] + rest)[1] == '!'
  {
    var tail := Missing + Sprintf0(rest);
    assert Sprintf0(['%', 'd'] + rest) == ['%', '!', 'd'] + tail by {
      MissingOperand(rest);
    }
    assert (['%', '!', 'd'] + tail)[1] == '!';
  }

  /** Texts that differ in their second character still differ behind a
      common prefix. */
  lemma DifferAfter(p: string, y: string, x: string)
    requires |y| > 1 && |x| > 1 && y[1] != x[1]
    ensures p + y != p + x
  {
    assert (p + y)[|p| + 1] == y[1];
    assert (p + x)[|p| + 1] == x[1];
  }

  /** The text of `*os.PathError`: the operation, the path and the cause. */
  function PathError(op: string, path: string, cause: string): string {
    op + " " + path + ": " + cause
  }

  /** A text that carries a name holding `%d` (after a percent-free start
      `q`), behind a percent-free prefix, is garbled. */
  lemma {:induction false} GarbledAround(pre: string, name: string, post: string, q: string, rest: string)
    requires '%' !in pre && '%' !in q && name == q + ['%', 'd'] + rest
    ensures Sprintf0(pre + name + post) != pre + name + post
  {
    var t, tail := pre + q, rest + post;
    assert pre + name + post == t + (['%', 'd'] + tail);
    GarbledAt(t, tail);
  }

  /** The output path starts with the backup root. */
  lemma {:induction false} OutputFileUnder(cfg: Config, now: DateTime)
    ensures OutputFile(cfg, now) == cfg.backupDir + ("/" + DateFolder(now) + "/" + DumpName(cfg, now))
    ensures DumpDir(cfg, now) == cfg.backupDir + ("/" + DateFolder(now))
  {
    JoinUnder(cfg.backupDir, DateFolder(now), DumpName(cfg, now));
  }

  /** Joining paths only appends. */
  lemma {:induction false} JoinUnder(a: string, b: string, c: string)
    ensures JoinPath(JoinPath(a, b), c) == a + ("/" + b + "/" + c)
    ensures JoinPath(a, b) == a + ("/" + b)
  {
  }

  /** None of the message prefixes holds a percent sign. */
  lemma {:induction false} PrefixesHaveNoPercent()
    ensures '%' !in StatPrefix && '%' !in MkdirPrefix + "mkdir " && '%' !in CreatePrefix + "open "
  {
    forall i | 0 <= i < |StatPrefix| ensures StatPrefix[i] != '%' {}
    var m := MkdirPrefix + "mkdir ";
    forall i | 0 <= i < |m| ensures m[i] != '%' {}
    var c := CreatePrefix + "open ";
    forall i | 0 <= i < |c| ensures c[i] != '%' {}
  }

  /** The stat message for a path under such a root is garbled. */
  lemma {:induction false} StatTextGarbled(path: string, mid: string, cause: string, q: string, rest: string)
    requires '%' !in q && path == q + ['%', 'd'] + rest + mid
    ensures Sprintf0(StatPrefix + path + ": " + cause) != StatPrefix + path + ": " + cause
  {
    PrefixesHaveNoPercent();
    var root := q + ['%', 'd'] + rest;
    assert StatPrefix + path + ": " + cause == StatPrefix + root + (mid + ": " + cause);
    GarbledAround(StatPrefix, root, mid + ": " + cause, q, rest);
  }

  /** An `os` error about a path under such a root, behind a message
      prefix, is garbled. */
  lemma {:induction false} PathTextGarbled(lead: string, op: string, path: string, mid: string, x: string,
                                           q: string, rest: string)
    requires '%' !in lead + op + " " && '%' !in q && path == q + ['%', 'd'] + rest + mid
    ensures Sprintf0(lead + PathError(op, path, x)) != lead + PathError(op, path, x)
  {
    var root := q + ['%', 'd'] + rest;
    assert lead + PathError(op, path, x) == (lead + op + " ") + root + (mid + ": " + x);
    GarbledAround(lead + op + " ", root, mid + ": " + x, q, rest);
  }

  /** A stat failure under such a root, whatever its cause. */
  lemma {:induction false} StatGarbled(cfg: Config, now: DateTime, cause: string, q: string, rest: string)
    requires '%' !in q && cfg.backupDir == q + ['%', 'd'] + rest
    ensures var text := Render(NotCreated(OutputFile(cfg, now), cause)); Sprintf0(text) != text
  {
    OutputFileUnder(cfg, now);
    var path, mid := OutputFile(cfg, now), "/" + DateFolder(now) + "/" + DumpName(cfg, now);
    assert path == cfg.backupDir + mid;
    StatTextGarbled(path, mid, cause, q, rest);
  }

  /** A directory creation failure, as `os` reports it, under such a root. */
  lemma {:induction false} MkdirGarbled(cfg: Config, now: DateTime, x: string, q: string, rest: string)
    requires '%' !in q && cfg.backupDir == q + ['%', 'd'] + rest
    ensures var text := Render(MkdirFailed(PathError("mkdir", DumpDir(cfg, now), x))); Sprintf0(text) != text
  {
    OutputFileUnder(cfg, now);
    PrefixesHaveNoPercent();
    PathTextGarbled(MkdirPrefix, "mkdir", DumpDir(cfg, now), "/" + DateFolder(now), x, q, rest);
  }

  /** A file creation failure, as `os` reports it, under such a root. */
  lemma {:induction false} CreateGarbled(cfg: Config, now: DateTime, x: string, q: string, rest: string)
    requires '%' !in q && cfg.backupDir == q + ['%', 'd'] + rest
    ensures var text := Render(CreateFailed(PathError("open", OutputFile(cfg, now), x))); Sprintf0(text) != text
  {
    OutputFileUnder(cfg, now);
    PrefixesHaveNoPercent();
    PathTextGarbled(CreatePrefix, "open", OutputFile(cfg, now),
                    "/" + DateFolder(now) + "/" + DumpName(cfg, now), x, q, rest);
  }

  /** A backup root whose name holds `%d` (after a percent-free start `q`)
      garbles the returned error of every failure whose text carries the
      path: the stat failure, whatever its cause, and the directory and file
      creation failures as `os` reports them. The verb is filled in as a
      missing operand. */
  lemma PercentGarblesError(cfg: Config, env: DumpEnv, q: string, rest: string, x: string)
    requires '%' !in q && cfg.backupDir == q + ['%', 'd'] + rest
    requires || FirstFailure(env) == Some(5)
             || (FirstFailure(env) == Some(0) && env.mkdir.value == PathError("mkdir", DumpDir(cfg, env.now), x))
             || (FirstFailure(env) == Some(1) && env.create.value == PathError("open", OutputFile(cfg, env.now), x))
    ensures var d := DumpAsWritten(cfg, env);
      d.error.Some? && d.error.value != Render(d.result.message)
  {
    if FirstFailure(env) == Some(5) {
      StatBranchGarbled(cfg, env, q, rest);
    } else if FirstFailure(env) == Some(0) {
      MkdirBranchGarbled(cfg, env, q, rest, x);
    } else {
      CreateBranchGarbled(cfg, env, q, rest, x);
    }
  }

  /** `PercentGarblesError` for the stat failure. */
  lemma {:induction false} StatBranchGarbled(cfg: Config, env: DumpEnv, q: string, rest: string)
    requires '%' !in q && cfg.backupDir == q + ['%', 'd'] + rest
    requires FirstFailure(env) == Some(5)
    ensures var d := DumpAsWritten(cfg, env);
      d.error.Some? && d.error.value != Render(d.result.message)
  {
    StatFailedLast(env);
    MissingFileMessage(cfg, env);
    StatGarbled(cfg, env.now, env.stat.error, q, rest);
    AsWrittenDiffers(cfg, env);
  }

  /** `PercentGarblesError` for the directory creation failure. */
  lemma {:induction false} MkdirBranchGarbled(cfg: Config, env: DumpEnv, q: string, rest: string, x: string)
    requires '%' !in q && cfg.backupDir == q + ['%', 'd'] + rest
    requires FirstFailure(env) == Some(0) && env.mkdir.value == PathError("mkdir", DumpDir(cfg, env.now), x)
    ensures var d := DumpAsWritten(cfg, env);
      d.error.Some? && d.error.value != Render(d.result.message)
  {
    FailureMessages(cfg, env);
    MkdirGarbled(cfg, env.now, x, q, rest);
    AsWrittenDiffers(cfg, env);
  }

  /** `PercentGarblesError` for the file creation failure. */
  lemma {:induction false} CreateBranchGarbled(cfg: Config, env: DumpEnv, q: string, rest: string, x: string)
    requires '%' !in q && cfg.backupDir == q + ['%', 'd'] + rest
    requires FirstFailure(env) == Some(1) && env.create.value == PathError("open", OutputFile(cfg, env.now), x)
    ensures var d := DumpAsWritten(cfg, env);
      d.error.Some? && d.error.value != Render(d.result.message)
  {
    FailureMessages(cfg, env);
    CreateGarbled(cfg, env.now, x, q, rest);
    AsWrittenDiffers(cfg, env);
  }

  /** Where formatting changes a failed run's message, the error as written
      differs from it. */
  lemma {:induction false} AsWrittenDiffers(cfg: Config, env: DumpEnv)
    requires FirstFailure(env).Some?
    requires var text := Render(DumpDatabase(cfg, env).result.message); Sprintf0(text) != text
    ensures var d := DumpAsWritten(cfg, env);
      d.error.Some? && d.error.value != Render(d.result.message)
  {
  }
}

=== FILE: handlers.dfy ===
/** The page and action handlers of internal/handlers/handlers.go.

    Every action answers with a redirect: to the home page with a success
    flag and a notice, to the Drive authorisation page, or (for a download)
    with the file itself. The notice is kept as a datatype; its wording is in
    `NoticeText`. The handlers' gates run in a fixed order (the header, then
    the Drive token, then the catalog) and each gate that refuses leaves the
    remote store and the local files untouched. */
module Handlers {
  import opened Results
  import opened Text
  import opened Clock
  import opened Config
  import opened Catalog
  import opened Credentials
  import opened Drive
  import opened Dumper
  import opened Auth
  import opened AuthHandlers
  import opened Sync

  // ---------------------------------------------------------------------
  // getAuthMethod and the home page gate
  // ---------------------------------------------------------------------

  /** The three ways a browser may show it is signed in: the `logged_in`
      cookie equal to "true", a non-empty `auth_token` cookie, a non-empty
      Authorization header. None of them is verified here. */
  predicate SignedIn(loggedIn: string, authToken: string, authHeader: string) {
    loggedIn == "true" || authToken != "" || authHeader != ""
  }

  /** The labels of the ways present, in the order cookie, token, header. */
  function AuthLabels(loggedIn: string, authToken: string, authHeader: string): (labels: seq<string>)
    ensures labels == [] <==> !SignedIn(loggedIn, authToken, authHeader)
  {
    (if loggedIn == "true" then ["logged_in cookie"] else [])
    + (if authToken != "" then ["auth_token cookie"] else [])
    + (if authHeader != "" then ["Authorization header"] else [])
  }

  /** `getAuthMethod`. */
  function GetAuthMethod(loggedIn: string, authToken: string, authHeader: string): (m: string)
    ensures m == "unknown" <==> !SignedIn(loggedIn, authToken, authHeader)
  {
    var labels := AuthLabels(loggedIn, authToken, authHeader);
    if |labels| == 0 then "unknown"
    else
      JoinEnds(labels, ", ");
      assert labels[0][0] != 'u';
      Join(labels, ", ")
  }

  /** A join starts with its first part and ends with its last one. */
  lemma {:induction false} JoinEnds(parts: seq<string>, sep: string)
    requires parts != []
    ensures HasPrefix(Join(parts, sep), parts[0])
    ensures HasSuffix(Join(parts, sep), parts[|parts| - 1])
    decreases |parts|
  {
    if |parts| > 1 {
      JoinEnds(parts[1..], sep);
      var j := Join(parts, sep);
      var rest := Join(parts[1..], sep);
      assert j == parts[0] + sep + rest;
      assert j[..|parts[0]|] == parts[0];
      assert j[|j| - |rest|..] == rest;
    }
  }

  /** The description names the cookie first exactly when the cookie is
      set, and the header last exactly when the header is present. */
  lemma AuthMethodOrder(loggedIn: string, authToken: string, authHeader: string)
    ensures var m := GetAuthMethod(loggedIn, authToken, authHeader);
      && (loggedIn == "true" <==> HasPrefix(m, "logged_in cookie"))
      && (authHeader != "" <==> HasSuffix(m, "Authorization header"))
  {
    var labels := AuthLabels(loggedIn, authToken, authHeader);
    var m := GetAuthMethod(loggedIn, authToken, authHeader);
    if labels != [] {
      JoinEnds(labels, ", ");
      assert m[0] == labels[0][0];
      var last := labels[|labels| - 1];
      assert m[|m| - 1] == last[|last| - 1];
    }
    if HasPrefix(m, "logged_in cookie") {
      assert m[0] == 'l';
    }
    if HasSuffix(m, "Authorization header") {
      assert m[|m| - 1] == 'r';
    }
  }

  lemma JoinThree(a: string, b: string, c: string, sep: string)
    ensures Join([a, b, c], sep) == a + sep + b + sep + c
  {
    assert [a, b, c][1..] == [b, c] && [b, c][1..] == [c];
    assert Join([c], sep) == c;
    assert Join([b, c], sep) == b + sep + c;
    assert Join([a, b, c], sep) == a + sep + (b + sep + c);
  }

  /** All three ways at once, listed in the fixed order. */
  lemma AllThreeWays(loggedIn: string, authToken: string, authHeader: string)
    requires loggedIn == "true" && authToken != "" && authHeader != ""
    ensures GetAuthMethod(loggedIn, authToken, authHeader)
         == "logged_in cookie" + ", " + "auth_token cookie" + ", " + "Authorization header"
  {
    assert AuthLabels(loggedIn, authToken, authHeader) == ["logged_in cookie", "auth_token cookie", "Authorization header"];
    JoinThree("logged_in cookie", "auth_token cookie", "Authorization header", ", ");
  }

  /** The query flash shown after an action: `success` and `message`. */
  datatype Operation = Operation(success: bool, message: string)

  datatype Page =
    | NeedDriveAuth
    | ListingError(error: string)
    | BackupList(backups: seq<BackupFile>, last: Option<Operation>)

  datatype IndexReply = ToLogin | IndexPage(page: Page, cookies: seq<Cookie>)

  /** What the home page reads from the request: the two cookies (empty when
      absent), the header and the two flash parameters. */
  datatype IndexRequest = IndexRequest(loggedIn: string, authToken: string, authHeader: string,
                                       success: string, message: string)

  /** `IndexHandler`. */
  function Index(req: IndexRequest, drive: TokenFile, backupDir: string, fs: LocalFs): (r: IndexReply)
    ensures r.ToLogin? <==> !SignedIn(req.loggedIn, req.authToken, req.authHeader)
    // The token cookie alone restores the `logged_in` cookie login would have set.
    ensures r.IndexPage? ==> (r.cookies != [] <==> req.authToken != "" && req.loggedIn != "true")
    // The cookie goes out before `SetSameSite`, so it does not carry Lax.
    ensures r.IndexPage? && r.cookies != [] ==> r.cookies == EmitAsWritten(SessionCookies(req.authToken)[..1])
    ensures r.IndexPage? ==> forall c :: c in r.cookies ==> c.sameSite == DefaultMode
    ensures r.IndexPage? ==> (r.page.NeedDriveAuth? <==> !CheckAuth(drive))
    ensures r.IndexPage? && CheckAuth(drive) && fs.Unreadable? ==>
      r.page == ListingError(ReadDirPrefix + fs.reason)
    ensures r.IndexPage? && CheckAuth(drive) ==> (r.page.BackupList? <==> fs.Listing?)
    ensures r.IndexPage? && r.page.BackupList? ==>
      && fs.Listing? && r.page.backups == Flatten(backupDir, fs.entries)
      && (r.page.last.Some? <==> req.success != "")
      && (r.page.last.Some? ==> r.page.last.value == Operation(req.success == "true", req.message))
  {
    if !SignedIn(req.loggedIn, req.authToken, req.authHeader) then ToLogin
    else
      var cookies := if req.authToken != "" && req.loggedIn != "true"
        then EmitAsWritten([CookieSpec("logged_in", "true", SessionMaxAge, "/", "", false, false)]) else [];
      if !CheckAuth(drive) then IndexPage(NeedDriveAuth, cookies)
      else
        match GetAllBackups(backupDir, fs)
        case Err(e) => IndexPage(ListingError(e), cookies)
        case Ok(backups) =>
          var last := if req.success != "" then Some(Operation(req.success == "true", req.message)) else None;
          IndexPage(BackupList(backups, last), cookies)
  }

  // ---------------------------------------------------------------------
  // Finding a backup by ID
  // ---------------------------------------------------------------------

  /** `k` is the first catalog position with ID `id`. */
  predicate FirstWithId(bs: seq<BackupFile>, id: string, k: int) {
    && 0 <= k < |bs|
    && bs[k].id == id
    && (forall j :: 0 <= j < k ==> bs[j].id != id)
  }

  lemma FirstWithIdUnique(bs: seq<BackupFile>, id: string, k1: int, k2: int)
    requires FirstWithId(bs, id, k1) && FirstWithId(bs, id, k2)
    ensures k1 == k2
  {
  }

  /** The search loop of the upload and download handlers: the first entry
      with the ID, or nothing. */
  function FindById(bs: seq<BackupFile>, id: string): (r: Option<BackupFile>)
    ensures r.None? <==> forall j :: 0 <= j < |bs| ==> bs[j].id != id
    ensures r.Some? ==> exists k :: FirstWithId(bs, id, k) && r.value == bs[k]
  {
    if bs == [] then None
    else if bs[0].id == id then
      assert FirstWithId(bs, id, 0);
      Some(bs[0])
    else
      var r := FindById(bs[1..], id);
      assert r.Some? ==> exists k :: FirstWithId(bs, id, k) && r.value == bs[k] by {
        if r.Some? {
          var k :| FirstWithId(bs[1..], id, k) && r.value == bs[1..][k];
          assert FirstWithId(bs, id, k + 1);
        }
      }
      r
  }

  /** An ID names one entry: the first with that ID. Since the ID is the
      bare file name, a file of the same name in a later date directory is
      never reached. */
  lemma FindByIdShadows(bs: seq<BackupFile>, id: string, k: int, j: int)
    requires FirstWithId(bs, id, k) && k < j < |bs| && bs[j] != bs[k]
    ensures FindById(bs, id) == Some(bs[k]) != Some(bs[j])
  {
    var r := FindById(bs, id);
    var k' :| FirstWithId(bs, id, k') && r.value == bs[k'];
    FirstWithIdUnique(bs, id, k, k');
  }

  /** Whichever entry is the first with the ID is the one found. */
  lemma FindByIdIsFirst(bs: seq<BackupFile>, id: string)
    ensures forall k :: FirstWithId(bs, id, k) ==> FindById(bs, id) == Some(bs[k])
  {
    forall k | FirstWithId(bs, id, k)
      ensures FindById(bs, id) == Some(bs[k])
    {
      var r := FindById(bs, id);
      var k' :| FirstWithId(bs, id, k') && r.value == bs[k'];
      FirstWithIdUnique(bs, id, k, k');
    }
  }

  // ---------------------------------------------------------------------
  // Actions
  // ---------------------------------------------------------------------

  /** The notice an action redirects home with. */
  datatype Notice =
    | LoginRequired
    | DumpFailed(error: string)
    | DumpDone(fileName: string)
    | LatestMissing(error: string)
    | UploadFailed(cause: UploadError)
    | FileUploaded(name: string)
    | UploadAllFailed(cause: UploadError)
    | AllUploaded
    | CatalogFailed(error: string)
    | UnknownId(id: string)
    | SessionInvalid
    | FileMissing(name: string)

  /** The `success` flag of the redirect. */
  predicate Succeeded(n: Notice) {
    n.DumpDone? || n.FileUploaded? || n.AllUploaded?
  }

  /** The `message` of the redirect; upload errors are rendered by the
      uploader and appear here as `detail`. */
  function NoticeText(n: Notice, detail: UploadError -> string): string {
    match n
    case LoginRequired => "Vui lòng đăng nhập để thực hiện thao tác này"
    case DumpFailed(e) => "Lỗi khi dump database: " + e
    case DumpDone(name) => "Đã dump database thành công. File: " + name
    case LatestMissing(e) => "Không tìm thấy file backup: " + e
    case UploadFailed(e) => "Lỗi khi upload file: " + detail(e)
    case FileUploaded(name) => "Đã upload file " + name + " lên Google Drive"
    case UploadAllFailed(e) => "Lỗi khi upload tất cả file: " + detail(e)
    case AllUploaded => "Đã upload tất cả file backup lên Google Drive"
    case CatalogFailed(e) => "Không thể lấy danh sách backup: " + e
    case UnknownId(id) => "Không tìm thấy file backup có ID: " + id
    case SessionInvalid => "Phiên đăng nhập không hợp lệ hoặc đã hết hạn"
    case FileMissing(name) => "File " + name + " không tồn tại"
  }

  datatype Reply = Home(notice: Notice) | DriveAuth | Attachment(path: string, name: string)

  /** `DumpHandler`: the header must be present (it is not verified); then
      one dump runs, as written, so a failure is reported with the message
      re-read as a format. */
  function DumpHandler(header: string, cfg: Config, env: DumpEnv): (r: (Reply, seq<Step>))
    ensures header == "" ==> r == (Home(LoginRequired), [])
    ensures header != "" ==> r.1 == DumpDatabase(cfg, env).steps
    ensures header != "" ==> r.0.Home? && (Succeeded(r.0.notice) <==> FirstFailure(env).None?)
    ensures header != "" && FirstFailure(env).Some? ==>
      r.0 == Home(DumpFailed(Sprintf0(Render(DumpDatabase(cfg, env).result.message))))
  {
    if header == "" then (Home(LoginRequired), [])
    else
      var d := DumpAsWritten(cfg, env);
      if d.error.Some? then (Home(DumpFailed(d.error.value)), d.steps)
      else (Home(DumpDone(Base(d.result.filePath))), d.steps)
  }

  /** A successful dump is announced with the name of the file it wrote. */
  lemma DumpAnnouncesFile(header: string, cfg: Config, env: DumpEnv)
    requires header != "" && FirstFailure(env).None? && '/' !in cfg.dbName
    ensures DumpHandler(header, cfg, env).0 == Home(DumpDone(DumpName(cfg, env.now)))
  {
    OutputFileShape(cfg, env.now);
  }

  /** `UploadLastHandler`. `opens(path)` is whether `os.Open(path)` succeeds. */
  method UploadLastHandler(header: string, drive: TokenFile, st: Store, f: Faults, folderDrive: string,
                           today: DateTime, backupDir: string, fs: LocalFs, opens: string -> bool)
    returns (reply: Reply, store: Store)
    ensures header == "" ==> reply == Home(LoginRequired) && store == st
    ensures header != "" && !CheckAuth(drive) ==> reply == DriveAuth && store == st
    ensures Extends(st, store)
    ensures header != "" && CheckAuth(drive) && fs.Unreadable? ==>
      reply == Home(LatestMissing(ReadDirPrefix + fs.reason)) && store == st
    ensures header != "" && CheckAuth(drive) && fs.Listing? && Flatten(backupDir, fs.entries) == [] ==>
      reply == Home(LatestMissing(NoBackupFound)) && store == st
    // Success names the latest backup, which now sits in today's folder.
    ensures reply.Home? && reply.notice.FileUploaded? ==>
      exists k :: IsLatest(Flatten(backupDir, fs.entries), k)
        && reply.notice.name == Flatten(backupDir, fs.entries)[k].name
        && UploadFile(st, f, drive, folderDrive, today, Flatten(backupDir, fs.entries)[k].path,
                      opens(Flatten(backupDir, fs.entries)[k].path)) == Run(store, None)
    // Past the gates, the latest backup is uploaded, and the reply is the upload's outcome.
    ensures header != "" && CheckAuth(drive) && fs.Listing? && Flatten(backupDir, fs.entries) != [] ==>
      exists k {:trigger IsLatest(Flatten(backupDir, fs.entries), k)} :: IsLatest(Flatten(backupDir, fs.entries), k)
        && var b := Flatten(backupDir, fs.entries)[k];
           var run := UploadFile(st, f, drive, folderDrive, today, b.path, opens(b.path));
           && store == run.store
           && (run.error.Some? ==> reply == Home(UploadFailed(run.error.value)))
           && (run.error.None? ==> reply == Home(FileUploaded(b.name)))
  {
    if header == "" {
      return Home(LoginRequired), st;
    }
    if !CheckAuth(drive) {
      return DriveAuth, st;
    }
    var latest := FindLatestBackup(backupDir, fs);
    if latest.Err? {
      return Home(LatestMissing(latest.error)), st;
    }
    var b := latest.value;
    var run := UploadFile(st, f, drive, folderDrive, today, b.path, opens(b.path));
    store := run.store;
    if run.error.Some? {
      reply := Home(UploadFailed(run.error.value));
    } else {
      reply := Home(FileUploaded(b.name));
    }
    ghost var k :| IsLatest(Flatten(backupDir, fs.entries), k) && b == Flatten(backupDir, fs.entries)[k];
  }

  /** `UploadAllHandler`. */
  function UploadAllHandler(header: string, drive: TokenFile, st: Store, f: Faults, folderDrive: string,
                            backupDir: string, fs: LocalFs): (r: (Reply, Store))
    ensures header == "" ==> r == (Home(LoginRequired), st)
    ensures header != "" && !CheckAuth(drive) ==> r == (DriveAuth, st)
    ensures Extends(st, r.1)
    ensures r.0 == Home(AllUploaded) <==> header != "" && UploadAllBackups(st, f, drive, folderDrive, backupDir, fs).error.None?
    // The handler's own Drive check comes first, so the uploader's missing-token error never surfaces.
    ensures !(r.0.Home? && r.0.notice.UploadAllFailed? && r.0.notice.cause.NoClient?)
    // Past the gates the reply reports the batch's own error and the store is the batch's.
    ensures header != "" && CheckAuth(drive) ==>
      var batch := UploadAllBackups(st, f, drive, folderDrive, backupDir, fs);
      r == (if batch.error.Some? then Home(UploadAllFailed(batch.error.value)) else Home(AllUploaded), batch.store)
  {
    if header == "" then (Home(LoginRequired), st)
    else if !CheckAuth(drive) then (DriveAuth, st)
    else
      var batch := UploadAllBackups(st, f, drive, folderDrive, backupDir, fs);
      if batch.error.Some? then (Home(UploadAllFailed(batch.error.value)), batch.store)
      else (Home(AllUploaded), batch.store)
  }

  /** Pressing "upload all" a second time, after a first press on which
      nothing failed, changes nothing on Drive, whatever fails the second time. */
  lemma UploadAllTwice(header: string, drive: TokenFile, st: Store, f: Faults, folderDrive: string,
                       backupDir: string, fs: LocalFs)
    ensures var first := UploadAllHandler(header, drive, st, NoFaults, folderDrive, backupDir, fs).1;
      UploadAllHandler(header, drive, first, f, folderDrive, backupDir, fs).1 == first
  {
    if header != "" && CheckAuth(drive) {
      UploadAllIdempotent(st, f, drive, folderDrive, backupDir, fs);
    }
  }

  /** `UploadSingleHandler` for the path parameter `id`. */
  function UploadSingleHandler(header: string, drive: TokenFile, st: Store, f: Faults, folderDrive: string,
                               today: DateTime, backupDir: string, fs: LocalFs, id: string,
                               opens: string -> bool): (r: (Reply, Store))
    ensures header == "" ==> r == (Home(LoginRequired), st)
    ensures header != "" && !CheckAuth(drive) ==> r == (DriveAuth, st)
    ensures Extends(st, r.1)
    ensures header != "" && CheckAuth(drive) && fs.Unreadable? ==>
      r == (Home(CatalogFailed(ReadDirPrefix + fs.reason)), st)
    // An ID nobody has uploads nothing.
    ensures header != "" && CheckAuth(drive) && fs.Listing?
            && (forall j :: 0 <= j < |Flatten(backupDir, fs.entries)| ==> Flatten(backupDir, fs.entries)[j].id != id) ==>
      r == (Home(UnknownId(id)), st)
    // Success names the first entry with the ID, which now sits in today's folder.
    ensures r.0.Home? && r.0.notice.FileUploaded? ==>
      exists k :: FirstWithId(Flatten(backupDir, fs.entries), id, k)
        && r.0.notice.name == Flatten(backupDir, fs.entries)[k].name
        && UploadFile(st, f, drive, folderDrive, today, Flatten(backupDir, fs.entries)[k].path,
                      opens(Flatten(backupDir, fs.entries)[k].path)) == Run(r.1, None)
    // Past the gates, the first entry with the ID is uploaded, and the reply is the upload's outcome.
    ensures header != "" && CheckAuth(drive) && fs.Listing? ==>
      forall k :: FirstWithId(Flatten(backupDir, fs.entries), id, k) ==>
        var b := Flatten(backupDir, fs.entries)[k];
        var run := UploadFile(st, f, drive, folderDrive, today, b.path, opens(b.path));
        && r.1 == run.store
        && (run.error.Some? ==> r.0 == Home(UploadFailed(run.error.value)))
        && (run.error.None? ==> r.0 == Home(FileUploaded(b.name)))
  {
    if header == "" then (Home(LoginRequired), st)
    else if !CheckAuth(drive) then (DriveAuth, st)
    else
      match GetAllBackups(backupDir, fs)
      case Err(e) => (Home(CatalogFailed(e)), st)
      case Ok(backups) =>
        FindByIdIsFirst(backups, id);
        match FindById(backups, id)
        case None => (Home(UnknownId(id)), st)
        case Some(b) =>
          var run := UploadFile(st, f, drive, folderDrive, today, b.path, opens(b.path));
          if run.error.Some? then (Home(UploadFailed(run.error.value)), run.store)
          else (Home(FileUploaded(b.name)), run.store)
  }

  /** What `os.Stat` reports for a path: present, absent (`os.IsNotExist`),
      or another failure such as a permission error. */
  datatype StatOutcome = Present | NotFound | StatFailed

  /** `DownloadHandler` for the path parameter `id` and the query parameter
      `token`. The Drive token plays no part. */
  function DownloadHandler(token: string, decode: string -> Decoded, secret: string,
                           now: Instant, backupDir: string, fs: LocalFs, id: string,
                           stat: string -> StatOutcome): (r: Reply)
    ensures token == "" ==> r == Home(LoginRequired)
    ensures token != "" && ValidateJWT(token, decode, secret, now).Err? ==> r == Home(SessionInvalid)
    // A file is served only behind a valid token, and it is the first entry with the ID.
    ensures r.Attachment? ==>
      && ValidateJWT(token, decode, secret, now).Ok? && fs.Listing?
      && (exists k :: FirstWithId(Flatten(backupDir, fs.entries), id, k)
           && r == Attachment(Flatten(backupDir, fs.entries)[k].path, Flatten(backupDir, fs.entries)[k].name)
           && stat(r.path) != NotFound)
    ensures r.Home? && r.notice.FileMissing? ==>
      fs.Listing? && exists k :: FirstWithId(Flatten(backupDir, fs.entries), id, k) && stat(Flatten(backupDir, fs.entries)[k].path) == NotFound
    // Behind a valid token: the catalog error, the unknown ID, or the first entry with the ID,
    // served unless it does not exist.
    ensures token != "" && ValidateJWT(token, decode, secret, now).Ok? && fs.Unreadable? ==>
      r == Home(CatalogFailed(ReadDirPrefix + fs.reason))
    ensures token != "" && ValidateJWT(token, decode, secret, now).Ok? && fs.Listing?
            && (forall j :: 0 <= j < |Flatten(backupDir, fs.entries)| ==> Flatten(backupDir, fs.entries)[j].id != id) ==>
      r == Home(UnknownId(id))
    ensures token != "" && ValidateJWT(token, decode, secret, now).Ok? && fs.Listing? ==>
      forall k :: FirstWithId(Flatten(backupDir, fs.entries), id, k) ==>
        var b := Flatten(backupDir, fs.entries)[k];
        r == (if stat(b.path) == NotFound then Home(FileMissing(b.name)) else Attachment(b.path, b.name))
  {
    if token == "" then Home(LoginRequired)
    else if ValidateJWT(token, decode, secret, now).Err? then Home(SessionInvalid)
    else
      match GetAllBackups(backupDir, fs)
      case Err(e) => Home(CatalogFailed(e))
      case Ok(backups) =>
        FindByIdIsFirst(backups, id);
        match FindById(backups, id)
        case None => Home(UnknownId(id))
        case Some(b) =>
          if stat(b.path) == NotFound then Home(FileMissing(b.name)) else Attachment(b.path, b.name)
  }

  /** Only a missing file stops a download at the last step: a file that
      cannot be inspected for another reason is still handed over. */
  lemma StatFailureStillServed(token: string, decode: string -> Decoded, secret: string,
                               now: Instant, backupDir: string, fs: LocalFs, id: string,
                               stat: string -> StatOutcome, k: int)
    requires token != "" && ValidateJWT(token, decode, secret, now).Ok? && fs.Listing?
    requires FirstWithId(Flatten(backupDir, fs.entries), id, k)
    requires stat(Flatten(backupDir, fs.entries)[k].path) == StatFailed
    ensures DownloadHandler(token, decode, secret, now, backupDir, fs, id, stat)
         == Attachment(Flatten(backupDir, fs.entries)[k].path, Flatten(backupDir, fs.entries)[k].name)
  {
    FindByIdIsFirst(Flatten(backupDir, fs.entries), id);
  }

  // ---------------------------------------------------------------------
  // OAuthCallbackHandler
  // ---------------------------------------------------------------------

  datatype CallbackPage = MissingCode | ExchangeError(error: string) | Authorised

  /** `OAuthCallbackHandler`: 400 without a code or when the exchange or the
      save fails, 200 once the token is stored. */
  function OAuthCallback(code: string, drive: TokenFile, exchange: Result<Token, string>, save: SaveOutcome)
    : (r: (int, CallbackPage, TokenFile))
    ensures code == "" ==> r == (BadRequest, MissingCode, drive)
    ensures r.0 == OK <==> code != "" && exchange.Ok? && save.Saved?
    ensures r.0 != OK ==> r.0 == BadRequest
    ensures r.0 == OK ==> r.2 == Stored(exchange.value) && CheckAuth(r.2)
  {
    if code == "" then (BadRequest, MissingCode, drive)
    else
      var (drive', result) := ExchangeAuthCode(drive, exchange, save);
      match result
      case Err(e) => (BadRequest, ExchangeError(e), drive')
      case Ok(_) => (OK, Authorised, drive')
  }
}

=== FILE: results.dfy ===
/** Failure-carrying wrappers shared by every module of the backup model.
    Go's `(value, error)` pairs become `Result`; pointers that may be nil
    become `Option`. */
module Results {

  datatype Option<+T> = None | Some(value: T)

  datatype Result<+T, +E> = Ok(value: T) | Err(error: E) {

    predicate IsOk() {
      Ok?
    }
  }
}

=== FILE: sync.dfy ===
/** Idempotence of the uploader of internal/drive/drive.go.

    A run of `UploadAllBackups` in which no remote call fails leaves the
    store "synced" with the local backups: every date folder exists under
    the root folder and holds every backup that could be placed. A synced
    store is a fixed point: running again, under any remote failures at
    all, creates nothing. The same holds for a repeated `UploadFile`. */
module Sync {
  import opened Results
  import opened Text
  import opened Clock
  import opened Catalog
  import opened Credentials
  import opened Drive

  /** Whether a clean run places this file: the names fit in a query and the
      local file opens. */
  predicate Placeable(folder: string, name: string, opens: bool) {
    Literal(folder) && Literal(name) && opens
  }

  /** Every placeable file of a bucket is in the folder `d`. */
  predicate FilesSynced(st: Store, d: string, dirPath: string, files: seq<LocalFile>) {
    forall i :: 0 <= i < |files| && Placeable(d, RemoteName(dirPath, files[i]), files[i].opens) ==>
      HasFile(st, RemoteName(dirPath, files[i]), d)
  }

  /** A date directory has its folder under the root folder, and that folder
      holds its placeable files. */
  predicate BucketSynced(st: Store, rootId: string, backupDir: string, e: RootEntry) {
    e.DateDir? && Literal(rootId) && Literal(e.name) ==>
      var found := Select(st.objects, FolderLookup(e.name, rootId));
      found != [] && (e.globOk ==> FilesSynced(st, found[0].id, JoinPath(backupDir, e.name), Glob(e.files)))
  }

  predicate BucketsSynced(st: Store, rootId: string, backupDir: string, entries: seq<RootEntry>) {
    forall i :: 0 <= i < |entries| ==> BucketSynced(st, rootId, backupDir, entries[i])
  }

  /** The root folder exists and the whole backup root is mirrored under it. */
  predicate Synced(st: Store, token: TokenFile, folderDrive: string, backupDir: string, fs: LocalFs) {
    CheckAuth(token) && Literal(folderDrive) ==>
      var found := Select(st.objects, FolderLookup(folderDrive, ""));
      found != [] && (fs.Listing? ==> BucketsSynced(st, found[0].id, backupDir, fs.entries))
  }

  // ---------------------------------------------------------------------
  // Being synced survives growth of the store
  // ---------------------------------------------------------------------

  lemma FilesSyncedStable(a: Store, b: Store, d: string, dirPath: string, files: seq<LocalFile>)
    requires Extends(a, b) && FilesSynced(a, d, dirPath, files)
    ensures FilesSynced(b, d, dirPath, files)
  {
    forall i | 0 <= i < |files| && Placeable(d, RemoteName(dirPath, files[i]), files[i].opens)
      ensures HasFile(b, RemoteName(dirPath, files[i]), d)
    {
      HasFileStable(a, b, RemoteName(dirPath, files[i]), d);
    }
  }

  lemma BucketSyncedStable(a: Store, b: Store, rootId: string, backupDir: string, e: RootEntry)
    requires Extends(a, b) && BucketSynced(a, rootId, backupDir, e)
    ensures BucketSynced(b, rootId, backupDir, e)
  {
    if e.DateDir? && Literal(rootId) && Literal(e.name) {
      var q := FolderLookup(e.name, rootId);
      SelectStable(a, b, q);
      if e.globOk {
        FilesSyncedStable(a, b, Select(a.objects, q)[0].id, JoinPath(backupDir, e.name), Glob(e.files));
      }
    }
  }

  // ---------------------------------------------------------------------
  // A clean run syncs
  // ---------------------------------------------------------------------

  lemma {:induction false} CleanFilesSync(st: Store, bucket: string, d: string, dirPath: string, files: seq<LocalFile>)
    ensures FilesSynced(UploadFiles(st, NoFaults, bucket, d, dirPath, files).store, d, dirPath, files)
    decreases |files|
  {
    if files != [] {
      var name := RemoteName(dirPath, files[0]);
      var (st1, outcome) := PlaceFile(st, NoFaults, name, d, files[0].opens);
      var rest := UploadFiles(st1, NoFaults, bucket, d, dirPath, files[1..]);
      assert UploadFiles(st, NoFaults, bucket, d, dirPath, files).store == rest.store;
      CleanFilesSync(st1, bucket, d, dirPath, files[1..]);
      if Placeable(d, name, files[0].opens) {
        assert outcome.Uploaded? || outcome.AlreadyPresent?;
        HasFileStable(st1, rest.store, name, d);
      }
      forall i | 1 <= i < |files| && Placeable(d, RemoteName(dirPath, files[i]), files[i].opens)
        ensures HasFile(rest.store, RemoteName(dirPath, files[i]), d)
      {
        assert files[i] == files[1..][i - 1];
      }
    }
  }

  lemma CleanBucketSync(st: Store, rootId: string, backupDir: string, e: RootEntry)
    ensures BucketSynced(UploadBucket(st, NoFaults, rootId, backupDir, e).store, rootId, backupDir, e)
  {
    if e.DateDir? && Literal(rootId) && Literal(e.name) {
      var q := FolderLookup(e.name, rootId);
      var date := CreateOrFindFolder(st, NoFaults, e.name, rootId).value;
      if e.globOk {
        var dirPath := JoinPath(backupDir, e.name);
        var done := UploadFiles(date.store, NoFaults, e.name, date.id, dirPath, Glob(e.files));
        CleanFilesSync(date.store, e.name, date.id, dirPath, Glob(e.files));
        SelectStable(date.store, done.store, q);
      }
    }
  }

  lemma {:induction false} CleanBucketsSync(st: Store, rootId: string, backupDir: string, entries: seq<RootEntry>)
    ensures BucketsSynced(UploadBuckets(st, NoFaults, rootId, backupDir, entries).store, rootId, backupDir, entries)
    decreases |entries|
  {
    if entries != [] {
      var here := UploadBucket(st, NoFaults, rootId, backupDir, entries[0]);
      var rest := UploadBuckets(here.store, NoFaults, rootId, backupDir, entries[1..]);
      assert UploadBuckets(st, NoFaults, rootId, backupDir, entries).store == rest.store;
      CleanBucketSync(st, rootId, backupDir, entries[0]);
      BucketSyncedStable(here.store, rest.store, rootId, backupDir, entries[0]);
      CleanBucketsSync(here.store, rootId, backupDir, entries[1..]);
      forall i | 1 <= i < |entries|
        ensures BucketSynced(rest.store, rootId, backupDir, entries[i])
      {
        assert entries[i] == entries[1..][i - 1];
      }
    }
  }

  /** After a run in which no remote call fails, every backup that could be
      placed is on the remote side, in the folder of its own date directory
      under the root folder. */
  lemma CleanRunSyncs(st: Store, token: TokenFile, folderDrive: string, backupDir: string, fs: LocalFs)
    ensures Synced(UploadAllBackups(st, NoFaults, token, folderDrive, backupDir, fs).store, token, folderDrive, backupDir, fs)
  {
    if CheckAuth(token) && Literal(folderDrive) && fs.Listing? {
      var q := FolderLookup(folderDrive, "");
      var root := CreateOrFindFolder(st, NoFaults, folderDrive, "").value;
      var done := UploadBuckets(root.store, NoFaults, root.id, backupDir, fs.entries);
      CleanBucketsSync(root.store, root.id, backupDir, fs.entries);
      SelectStable(root.store, done.store, q);
    }
  }

  // ---------------------------------------------------------------------
  // A synced store is a fixed point
  // ---------------------------------------------------------------------

  lemma {:induction false} SyncedFilesUnchanged(st: Store, f: Faults, bucket: string, d: string, dirPath: string, files: seq<LocalFile>)
    requires FilesSynced(st, d, dirPath, files)
    ensures UploadFiles(st, f, bucket, d, dirPath, files).store == st
    decreases |files|
  {
    if files != [] {
      var name := RemoteName(dirPath, files[0]);
      var (st1, outcome) := PlaceFile(st, f, name, d, files[0].opens);
      var opens0 := files[0].opens;
      assert Placeable(d, name, opens0) ==> HasFile(st, name, d);
      forall i | 0 <= i < |files[1..]| && Placeable(d, RemoteName(dirPath, files[1..][i]), files[1..][i].opens)
        ensures HasFile(st, RemoteName(dirPath, files[1..][i]), d)
      {
        assert files[1..][i] == files[i + 1];
      }
      SyncedFilesUnchanged(st, f, bucket, d, dirPath, files[1..]);
    }
  }

  lemma SyncedBucketUnchanged(st: Store, f: Faults, rootId: string, backupDir: string, e: RootEntry)
    requires BucketSynced(st, rootId, backupDir, e)
    ensures UploadBucket(st, f, rootId, backupDir, e).store == st
  {
    if e.DateDir? {
      var r := CreateOrFindFolder(st, f, e.name, rootId);
      if r.Ok? && e.globOk {
        var found := Select(st.objects, FolderLookup(e.name, rootId));
        assert r.value == Resolved(st, found[0].id);
        SyncedFilesUnchanged(st, f, e.name, found[0].id, JoinPath(backupDir, e.name), Glob(e.files));
      }
    }
  }

  lemma {:induction false} SyncedBucketsUnchanged(st: Store, f: Faults, rootId: string, backupDir: string, entries: seq<RootEntry>)
    requires BucketsSynced(st, rootId, backupDir, entries)
    ensures UploadBuckets(st, f, rootId, backupDir, entries).store == st
    decreases |entries|
  {
    if entries != [] {
      SyncedBucketUnchanged(st, f, rootId, backupDir, entries[0]);
      forall i | 0 <= i < |entries[1..]|
        ensures BucketSynced(st, rootId, backupDir, entries[1..][i])
      {
        assert entries[1..][i] == entries[i + 1];
      }
      SyncedBucketsUnchanged(st, f, rootId, backupDir, entries[1..]);
    }
  }

  /** Nothing is created over a synced store, whatever fails remotely. */
  lemma SyncedRunUnchanged(st: Store, f: Faults, token: TokenFile, folderDrive: string, backupDir: string, fs: LocalFs)
    requires Synced(st, token, folderDrive, backupDir, fs)
    ensures UploadAllBackups(st, f, token, folderDrive, backupDir, fs).store == st
  {
    var r := CreateOrFindFolder(st, f, folderDrive, "");
    if CheckAuth(token) && r.Ok? {
      var found := Select(st.objects, FolderLookup(folderDrive, ""));
      assert r.value == Resolved(st, found[0].id);
      if fs.Listing? {
        SyncedBucketsUnchanged(st, f, found[0].id, backupDir, fs.entries);
      }
    }
  }

  /** `UploadAllBackups` is idempotent: after a run in which no remote call
      fails, a second run over the same local backups creates nothing, even
      if remote calls fail during it. */
  lemma UploadAllIdempotent(st: Store, f: Faults, token: TokenFile, folderDrive: string, backupDir: string, fs: LocalFs)
    ensures var first := UploadAllBackups(st, NoFaults, token, folderDrive, backupDir, fs);
      UploadAllBackups(first.store, f, token, folderDrive, backupDir, fs).store == first.store
  {
    CleanRunSyncs(st, token, folderDrive, backupDir, fs);
    SyncedRunUnchanged(UploadAllBackups(st, NoFaults, token, folderDrive, backupDir, fs).store, f, token, folderDrive, backupDir, fs);
  }

  // ---------------------------------------------------------------------
  // UploadFile
  // ---------------------------------------------------------------------

  /** The upload into today's folder, when that folder and the file are
      already found, creates nothing; with no failures it succeeds. */
  lemma UploadTodayFindsAll(s: Store, g: Faults, rootId: string, today: DateTime, name: string, opens: bool, dateId: string)
    requires Literal(rootId) && Literal(DateFolder(today)) && Literal(name) && Literal(dateId)
    requires Select(s.objects, FolderLookup(DateFolder(today), rootId)) != []
    requires Select(s.objects, FolderLookup(DateFolder(today), rootId))[0].id == dateId
    requires HasFile(s, name, dateId)
    ensures var r := UploadToday(s, g, rootId, today, name, opens);
      r.store == s && (g == NoFaults ==> r.error.None?)
  {
    var d2 := CreateOrFindFolder(s, g, DateFolder(today), rootId);
    if d2.Ok? {
      assert d2.value == Resolved(s, dateId);
      var placed := PlaceFile(s, g, name, dateId, opens);
      assert placed.0 == s;
      assert g == NoFaults ==> placed.1.AlreadyPresent?;
    }
  }

  /** An upload into a store where the root folder, today's folder and the
      file are all found first creates nothing; with no failures it
      succeeds. */
  lemma UploadFileFindsAll(s: Store, g: Faults, token: TokenFile, folderDrive: string, today: DateTime,
                           filePath: string, opens: bool, rootId: string, dateId: string)
    requires CheckAuth(token) && Literal(folderDrive) && Literal(DateFolder(today)) && Literal(Base(filePath))
    requires Literal(rootId) && Literal(dateId)
    requires Select(s.objects, FolderLookup(folderDrive, "")) != []
    requires Select(s.objects, FolderLookup(folderDrive, ""))[0].id == rootId
    requires Select(s.objects, FolderLookup(DateFolder(today), rootId)) != []
    requires Select(s.objects, FolderLookup(DateFolder(today), rootId))[0].id == dateId
    requires HasFile(s, Base(filePath), dateId)
    ensures var r := UploadFile(s, g, token, folderDrive, today, filePath, opens);
      r.store == s && (g == NoFaults ==> r.error.None?)
  {
    var r2 := CreateOrFindFolder(s, g, folderDrive, "");
    if r2.Ok? {
      assert r2.value == Resolved(s, rootId);
      UploadTodayFindsAll(s, g, rootId, today, Base(filePath), opens, dateId);
    }
  }

  /** Once `UploadFile` has succeeded, repeating it the same day leaves the
      store as it is, whatever fails remotely and whether or not the local
      file still opens; with no remote failure the repeat succeeds too. */
  lemma UploadFileIdempotent(st: Store, f: Faults, g: Faults, token: TokenFile, folderDrive: string,
                             today: DateTime, filePath: string, opens: bool, opensAgain: bool)
    requires UploadFile(st, f, token, folderDrive, today, filePath, opens).error.None?
    ensures var first := UploadFile(st, f, token, folderDrive, today, filePath, opens);
      var second := UploadFile(first.store, g, token, folderDrive, today, filePath, opensAgain);
      second.store == first.store && (g == NoFaults ==> second.error.None?)
  {
    var name := Base(filePath);
    var rq := FolderLookup(folderDrive, "");
    var root := CreateOrFindFolder(st, f, folderDrive, "").value;
    var dq := FolderLookup(DateFolder(today), root.id);
    var date := CreateOrFindFolder(root.store, f, DateFolder(today), root.id).value;
    var (s3, outcome) := PlaceFile(date.store, f, name, date.id, opens);
    assert outcome.Uploaded? || outcome.AlreadyPresent?;
    assert List(root.store, f, dq).Ok? && CheckFileExists(date.store, f, name, date.id).Ok?;
    SelectStable(root.store, s3, rq);
    SelectStable(date.store, s3, dq);
    UploadFileFindsAll(s3, g, token, folderDrive, today, filePath, opensAgain, root.id, date.id);
  }
}

=== FILE: text.dfy ===
/** String helpers with Go's semantics: decimal rendering as `fmt` and
    `time.Format` produce it, `strings.Split` / `strings.Join` on a
    one-character separator, and `filepath.Base` on slash-separated paths. */
module Text {

  // ---------------------------------------------------------------------
  // Decimal digits
  // ---------------------------------------------------------------------

  predicate IsDigit(c: char) {
    '0' <= c <= '9'
  }

  predicate AllDigits(s: string) {
    forall i :: 0 <= i < |s| ==> IsDigit(s[i])
  }

  function DigitChar(d: nat): (c: char)
    requires d < 10
    ensures IsDigit(c)
  {
    (('0' as int) + d) as char
  }

  function DigitValue(c: char): (d: nat)
    requires IsDigit(c)
    ensures d < 10
  {
    (c as int) - ('0' as int)
  }

  /** The number a string of decimal digits denotes, most significant first. */
  function Value(s: string): nat
    requires AllDigits(s)
  {
    if s == [] then 0 else 10 * Value(s[..|s| - 1]) + DigitValue(s[|s| - 1])
  }

  function Pow10(k: nat): (p: nat)
    ensures p >= 1
  {
    if k == 0 then 1 else 10 * Pow10(k - 1)
  }

  /** Shortest decimal rendering of `n`, as `%d` prints a non-negative value. */
  function Digits(n: nat): (s: string)
    ensures 1 <= |s|
    ensures AllDigits(s)
    ensures Value(s) == n
  {
    if n < 10 then [DigitChar(n)]
    else
      var s := Digits(n / 10) + [DigitChar(n % 10)];
      assert s[..|s| - 1] == Digits(n / 10);
      s
  }

  lemma {:induction false} DigitsFit(n: nat, width: nat)
    requires 1 <= width
    requires n < Pow10(width)
    ensures |Digits(n)| <= width
    decreases width
  {
    if n >= 10 {
      assert Pow10(1) == 10;
      assert width >= 2;
      assert n / 10 < Pow10(width - 1);
      DigitsFit(n / 10, width - 1);
    }
  }

  function Zeros(k: nat): (s: string)
    ensures |s| == k
    ensures forall i :: 0 <= i < k ==> s[i] == '0'
  {
    if k == 0 then [] else Zeros(k - 1) + ['0']
  }

  lemma {:induction false} LeadingZerosValue(k: nat, s: string)
    requires AllDigits(s)
    ensures AllDigits(Zeros(k) + s)
    ensures Value(Zeros(k) + s) == Value(s)
    decreases |s|
  {
    var z := Zeros(k) + s;
    if s == [] {
      assert z == Zeros(k);
      ZerosValue(k);
    } else {
      var init := s[..|s| - 1];
      LeadingZerosValue(k, init);
      assert z[..|z| - 1] == Zeros(k) + init;
    }
  }

  lemma {:induction false} ZerosValue(k: nat)
    ensures AllDigits(Zeros(k))
    ensures Value(Zeros(k)) == 0
  {
    if k > 0 {
      ZerosValue(k - 1);
      assert Zeros(k)[..k - 1] == Zeros(k - 1);
    }
  }

  /** Zero-padded rendering of `n` in at least `width` digits, the way Go's
      time layouts print `01`, `02`, `15`, `04`, `05` and `2006`. */
  function Pad(n: nat, width: nat): (s: string)
    ensures AllDigits(s)
    ensures |s| >= width
    ensures Value(s) == n
    ensures 1 <= width && n < Pow10(width) ==> |s| == width
  {
    var d := Digits(n);
    var s := if |d| >= width then d else Zeros(width - |d|) + d;
    LeadingZerosValue(if |d| >= width then 0 else width - |d|, d);
    if 1 <= width && n < Pow10(width) then DigitsFit(n, width); s else s
  }

  /** Signed decimal rendering, as `%d` prints an `int64`. */
  function IntText(i: int): (s: string)
    ensures 1 <= |s|
    ensures i >= 0 ==> s == Digits(i)
    ensures i < 0 ==> s == "-" + Digits(-i)
  {
    if i < 0 then "-" + Digits(-i) else Digits(i)
  }

  // ---------------------------------------------------------------------
  // Prefixes, suffixes, membership
  // ---------------------------------------------------------------------

  predicate HasPrefix(s: string, p: string) {
    |p| <= |s| && s[..|p|] == p
  }

  predicate HasSuffix(s: string, x: string) {
    |x| <= |s| && s[|s| - |x|..] == x
  }

  // ---------------------------------------------------------------------
  // strings.Split and strings.Join with a one-character separator
  // ---------------------------------------------------------------------

  /** `strings.Split(s, [sep])`: every occurrence of `sep` separates two
      pieces, so `n` separators always give `n + 1` pieces (possibly empty). */
  function Split(s: string, sep: char): (parts: seq<string>)
    ensures |parts| >= 1
    ensures forall i :: 0 <= i < |parts| ==> sep !in parts[i]
    decreases |s|
  {
    if s == [] then [[]]
    else
      var rest := Split(s[1..], sep);
      if s[0] == sep then [[]] + rest
      else [[s[0]] + rest[0]] + rest[1..]
  }

  /** `strings.Join(parts, sep)`. */
  function Join(parts: seq<string>, sep: string): string
  {
    if parts == [] then []
    else if |parts| == 1 then parts[0]
    else parts[0] + sep + Join(parts[1..], sep)
  }

  function Count(s: string, c: char): nat
  {
    if s == [] then 0 else (if s[0] == c then 1 else 0) + Count(s[1..], c)
  }

  /** Splitting and re-joining on the same separator gives back the input. */
  lemma {:induction false} JoinSplit(s: string, sep: char)
    ensures Join(Split(s, sep), [sep]) == s
    decreases |s|
  {
    if s != [] {
      var rest := Split(s[1..], sep);
      JoinSplit(s[1..], sep);
      if s[0] == sep {
        assert Split(s, sep) == [[]] + rest;
      } else {
        assert Split(s, sep) == [[s[0]] + rest[0]] + rest[1..];
        if |rest| > 1 {
          assert rest == [rest[0]] + rest[1..];
          assert Join(rest, [sep]) == rest[0] + [sep] + Join(rest[1..], [sep]);
        }
      }
    }
  }

  /** The number of pieces is one more than the number of separators. */
  lemma {:induction false} SplitCount(s: string, sep: char)
    ensures |Split(s, sep)| == Count(s, sep) + 1
    decreases |s|
  {
    if s != [] {
      SplitCount(s[1..], sep);
    }
  }

  lemma {:induction false} CountZero(s: string, c: char)
    ensures Count(s, c) == 0 <==> c !in s
    decreases |s|
  {
    if s != [] {
      CountZero(s[1..], c);
      assert s == [s[0]] + s[1..];
    }
  }

  lemma {:induction false} CountAppend(a: string, b: string, c: char)
    ensures Count(a + b, c) == Count(a, c) + Count(b, c)
    decreases |a|
  {
    if a != [] {
      CountAppend(a[1..], b, c);
      assert (a + b)[1..] == a[1..] + b;
    } else {
      assert a + b == b;
    }
  }

  /** A string without the separator splits into itself alone. */
  lemma {:induction false} SplitNoSeparator(s: string, sep: char)
    requires sep !in s
    ensures Split(s, sep) == [s]
    decreases |s|
  {
    if s != [] {
      SplitNoSeparator(s[1..], sep);
      assert [s[0]] + s[1..] == s;
    }
  }

  /** Splitting `a + [sep] + b` when `a` has no separator puts `a` first. */
  lemma {:induction false} SplitAt(a: string, b: string, sep: char)
    requires sep !in a
    ensures Split(a + [sep] + b, sep) == [a] + Split(b, sep)
    decreases |a|
  {
    var s := a + [sep] + b;
    if a == [] {
      assert s[1..] == b;
    } else {
      assert s[1..] == a[1..] + [sep] + b;
      SplitAt(a[1..], b, sep);
      assert [a[0]] + a[1..] == a;
    }
  }

  // ---------------------------------------------------------------------
  // Slash-separated paths (filepath.Join and filepath.Base on Unix)
  // ---------------------------------------------------------------------

  /** A single directory-entry name as the OS reports it: non-empty and free
      of the separator. */
  predicate IsEntryName(name: string) {
    |name| > 0 && '/' !in name
  }

  /** `filepath.Join(dir, name)` for a clean directory and an entry name. */
  function JoinPath(dir: string, name: string): string
  {
    dir + "/" + name
  }

  function TrimTrailingSlashes(p: string): (r: string)
    ensures |r| <= |p| && r == p[..|r|]
    ensures r == [] || r[|r| - 1] != '/'
  {
    if p != [] && p[|p| - 1] == '/' then TrimTrailingSlashes(p[..|p| - 1]) else p
  }

  /** The part after the last slash (the whole string if there is none). */
  function AfterLastSlash(p: string): (r: string)
    ensures '/' !in r
    ensures |r| <= |p| && r == p[|p| - |r|..]
  {
    if p == [] then []
    else if p[|p| - 1] == '/' then []
    else AfterLastSlash(p[..|p| - 1]) + [p[|p| - 1]]
  }

  /** `filepath.Base`: the last element of the path after trailing slashes
      are removed; "." for the empty path and "/" for a path of slashes only. */
  function Base(p: string): (r: string)
    ensures |r| > 0
  {
    if p == [] then "."
    else
      var trimmed := TrimTrailingSlashes(p);
      var last := AfterLastSlash(trimmed);
      if last == [] then "/" else last
  }

  lemma {:induction false} AfterLastSlashOf(dir: string, name: string)
    requires '/' !in name
    ensures AfterLastSlash(dir + "/" + name) == name
    decreases |name|
  {
    var p := dir + "/" + name;
    if name != [] {
      var init := name[..|name| - 1];
      assert p[..|p| - 1] == dir + "/" + init;
      AfterLastSlashOf(dir, init);
      assert init + [name[|name| - 1]] == name;
    }
  }

  /** The base of a joined path is the entry name that was joined. */
  lemma BaseOfJoin(dir: string, name: string)
    requires IsEntryName(name)
    ensures Base(JoinPath(dir, name)) == name
  {
    var p := JoinPath(dir, name);
    assert p[|p| - 1] == name[|name| - 1];
    assert TrimTrailingSlashes(p) == p;
    AfterLastSlashOf(dir, name);
  }
}
